=== FILE: README.md ===
# Trading engine and strategies — a Dafny model

This project models the core of a single-asset trading backtester and of the
strategies that feed it:

- the **portfolio** ledger: cash, open positions keyed by symbol, closed
  trades, the equity history and the accumulated commission;
- market orders with **slippage** and **commission**, buys, sells, averaging
  into a long position and closing a position into a trade;
- the **backtest loop**: one signal per bar, 95% of the cash invested on a buy
  signal, the tracked position sold on a sell signal, equity recorded after
  every bar, and a forced close of what is left after the last bar;
- the **metrics** computed from the trades and the equity curve: win rate,
  averages, profit factor, return, the Sharpe guard and the maximum drawdown;
- the **combined strategy**, which counts buy and sell votes per row and
  applies a consensus threshold, and the **configuration parser** with the
  clamp of the consensus threshold;
- the **data validator** (`validate` and `clean`);
- the signal rules of the **MA200/MA100**, **OBV**, **Parabolic SAR** and
  **Elliott waves** strategies.

Money and prices are `real`. Python exceptions become an `Outcome` whose
error names the exception (`ValueError`, `ZeroDivisionError`, `IndexError`,
`TypeError`). A pandas table becomes a record type plus a set of column
names. A missing value (NaN, NaT) is `None`. A floating-point result that
can be infinite or NaN, such as the profit factor, is an `Extended` value.

The module layout follows the source. `Wrappers` holds `Option` and
`Outcome`. `Series` holds sums, rolling means and signal values. `Models`,
`Portfolio` and `PortfolioProperties`, `Backtest`, `Metrics`, `Combined`,
`ConfigLoader` and `Validator` follow the engine. `Crossing` is the
"state flips on / flips off" rule that the MA, OBV and SAR strategies share.
`MaCross` covers both `ma200.py` and `ma100.py`, which differ only in their
default period. `Obv`, `ParabolicSar` and `ElliottWaves` complete the set.

**Realised pnl.** Closing a position (`portfolio.py:208-211`) subtracts only
the closing order's commission from the trade's pnl. The opening commission
is paid out of cash but never charged to the trade.
`PortfolioProperties.WorkedRoundTrip` pins the figure for buying 10 units at
100 and selling them at 110 with the default rates: a pnl of 97.85055.

## Model

| member | source | states |
|---|---|---|
| Models.NewOrder | engine/src/trading_engine/models.py:38-54 | A new order is a pending market order with no limit price, no fill and zero commission. A missing timestamp defaults to the supplied clock reading. |
| Models.LongShortExclusive | engine/src/trading_engine/models.py:70-77 | A position is long, short or flat, and never both long and short. |
| Models.MarketValue | engine/src/trading_engine/models.py:80-83 | The market value is the absolute quantity times the current price. A missing or zero current price falls back to the entry price. The value is non-negative whenever that price is. |
| Models.UnrealizedPnl | engine/src/trading_engine/models.py:86-92 | The unrealised pnl is zero without a current price and zero for a flat position. |
| Models.PnlIsValueChange | engine/src/trading_engine/models.py:80-92 | With a non-zero current price, the unrealised pnl is exactly the change of market value against the cost basis. It is value minus cost for a long position and cost minus value for a short one. |
| Models.PnlPercent | engine/src/trading_engine/models.py:95-99 | A zero entry price yields 0. A flat position with a non-zero entry price divides by zero. Otherwise the percentage times the cost basis (entry price times the absolute quantity) is 100 times the unrealised pnl, so it has the pnl's sign. |
| Models.PnlPercentSizeFree | engine/src/trading_engine/models.py:95-99 | Scaling an open position's quantity by a positive factor leaves its pnl percentage unchanged. |
| Models.ScaledPnl | engine/src/trading_engine/models.py:80-92 | Scaling an open position's quantity by a positive factor scales its unrealised pnl by the same factor. |
| Models.BreakEvenIsNotWinner | engine/src/trading_engine/models.py:119-121 | A trade with zero pnl does not count as a winner. |
| Portfolio.Find | engine/src/trading_engine/portfolio.py:98 | The index found holds the symbol. No index means no entry of the book holds it. |
| Portfolio.Lookup | engine/src/trading_engine/portfolio.py:98 | The position found belongs to the book and carries the symbol. No position means the symbol is not held. |
| Portfolio.LookupAt | engine/src/trading_engine/portfolio.py:98 | With distinct symbols, looking up any held position's symbol returns that very position. |
| Portfolio.PutLookup | engine/src/trading_engine/portfolio.py:140-148 | Storing a position keeps the symbols distinct and maps its symbol to it. Every other symbol maps to what it did before. |
| Portfolio.RemoveLookup | engine/src/trading_engine/portfolio.py:231 | Deleting a symbol keeps the symbols distinct and leaves the symbol unmapped. Every other symbol is unaffected. |
| Portfolio.NewPortfolio | engine/src/trading_engine/portfolio.py:15-36 | A new ledger holds only the initial cash. It has no positions, no trades, no equity history and zero commission. |
| Portfolio.BookValueAppend | engine/src/trading_engine/portfolio.py:60-67 | The value of the book is additive over its positions. |
| Portfolio.ExecutionPrice | engine/src/trading_engine/portfolio.py:87-91 | With non-negative rate and price, slippage makes a buy no cheaper and a sell no dearer than the market price. |
| Portfolio.ClosePosition | engine/src/trading_engine/portfolio.py:199-231 | A zero cost basis divides by zero. Otherwise exactly one trade is appended with the position's symbol, prices, times, absolute quantity and side. Its pnl is net of the closing commission only, its percentage is relative to the cost basis, and the position is removed while nothing else changes. |
| Portfolio.ExecuteBuy | engine/src/trading_engine/portfolio.py:105-158 | A buy is rejected exactly when its cost plus commission exceeds the cash, and a rejection changes nothing. A fill pays that amount out of cash without overdrawing it and leaves other symbols alone. It averages the entry price into a long position and opens a new position when none is held. Against a short position it closes the whole short into one appended trade: the short's entry and size, the fill price and time, the closing commission, and the pnl net of that commission. |
| Portfolio.ExecuteSell | engine/src/trading_engine/portfolio.py:160-197 | A sell is rejected exactly when no position is held or fewer units are held than requested. A fill credits the proceeds net of commission. Selling everything closes the position into one appended trade: the position's entry and size, the fill price and time, the closing commission, and the pnl net of that commission. A partial sell only lowers the quantity. |
| Portfolio.ExecuteOrder | engine/src/trading_engine/portfolio.py:76-103 | The order ends filled or rejected, and a rejection leaves the ledger unchanged. A fill records the slipped price and the commission on that price, and adds the commission to the running total. |
| Portfolio.UpdatePositions | engine/src/trading_engine/portfolio.py:238-246 | Marking a price changes only the current price of that symbol's position. An unheld symbol is a no-op. |
| Portfolio.RecordEquity | engine/src/trading_engine/portfolio.py:248-254 | One point is appended: the timestamp with cash plus market value of the book. Nothing else changes. |
| PortfolioProperties.SolventFromLookups | engine/src/trading_engine/portfolio.py:114-148 | A ledger with non-negative cash whose positions agree with a solvent ledger's, except for one symbol with non-negative quantity, is itself solvent. |
| PortfolioProperties.ExecutePreservesSolvency | engine/src/trading_engine/portfolio.py:76-197 | With rates in [0, 1], a non-negative price and quantity, no order drives the cash negative or a position short in a ledger that started out solvent. |
| PortfolioProperties.BookValuePutNew | engine/src/trading_engine/portfolio.py:140-148 | Opening a new position adds exactly its market value to the book. |
| PortfolioProperties.OpeningBuyCostsOnlyCommission | engine/src/trading_engine/portfolio.py:125-148 | Opening a position lowers equity by the commission alone: cash moves into the position at its execution price. |
| PortfolioProperties.RoundTripWithoutCosts | engine/src/trading_engine/portfolio.py:76-231 | Without commission and slippage, buying and then selling the same quantity at the same price restores the cash. It leaves no position and appends one trade with zero pnl. |
| PortfolioProperties.WorkedRoundTrip | engine/src/trading_engine/portfolio.py:88-95 | Buying 10 at 100 and selling at 110 with the default rates fills at 100.05 and 109.945, with commissions 1.0005 and 1.09945. The trade's pnl is 97.85055. |
| Metrics.Winners | engine/src/trading_engine/metrics.py:63 | Every selected trade has positive pnl, and there are no more of them than trades. Which trades are selected, and in which order, is stated by the three lemmas below. |
| Metrics.Losers | engine/src/trading_engine/metrics.py:64 | Every selected trade has pnl at most zero, and there are no more of them than trades. |
| Metrics.SelectMembers | engine/src/trading_engine/metrics.py:63-64 | A trade is among the winners exactly when it is one of the trades and a winner. It is among the losers exactly when it is one of the trades and not a winner. |
| Metrics.SelectOne | engine/src/trading_engine/metrics.py:63-64 | A single trade is kept by the winners' filter exactly when it wins, and by the losers' filter exactly when it does not. |
| Metrics.SelectAppend | engine/src/trading_engine/metrics.py:63-64 | Both filters distribute over concatenation. With the single-trade case this makes them the order-keeping list comprehensions. |
| Metrics.SumPnlAppend | engine/src/trading_engine/metrics.py:59 | Total pnl is additive over concatenated trade lists. |
| Metrics.WinnersLosersPartition | engine/src/trading_engine/metrics.py:63-64 | Winners and losers partition the trades, both in count and in total pnl. |
| Metrics.WinnersTotal | engine/src/trading_engine/metrics.py:71 | If there is any winner, the winners' total pnl is positive. |
| Metrics.LosersSumNonPositive | engine/src/trading_engine/metrics.py:72 | The losers' total is at most zero, and zero exactly when every loser broke even. |
| Metrics.AveragePnl | engine/src/trading_engine/metrics.py:67-68 | The average is 0 for an empty list and otherwise the total pnl divided by the number of trades. It is positive when the total is positive and at most zero when the total is. |
| Metrics.WinRate | engine/src/trading_engine/metrics.py:66 | The win rate lies between 0 and 100 and is the winners' share of the trades in percent. |
| Metrics.ReturnPercent | engine/src/trading_engine/metrics.py:60 | The return is the gain over the initial capital, in percent. |
| Metrics.ReturnOnCapital | engine/src/trading_engine/metrics.py:56-60 | Over a non-zero initial capital the return is finite and is the gain in percent. Over a zero capital, numpy's division gives positive infinity for a positive final capital, negative infinity for a negative one and NaN for zero. |
| Metrics.ProfitFactor | engine/src/trading_engine/metrics.py:70-73 | The factor is infinite exactly when every loser broke even, so the losses sum to zero. Otherwise it is finite, non-negative, and the winners' total divided by the absolute losers' total. |
| Metrics.GrossRatio | engine/src/trading_engine/metrics.py:73 | The ratio is finite exactly when the loss is positive, and then it is the profit divided by the loss. It is infinite exactly when the loss is zero. |
| Metrics.GrossTotals | engine/src/trading_engine/metrics.py:71-72 | The gross profit is never negative. The gross loss is positive exactly when some losing trade lost money. |
| Metrics.SharpeRatio | engine/src/trading_engine/metrics.py:102-129 | Fewer than two equity points, or a degenerate return series, give 0. Otherwise the result is the annualised ratio of the supplied numerics. |
| Metrics.PeakBounds | engine/src/trading_engine/metrics.py:147 | The running maximum bounds every earlier equity value. |
| Metrics.PeakAttained | engine/src/trading_engine/metrics.py:147 | The running maximum is one of the earlier equity values. |
| Metrics.LowestDrawdownBounds | engine/src/trading_engine/metrics.py:150-151 | The smallest drawdown is at most every point's value minus its running maximum. |
| Metrics.LowestDrawdownAttained | engine/src/trading_engine/metrics.py:150-151 | The smallest drawdown is attained at some point. |
| Metrics.MaxDrawdown | engine/src/trading_engine/metrics.py:132-157 | The maximum drawdown is non-negative and zero for an empty curve. It bounds every fall from the running maximum. |
| Metrics.MaxDrawdownIsLargestFall | engine/src/trading_engine/metrics.py:132-157 | The maximum drawdown is the largest fall from any equity value to any later one, and some pair attains it. |
| Metrics.LowestDrawdownPercentBounds | engine/src/trading_engine/metrics.py:154-155 | The smallest defined percentage drawdown bounds every point's percentage drawdown. |
| Metrics.MaxDrawdownPercent | engine/src/trading_engine/metrics.py:154-157 | The percentage drawdown is non-negative and zero for an empty curve. It bounds every point's fall relative to a positive running maximum. |
| Metrics.LowestDrawdownPercentAttained | engine/src/trading_engine/metrics.py:154-155 | The smallest percentage drawdown over the first points is undefined exactly when all their running maxima are zero. Otherwise some point attains it. |
| Metrics.MaxDrawdownPercentAttained | engine/src/trading_engine/metrics.py:140-157 | When every running maximum is zero the result is 0. Otherwise it is the absolute percentage drawdown of one point with a non-zero running maximum, and no other such point has a lower one. |
| Metrics.PercentIsNegatedDrawdown | engine/src/trading_engine/metrics.py:150-157 | At each point with a positive peak, the percentage drawdown is the fall divided by the peak, times 100. |
| Metrics.DrawdownExample | engine/src/trading_engine/metrics.py:132-157 | For the curve 10000, 11000, 9000, 9500 the maximum drawdown is 2000, and in percent 200/11. |
| Metrics.EquityValues | engine/src/trading_engine/metrics.py:53-54 | The equity column has one value per curve point, in order. |
| Metrics.CalculateMetrics | engine/src/trading_engine/metrics.py:15-99 | Without trades every statistic is zero, total commission included, and final capital is the initial capital. With trades, ZeroDivisionError is raised only for a zero initial capital with an empty curve, where both operands are Python floats. A zero capital over a non-empty curve gives an infinite or NaN return instead. The counts partition into winners and losers, and the win rate is the winners' share. The average win and loss are the averages of the winners and the losers. The final capital is the last equity, or the initial capital for an empty curve. The return, profit factor and drawdowns are the ones defined above. |
| Backtest.NewBacktester | engine/src/trading_engine/backtest.py:19-62 | Data without a close column is refused with ValueError. Otherwise the backtester holds a fresh portfolio with the given rates and cash. |
| Backtest.Step | engine/src/trading_engine/backtest.py:84-119 | Each bar appends exactly one equity point stamped with the bar's time. An order is submitted exactly when a buy signal meets no tracked position or a sell signal meets a positive one. A buy invests 95% of the cash at the close, and a buy triggered on a zero close raises ZeroDivisionError. A sell offers the tracked size. The tracked size changes only on a fill. |
| Backtest.Submit | engine/src/trading_engine/backtest.py:102-119 | A submitted order records exactly one equity point stamped with the bar's time. The tracked size takes the new value only when the order fills. |
| Backtest.Loop | engine/src/trading_engine/backtest.py:84-119 | Iterating over the bars keeps the ledger well formed and extends the equity history by one point per bar, for any closes; an error in a bar stops the loop. |
| Backtest.LoopAppend | engine/src/trading_engine/backtest.py:84-119 | Running over two consecutive stretches of bars equals running over their concatenation. |
| Backtest.CloseOut | engine/src/trading_engine/backtest.py:121-134 | After the final close no asset position remains and no equity point is added. A held position is sold in full at the last close, slipped for a sell, and at the last bar's time. It becomes exactly one trade appended after the earlier ones, with the position's entry, size and pnl net of the commission, and the cash is credited with the proceeds less the commission. |
| Backtest.Simulate | engine/src/trading_engine/backtest.py:74-134 | Output without a signal column is a ValueError, and a zero-close buy is a ZeroDivisionError. Otherwise no position remains at the end, and there is one equity point per bar: the forced close comes after the last snapshot. |
| Backtest.Run | engine/src/trading_engine/backtest.py:66-150 | Trades split into winners and losers, the win rate lies in [0, 100], and the initial capital is the backtester's. |
| Backtest.StepTracks | engine/src/trading_engine/backtest.py:93-116 | The tracked size equals the quantity held in the ledger, and a triggered sell always fills and clears the position. |
| Backtest.LoopTracks | engine/src/trading_engine/backtest.py:84-119 | The tracked size stays equal to the held quantity over the whole loop. |
| Backtest.UpdateKeepsSolvent | engine/src/trading_engine/backtest.py:90 | Marking prices keeps a solvent ledger solvent. |
| Backtest.StepSolvent | engine/src/trading_engine/backtest.py:84-119 | With positive closes and rates in [0, 1], one bar never overdraws the cash or opens a short position. |
| Backtest.LoopSolvent | engine/src/trading_engine/backtest.py:84-119 | The same holds over any sequence of bars. |
| Backtest.SimulateSolvent | engine/src/trading_engine/backtest.py:74-134 | A backtest from non-negative cash ends solvent and flat, with one equity point per bar. |
| Backtest.QuietLoopIdle | engine/src/trading_engine/backtest.py:93-119 | Bars without signals only add equity points. |
| Backtest.QuietRunHasNoTrades | engine/src/trading_engine/backtest.py:66-150 | A signal-free backtest succeeds with no trades and ends with its initial capital. |
| Combined.NewCombined | strategies/src/strategies/combined.py:34-62 | Construction succeeds exactly when there is at least one strategy and the threshold lies between 1 and their number. Otherwise it raises ValueError. |
| Combined.VotesBounded | strategies/src/strategies/combined.py:96-98 | Buy and sell votes together never exceed the number of strategies. |
| Combined.UnanimousVotes | strategies/src/strategies/combined.py:96-98 | When every strategy agrees on a signal, that signal gets every vote. |
| Combined.Consensus | strategies/src/strategies/combined.py:107-110 | Sell when the sell votes reach the threshold. Buy when the buy votes reach it and the sell votes do not. Hold otherwise: the sell rule wins a tie. |
| Combined.FirstMissingSignal | strategies/src/strategies/combined.py:84-90 | Finds the first strategy output lacking a signal column, and none exactly when all have one. |
| Combined.GenerateSignals | strategies/src/strategies/combined.py:64-112 | Fails with ValueError exactly when some strategy output lacks a signal column. Otherwise each row's votes count the strategies emitting buy and sell, and its signal is the consensus of those votes. |
| Combined.UnanimousSignal | strategies/src/strategies/combined.py:96-110 | A unanimous buy or sell becomes the combined signal. |
| Combined.MajorityHasNoTie | strategies/src/strategies/combined.py:107-110 | With a threshold above half of the strategies, buy and sell cannot both reach it. |
| Combined.ConsensusMonotone | strategies/src/strategies/combined.py:107-110 | Lowering the threshold never silences a signal. |
| Combined.StrategySummary | strategies/src/strategies/combined.py:114-125 | The consensus percentage is the threshold's share of the strategies, in (0, 100]. |
| ConfigLoader.SplitOn | strategies/src/strategies/config_loader.py:72 | Splitting on a separator yields at least one part, none containing the separator, and joining the parts gives back the input. |
| ConfigLoader.SplitJoin | strategies/src/strategies/config_loader.py:72 | Splitting the join of separator-free parts gives back the parts. |
| ConfigLoader.Strip | strategies/src/strategies/config_loader.py:77-78 | The stripped text is no longer than the input and neither starts nor ends with whitespace. |
| ConfigLoader.SkipSpaces | strategies/src/strategies/config_loader.py:77-78 | The returned position is the first one that is not whitespace, and only whitespace lies before it. |
| ConfigLoader.TrimEnd | strategies/src/strategies/config_loader.py:77-78 | The returned end has only whitespace after it and is not preceded by whitespace. |
| ConfigLoader.StripIsInfix | strategies/src/strategies/config_loader.py:77-78 | The stripped text is a slice of the input, and only whitespace lies around it. |
| ConfigLoader.StripIdle | strategies/src/strategies/config_loader.py:77-78 | Text without surrounding whitespace is left unchanged. |
| ConfigLoader.RemoveFirst | strategies/src/strategies/config_loader.py:85 | Only the first occurrence of the character is removed. |
| ConfigLoader.LetterLeadsNoNumber | strategies/src/strategies/config_loader.py:85-89 | A value starting with neither a digit nor a dot is never read as a number. |
| ConfigLoader.Coerce | strategies/src/strategies/config_loader.py:80-89 | "true" and "false", in any letter case, are booleans. All-digit text is a non-negative integer. Digits with one dot are a non-negative float. Anything else stays the original string. |
| ConfigLoader.FloatIsExact | strategies/src/strategies/config_loader.py:85-87 | A float value times ten to the number of digits after the dot is the integer the digits spell once the dot is removed. |
| ConfigLoader.DigitsAppend | strategies/src/strategies/config_loader.py:85-87 | The value of two digit strings written one after the other is the first's value shifted by the second's length plus the second's value. |
| ConfigLoader.DigitsOfDecimal | strategies/src/strategies/config_loader.py:87 | Reading the decimal digits of a natural number gives that number back. |
| ConfigLoader.IntRoundTrip | strategies/src/strategies/config_loader.py:85-87 | Every natural number written in decimal parses back as that integer. |
| ConfigLoader.NegativeStaysString | strategies/src/strategies/config_loader.py:85-89 | "-5" is not recognised as a number and stays a string. |
| ConfigLoader.Entry | strategies/src/strategies/config_loader.py:76-78 | The key of an entry never contains a colon. |
| ConfigLoader.EntrySplitsAtFirstColon | strategies/src/strategies/config_loader.py:76-78 | An entry splits at its first colon into the stripped key and the stripped value, and the value may contain further colons. |
| ConfigLoader.AssembleKeys | strategies/src/strategies/config_loader.py:71-91 | A key appears in the result exactly when some segment with a colon defines it. Segments without a colon are skipped. |
| ConfigLoader.AssembleLastWins | strategies/src/strategies/config_loader.py:71-91 | A key repeated across segments takes the value of its last definition. |
| ConfigLoader.ParseConfig | strategies/src/strategies/config_loader.py:68-91 | An empty string is the empty map. A key is present exactly when some comma segment with a colon defines it, and its value is the coerced value of the last segment that defines it. |
| ConfigLoader.AssembleSpec | strategies/src/strategies/config_loader.py:71-91 | For every key at once: present exactly when some segment defines it, with the value of the last definition. |
| ConfigLoader.ParseEmpty | strategies/src/strategies/config_loader.py:68-69 | An empty configuration parses to the empty map. |
| ConfigLoader.ParseExample | strategies/src/strategies/config_loader.py:64-66 | "period:14,lower:30,upper:70" parses to period 14, lower 30 and upper 70. |
| ConfigLoader.ActiveNames | strategies/src/strategies/config_loader.py:140-141 | Each comma-separated name is stripped and upper-cased, one name per part. |
| ConfigLoader.ActiveNamesClean | strategies/src/strategies/config_loader.py:140-141 | Every active name is free of commas and outer whitespace, and holds no lower-case ASCII letter. |
| ConfigLoader.LoadAll | strategies/src/strategies/config_loader.py:144-152 | Only names that load are kept, and every name that loads is kept; failures are skipped. |
| ConfigLoader.LoadOne | strategies/src/strategies/config_loader.py:145-152 | A single name is kept exactly when it loads. |
| ConfigLoader.LoadAppend | strategies/src/strategies/config_loader.py:144-152 | Loading a concatenation of name lists is loading each and concatenating, so the loaded names keep their order. |
| ConfigLoader.LoadStrategies | strategies/src/strategies/config_loader.py:124-165 | The threshold returned never exceeds the number of loaded strategies. It is the requested one when that fits and otherwise that number. |
| ConfigLoader.ClampConsensus | strategies/src/strategies/config_loader.py:158-163 | The clamped threshold is at most the number of strategies. It is either the requested value or that number, and the requested value when that fits. |
| Validator.CountPositive | engine/src/trading_engine/data/validator.py:64-91 | A check's failure count is positive exactly when some record fails it. |
| Validator.DuplicatedZero | engine/src/trading_engine/data/validator.py:99-104 | No timestamp is counted as duplicated exactly when all timestamps are distinct. |
| Validator.NonNumeric | engine/src/trading_engine/data/validator.py:56-62 | The reported columns are exactly the checked columns lacking a numeric type. |
| Validator.Fatal | engine/src/trading_engine/data/validator.py:28-53 | A fatal check raises ValueError in strict mode and otherwise reports invalid with that single warning. |
| Validator.Validate | engine/src/trading_engine/data/validator.py:15-112 | Empty data, missing columns and unparseable timestamps stop validation in that order. A non-numeric column raises in strict mode. Otherwise a price column without a numeric type is an error, the model's stand-in for a column that cannot be compared with zero. Otherwise the warnings are the non-numeric volume warning followed by the value checks in order, and the data are valid exactly when there is no warning. |
| Validator.RecordWarningsExact | engine/src/trading_engine/data/validator.py:64-91 | A record check's warning is listed exactly when some record fails that check. |
| Validator.WarnsOnRecord | engine/src/trading_engine/data/validator.py:64-91 | Null, negative-price, high-below-low and close-outside-range warnings appear exactly when some record shows that fault. |
| Validator.WarnsOnTimestamps | engine/src/trading_engine/data/validator.py:93-104 | The unsorted warning appears exactly when timestamps are not non-decreasing. The duplicate warning appears exactly when some timestamp repeats. |
| Validator.NoWarningsExactly | engine/src/trading_engine/data/validator.py:64-106 | There is no value warning exactly when no record fails any check and the timestamps are increasing and distinct. |
| Validator.Dedup | engine/src/trading_engine/data/validator.py:137-140 | Dropping duplicates keeps the same set of timestamps, each once. |
| Validator.DedupKeepsFirst | engine/src/trading_engine/data/validator.py:137-140 | Each kept record is the first record carrying its timestamp. |
| Validator.SortByTime | engine/src/trading_engine/data/validator.py:143 | Sorting returns a permutation of the records ordered by timestamp. |
| Validator.PermutationKeepsDistinct | engine/src/trading_engine/data/validator.py:143 | Reordering keeps distinct timestamps distinct. |
| Validator.ForwardLatest | engine/src/trading_engine/data/validator.py:148 | A forward fill copies the latest earlier present value. |
| Validator.BackwardEarliest | engine/src/trading_engine/data/validator.py:148 | A backward fill copies the earliest later present value. |
| Validator.Fill | engine/src/trading_engine/data/validator.py:146-149 | Filling keeps present values and only copies values that occur in the column. |
| Validator.FillComplete | engine/src/trading_engine/data/validator.py:146-149 | A column with any present value has no gap after a forward then backward fill. |
| Validator.FillRows | engine/src/trading_engine/data/validator.py:146-149 | Filling keeps records without gaps and keeps present timestamps. |
| Validator.FillRowsComplete | engine/src/trading_engine/data/validator.py:146-149 | When every column has some value, no record keeps a gap. |
| Validator.DropNegative | engine/src/trading_engine/data/validator.py:152-161 | Every input row without a negative price is kept, and every kept row is such an input row. |
| Validator.Repair | engine/src/trading_engine/data/validator.py:164-165 | After the high/low fix the high is never below the low and other fields are unchanged. With both present the high becomes the larger one and the low is kept. A low alone is copied into the high, and a high alone into the low. |
| Validator.Clean | engine/src/trading_engine/data/validator.py:115-168 | Cleaning never adds rows, and leaves no negative price and no high below low. |
| Validator.CleanOrdered | engine/src/trading_engine/data/validator.py:137-165 | When every timestamp is present, cleaned timestamps strictly increase and come from the input. |
| Validator.CleanComplete | engine/src/trading_engine/data/validator.py:137-165 | When every column keeps some value after deduplication, the cleaned data have no gap. |
| Validator.DedupIdle | engine/src/trading_engine/data/validator.py:137-140 | Distinct timestamps make deduplication a no-op. |
| Validator.DedupDropsRepeat | engine/src/trading_engine/data/validator.py:137-140 | Appending a record with an already seen timestamp does not change the deduplicated result. |
| Validator.SortIdle | engine/src/trading_engine/data/validator.py:143 | Sorting already sorted records is a no-op. |
| Validator.CleanIdle | engine/src/trading_engine/data/validator.py:115-168 | Strictly increasing, gap-free data with no negative price and no high below low is left unchanged by cleaning. |
| Validator.ValidIsClean | engine/src/trading_engine/data/validator.py:15-168 | Data that validate with no warning are a fixed point of cleaning. |
| Crossing.Cross | strategies/src/strategies/ma200.py:83-94 | A crossing is 1 when the state turns on, -1 when it turns off, and 0 otherwise. |
| Crossing.CrossingsTrack | strategies/src/strategies/ma200.py:85-94 | The last non-zero crossing up to a row always reports the state of the row before. |
| Crossing.Alternate | strategies/src/strategies/ma200.py:85-94 | Buy and sell crossings alternate: a buy follows a sell or the start, and a sell follows a buy. |
| Crossing.KeepOnlyClears | strategies/src/strategies/ma200.py:102-108 | Filtering signals only clears some of them and never creates or flips one. |
| MaCross.AboveSeq | strategies/src/strategies/ma200.py:78-81 | A row is above exactly when the mean of the last `period` closes is defined and below the close. That is never the case over a zero window. |
| MaCross.GenerateSignals | strategies/src/strategies/ma200.py:68-113 | Fewer rows than the period, or a negative window, raise ValueError. Otherwise there is one signal per row, in {-1, 0, 1}. It is 0 wherever the moving average is undefined, which is every row over a zero window. |
| MaCross.CrossoverRule | strategies/src/strategies/ma200.py:83-108 | In crossover mode a row that passes the volume filter buys exactly when it is above its average and the row before is not. It sells exactly when its average is defined, it is not above, and the row before was. |
| MaCross.PositionRule | strategies/src/strategies/ma200.py:96-111 | In position mode a row with a defined average that passes the volume filter buys exactly when above and sells exactly when not. |
| MaCross.PositionCoversCrossover | strategies/src/strategies/ma200.py:83-100 | Every crossover signal agrees with the position-mode signal on its row. |
| MaCross.VolumeOnlyClears | strategies/src/strategies/ma200.py:102-108 | Volume confirmation only clears signals and never adds or flips one. |
| MaCross.CrossoverAlternates | strategies/src/strategies/ma100.py:84-95 | Without volume filtering, crossover buys and sells alternate, starting with a buy. |
| Obv.CalculateObv | strategies/src/strategies/obv.py:95-118 | Empty data raise IndexError. Otherwise the loop yields the running total of signed volume: it starts at the first volume and then adds, subtracts or keeps as the close rises, falls or holds. |
| Obv.StepBounded | strategies/src/strategies/obv.py:107-116 | With non-negative volume, one step moves the OBV by at most that volume. |
| Obv.RisingClosesRaiseObv | strategies/src/strategies/obv.py:108-110 | A non-falling close never lowers the OBV. |
| Obv.Liquid | strategies/src/strategies/obv.py:82-86 | A row passes the volume filter exactly when no minimum is set or its volume reaches it. |
| Obv.GenerateSignals | strategies/src/strategies/obv.py:40-93 | Empty data raise IndexError, and otherwise a negative period raises ValueError. Otherwise there is one signal per row, in {-1, 0, 1}, and no signal on a row whose volume is under a positive minimum. |
| Obv.ModesAgree | strategies/src/strategies/obv.py:54-80 | The signal-line mode and the trend mode give the same signals. |
| Obv.SignalsAlternate | strategies/src/strategies/obv.py:54-91 | Without a volume minimum, OBV buys and sells alternate, starting with a buy. |
| ParabolicSar.Projected | strategies/src/strategies/parabolic_sar.py:77-85 | In an uptrend the projected stop is the least of the advanced stop and the two previous lows (only one low on the second bar); in a downtrend it is the greatest of the advanced stop and the two previous highs. |
| ParabolicSar.Next | strategies/src/strategies/parabolic_sar.py:69-128 | A reversal moves the stop to the previous extreme, resets the factor and takes the new extreme from this bar. A reversal happens exactly when the low crosses below the projected stop in an uptrend, or the high crosses above it in a downtrend. A continuation takes the projected stop, and its extreme is the larger of the old extreme and the high in an uptrend, the smaller of the old extreme and the low in a downtrend. The factor grows by the increment, capped at the maximum, only when the extreme advances. |
| ParabolicSar.States | strategies/src/strategies/parabolic_sar.py:63-128 | The series starts at the first low, the first high, the start factor and an uptrend, and each row follows from the previous one. |
| ParabolicSar.CalculateSar | strategies/src/strategies/parabolic_sar.py:51-133 | Empty data raise IndexError. Otherwise the loop computes the series row by row. |
| ParabolicSar.TrendIsSign | strategies/src/strategies/parabolic_sar.py:61-67 | Every trend value is 1 or -1. |
| ParabolicSar.AfBounded | strategies/src/strategies/parabolic_sar.py:66-128 | The acceleration factor stays between its start and its maximum. |
| ParabolicSar.NextKeepsSide | strategies/src/strategies/parabolic_sar.py:77-128 | If the stop is on the correct side of the extreme, it stays there after one step. |
| ParabolicSar.StopTrailsExtreme | strategies/src/strategies/parabolic_sar.py:63-128 | With factors in [0, 1] and a first bar whose low is at most its high, the stop lies below the extreme in an uptrend and above it in a downtrend. |
| ParabolicSar.GenerateSignals | strategies/src/strategies/parabolic_sar.py:135-157 | Empty data raise IndexError. Otherwise the signals are the trend changes. |
| ParabolicSar.SignalRule | strategies/src/strategies/parabolic_sar.py:148-157 | The first row holds. A later row buys exactly when the trend turns up and sells exactly when it turns down. |
| ParabolicSar.SignalsAlternate | strategies/src/strategies/parabolic_sar.py:148-157 | Buys and sells alternate, and the first signal is a sell, because the series starts in an uptrend. |
| ElliottWaves.NewElliott | strategies/src/strategies/elliott_waves.py:40-60 | The minimum wave size is stored as a fraction of the given percentage; the other settings are kept. |
| ElliottWaves.GetParameters | strategies/src/strategies/elliott_waves.py:266-273 | The reported wave size is the stored fraction as a percentage. |
| ElliottWaves.ParametersRoundTrip | strategies/src/strategies/elliott_waves.py:58-270 | Reporting the parameters of a new strategy returns the settings it was given. |
| ElliottWaves.Pivots | strategies/src/strategies/elliott_waves.py:113-161 | The pivots are exactly the window maxima of the highs and the window minima of the lows, sorted by index with a high before a low. |
| ElliottWaves.PivotsAt | strategies/src/strategies/elliott_waves.py:133-139 | One row contributes its high pivot, then its low pivot, each exactly when the window test holds. |
| ElliottWaves.Step | strategies/src/strategies/elliott_waves.py:170-205 | A significant move between opposite pivots adds one wave from the earlier pivot to the later one, and any other pair changes nothing. The trend becomes up on a high and down on a low. The wave is an impulse exactly when the trend continues: it then carries the count's number, and on a turn it is a corrective wave 1. The next number is the wave's number cycled through 1 to 5. |
| ElliottWaves.CountTo | strategies/src/strategies/elliott_waves.py:166-205 | After any prefix of the pivots the waves obey the numbering rule: the first is wave 1, an impulse follows its predecessor's number cyclically, and a corrective wave is 1. The next number continues from the last wave. |
| ElliottWaves.DetectWaves | strategies/src/strategies/elliott_waves.py:143-207 | Every wave numbers 1 to 5, is impulsive or corrective, and starts no later than it ends. The waves obey the numbering rule. |
| ElliottWaves.WavesSpanPivots | strategies/src/strategies/elliott_waves.py:170-202 | Every wave starts and ends at a pivot. |
| ElliottWaves.LabelAt | strategies/src/strategies/elliott_waves.py:199-202 | A row's label is 0 and neutral exactly when no wave covers it. Otherwise it is the number and type of the last wave covering it, since later waves overwrite earlier ones. A corrective label is wave 1. |
| ElliottWaves.BuyOrSell | strategies/src/strategies/elliott_waves.py:224-234 | No row satisfies both the buy rule and the sell rule. |
| ElliottWaves.WaveSignal | strategies/src/strategies/elliott_waves.py:219-234 | The raw wave signal is one of -1, 0 and 1. |
| ElliottWaves.Confirmed | strategies/src/strategies/elliott_waves.py:248-262 | Volume confirmation keeps a signal or clears it, never changes it. |
| ElliottWaves.WaveSignals | strategies/src/strategies/elliott_waves.py:219-236 | The first row holds. A buy needs the start of impulse wave 3 or 5 on a rising close. A sell needs a corrective wave, or an impulse after wave 5, on a falling close. |
| ElliottWaves.GenerateSignals | strategies/src/strategies/elliott_waves.py:70-111 | All columns have one entry per row, and too few rows give all-neutral output. Signals lie in {-1, 0, 1} and start with 0, and buys and sells obey the wave rules. A row is marked as a high (low) pivot exactly when a full window fits around it and its high (low) is the window's largest (smallest). Each row's wave number and type are those of the last detected wave covering it. |
| ElliottWaves.BarWaves | strategies/src/strategies/elliott_waves.py:94-102 | The waves detected over a table's pivots are well formed and obey the numbering rule. |
| ElliottWaves.Signals | strategies/src/strategies/elliott_waves.py:103-109 | The signal column lies in {-1, 0, 1} and starts with 0, and every buy and sell obeys its wave rule. Without the volume check it is exactly the wave-rule signals. |
| ElliottWaves.SignalRules | strategies/src/strategies/elliott_waves.py:219-234 | Without volume confirmation a row after the first buys exactly when the buy rule holds and sells exactly when the sell rule holds. |
| ElliottWaves.VolumeOnlyClears | strategies/src/strategies/elliott_waves.py:107-109 | Volume confirmation leaves pivots and wave labels alone, and every signal it keeps equals the unconfirmed one. |

## Left out

- Logging, printing, `__str__`/`__repr__`, `print_summary` and `get_equity_curve`'s copy: no effect on values.
- Live trading, brokers, data providers and their caches, visualisation, and the indicators not listed above (RSI, MACD, Bollinger, Ichimoku, stochastic, EMA/SMA, MA50): outside the modelled core.
- `load_strategy_from_env` and the name-to-class dispatch: reading the environment and constructing classes are I/O. The set of names that load is a parameter of `ConfigLoader.LoadStrategies`.
- Floating point: all arithmetic is exact `real` arithmetic. Rounding, overflow and NaN propagation are not modelled. The only infinities and NaN modelled are the profit factor's infinity and the return over a zero initial capital.
- Python timestamps are `int` seconds. The `datetime.now()` default of an order is a parameter.
- Exceptions raised in the middle of an operation are modelled as an error result; the partly updated state the Python object would keep is not.
- Backtest.NewBacktester: the conversion of a `date` or `timestamp` column into a datetime index, and the generic daily index, are not modelled. The bars carry their timestamps.
- Backtest.Step: a buy on a zero close is ZeroDivisionError, as for a Python float close. A numpy float close would instead give an infinite or NaN quantity, which is not modelled.
- Missing columns: the backtest loop and the final close read `close` (backtest.py:86, 123). The strategies read `close` (ma200.py:78, ma100.py:78, obv.py:108, parabolic_sar.py:55, elliott_waves.py:228), `high` (parabolic_sar.py:53, elliott_waves.py:127), `low` (parabolic_sar.py:54, elliott_waves.py:128) and `volume` (ma200.py:104, ma100.py:105, obv.py:84, 105, elliott_waves.py:248). Python raises KeyError when such a column is absent. The KeyError is not modelled because bars and records always carry every field.
- Combined.GenerateSignals: the strategies' outputs are given already computed and aligned row by row; copying their indicator columns under prefixed names is not modelled.
- Metrics.SharpeRatio: `pct_change`, standard deviation and square root are a caller-supplied function. Only the guards that return 0 are modelled.
- Metrics.MaxDrawdownPercent: points whose running maximum is zero are skipped. pandas gives NaN there when the equity is also zero, which its minimum skips as well. It gives negative infinity when the equity is negative, which makes its result infinite. When every running maximum is zero, pandas' result is NaN and the model's is 0. Points with a negative running maximum are computed as pandas computes them.
- ConfigLoader.Coerce: digits and case folding are ASCII only, while Python's `isdigit` and `lower` also accept other Unicode characters. Whitespace is Python's full `isspace` set.
- ConfigLoader.ActiveNames: upper-casing maps only the ASCII letters a to z. Python's `str.upper` follows the Unicode case tables, so it also changes other letters and can lengthen a name (ß becomes SS).
- ConfigLoader.Coerce: a float value is the exact rational the digits denote (`ConfigLoader.FloatIsExact`), not the nearest binary float.
- Validator.Validate: `validate` converts the caller's timestamp column to datetimes in place (validator.py:45-47) before its other checks. The model is pure and only returns the verdict and the warnings.
- Validator.Validate: every price column without a numeric type is treated as not comparable with zero and gives Err(TypeError). An object column that holds numbers compares fine at validator.py:74 and would give warnings instead, which is not modelled.
- Validator.Validate: a column's numeric type and whether the timestamps convert are given as part of the table, not derived from cell types.
- Validator.Clean: timestamp conversion and time-zone stripping are not modelled. A missing price column, which raises KeyError in Python, is not modelled because records always carry every field.
- Validator.CleanOrdered: requires every timestamp present. A missing timestamp sorts last and can be forward-filled into a duplicate.
- ElliottWaves.GenerateSignals: requires a non-negative pivot window. Row positions serve as the index, as with a default range index. A zero previous pivot price counts as a significant move unless the current price is also zero, mirroring the infinite or NaN ratio.
- ElliottWaves.ParametersRoundTrip: holds exactly in real arithmetic; with floats, dividing and then multiplying by 100 can round.

=== FILE: backtest.dfy ===
/** The simulation loop: one pass over (timestamp, close, signal) rows that
    turns signals into ledger orders under a flat/long state machine, takes
    one equity snapshot per row, force-closes what is left at the end, and
    hands the ledger's output to the metrics engine. */
module Backtest {
  import opened Wrappers
  import opened Series
  import opened Models
  import opened Portfolio
  import opened PortfolioProperties
  import opened Metrics

  /** The single symbol a backtest trades. */
  const Asset: string := "ASSET"

  /** Share of the cash a buy signal invests. */
  const BuyFraction: real := 0.95

  /** One row of the strategy's output. */
  datatype Bar = Bar(timestamp: int, close: real, signal: int)

  /** A table: the names of its columns and its rows. */
  datatype Table = Table(columns: set<string>, bars: seq<Bar>)

  datatype Backtester = Backtester(data: Table, initialCash: real, portfolio: State)

  /** The constructor: the data must have a close column; the ledger starts
      with only the initial cash. */
  function NewBacktester(data: Table, initialCash: real, commission: real, slippage: real): (r: Outcome<Backtester>)
    ensures r.Err? <==> "close" !in data.columns
    ensures r.Err? ==> r.error.ValueError?
    ensures r.Ok? ==> r.value.portfolio == NewPortfolio(initialCash, commission, slippage)
    ensures r.Ok? ==> r.value.initialCash == initialCash && r.value.data == data
  {
    if "close" !in data.columns then Err(ValueError("Data must contain 'close' column"))
    else Ok(Backtester(data, initialCash, NewPortfolio(initialCash, commission, slippage)))
  }

  /** State carried across rows: the ledger and the loop's own record of the
      size of the open position (0 when flat). */
  datatype LoopState = LoopState(portfolio: State, positionSize: real)

  /** What one row did: the new state and the order submitted, if any. */
  datatype StepResult = StepResult(state: LoopState, submitted: Option<Order>, filled: bool)

  /** Whether row `bar` triggers an order in state `st`: a buy signal while
      flat or a sell signal while long. */
  predicate Triggers(st: LoopState, bar: Bar) {
    (bar.signal == 1 && st.positionSize == 0.0) || (bar.signal == -1 && st.positionSize > 0.0)
  }

  /** One row: re-mark the position, act on the signal, snapshot equity. */
  function Step(st: LoopState, bar: Bar): (r: Outcome<StepResult>)
    requires Valid(st.portfolio)
    // the buy size divides the cash by the close
    ensures Triggers(st, bar) && bar.signal == 1 && bar.close == 0.0 ==> r == Err(ZeroDivisionError)
    ensures r.Ok? ==> Valid(r.value.state.portfolio)
    // exactly one snapshot per row, taken after the order
    ensures r.Ok? ==> |r.value.state.portfolio.equityHistory| == |st.portfolio.equityHistory| + 1
    ensures r.Ok? ==> r.value.state.portfolio.equityHistory[..|st.portfolio.equityHistory|] == st.portfolio.equityHistory
    ensures r.Ok? ==> r.value.state.portfolio.equityHistory[|st.portfolio.equityHistory|].timestamp == bar.timestamp
    // an order is submitted exactly when the signal triggers one
    ensures r.Ok? ==> (r.value.submitted.Some? <==> Triggers(st, bar))
    ensures r.Ok? && !Triggers(st, bar) ==>
      r.value.state == LoopState(RecordEquity(UpdatePositions(st.portfolio, Asset, bar.close), bar.timestamp), st.positionSize)
    // a buy invests 95% of the cash; a sell offers the whole tracked position
    ensures r.Ok? && Triggers(st, bar) && bar.signal == 1 ==>
      var o := r.value.submitted.value;
      o.side == Buy && o.symbol == Asset && o.quantity == st.portfolio.cash * BuyFraction / bar.close
    ensures r.Ok? && Triggers(st, bar) && bar.signal == -1 ==>
      var o := r.value.submitted.value;
      o.side == Sell && o.symbol == Asset && o.quantity == st.positionSize
    // the tracked size changes only on a fill
    ensures r.Ok? && r.value.state.positionSize != st.positionSize ==> r.value.filled
    ensures r.Ok? && r.value.filled ==>
      r.value.submitted.Some? &&
      r.value.state.positionSize == (if bar.signal == 1 then r.value.submitted.value.quantity else 0.0)
  {
    var ts := bar.timestamp;
    var marked := UpdatePositions(st.portfolio, Asset, bar.close);
    if bar.signal == 1 && st.positionSize == 0.0 then
      if bar.close == 0.0 then Err(ZeroDivisionError)
      else
        var quantity := marked.cash * BuyFraction / bar.close;
        Submit(marked, NewOrder(Asset, Buy, quantity, Some(ts), ts), bar.close, ts, quantity, st.positionSize)
    else if bar.signal == -1 && st.positionSize > 0.0 then
      Submit(marked, NewOrder(Asset, Sell, st.positionSize, Some(ts), ts), bar.close, ts, 0.0, st.positionSize)
    else
      Ok(StepResult(LoopState(RecordEquity(marked, ts), st.positionSize), None, false))
  }

  /** Submit one order at the bar's close and snapshot equity at its time;
      the tracked size becomes `filledSize` on a fill and stays `heldSize`
      otherwise. */
  function Submit(marked: State, order: Order, close: real, ts: int, filledSize: real, heldSize: real): (r: Outcome<StepResult>)
    requires Valid(marked)
    ensures r.Ok? ==> Valid(r.value.state.portfolio) && r.value.submitted == Some(order)
    ensures r.Ok? ==> |r.value.state.portfolio.equityHistory| == |marked.equityHistory| + 1
    ensures r.Ok? ==> r.value.state.portfolio.equityHistory[..|marked.equityHistory|] == marked.equityHistory
    ensures r.Ok? ==> r.value.state.portfolio.equityHistory[|marked.equityHistory|].timestamp == ts
    ensures r.Ok? ==> r.value.state.positionSize == (if r.value.filled then filledSize else heldSize)
  {
    var e :- ExecuteOrder(marked, order, close, ts);
    Ok(StepResult(LoopState(RecordEquity(e.state, ts), if e.filled then filledSize else heldSize), Some(order), e.filled))
  }

  /** The rows processed in order; the state after a prefix is computed
      from that prefix alone. */
  function Loop(st: LoopState, bars: seq<Bar>): (r: Outcome<LoopState>)
    requires Valid(st.portfolio)
    ensures r.Ok? ==> Valid(r.value.portfolio)
    ensures r.Ok? ==> |r.value.portfolio.equityHistory| == |st.portfolio.equityHistory| + |bars|
    ensures r.Ok? ==> r.value.portfolio.equityHistory[..|st.portfolio.equityHistory|] == st.portfolio.equityHistory
    decreases |bars|
  {
    if |bars| == 0 then Ok(st)
    else
      var before :- Loop(st, bars[..|bars| - 1]);
      var step :- Step(before, bars[|bars| - 1]);
      Ok(step.state)
  }

  /** No look-ahead: the state after rows `a` does not depend on the rows
      that follow them, and the rest of the run continues from it. */
  lemma {:induction false} LoopAppend(st: LoopState, a: seq<Bar>, b: seq<Bar>)
    requires Valid(st.portfolio)
    ensures Loop(st, a).Err? ==> Loop(st, a + b).Err?
    ensures Loop(st, a).Ok? ==> Loop(st, a + b) == Loop(Loop(st, a).value, b)
    decreases |b|
  {
    assert forall i :: 0 <= i < |a| ==> (a + b)[i] == a[i];
    assert forall i :: 0 <= i < |b| ==> (a + b)[|a| + i] == b[i];
    if |b| == 0 {
      assert a + b == a;
    } else {
      var b' := b[..|b| - 1];
      assert (a + b)[..|a + b| - 1] == a + b';
      assert (a + b)[|a + b| - 1] == b[|b| - 1];
      LoopAppend(st, a, b');
    }
  }

  /** The final close: a position still open after the last row is sold in
      full at the last close and timestamp. */
  function CloseOut(p: State, bars: seq<Bar>): (r: Outcome<State>)
    requires Valid(p)
    ensures r.Ok? ==> Valid(r.value) && Lookup(r.value.positions, Asset).None?
    ensures r.Ok? ==> r.value.equityHistory == p.equityHistory
    ensures Lookup(p.positions, Asset).None? ==> r == Ok(p)
    ensures r.Ok? && Lookup(p.positions, Asset).Some? ==>
      |bars| > 0 && |r.value.closedTrades| == |p.closedTrades| + 1 &&
      r.value.closedTrades[|p.closedTrades|].exitTime == bars[|bars| - 1].timestamp
    // the sale is at the last close, slipped, and credits the net proceeds;
    // the earlier trades are kept in front of the new one
    ensures r.Ok? && Lookup(p.positions, Asset).Some? ==>
      var held := Lookup(p.positions, Asset).value;
      var last := bars[|bars| - 1];
      var price := ExecutionPrice(Sell, last.close, p.slippageRate);
      var c := Commission(price, held.quantity, p.commissionRate);
      && r.value.closedTrades[..|p.closedTrades|] == p.closedTrades
      && ClosedAs(r.value.closedTrades[|p.closedTrades|], held, price, last.timestamp, c)
      && r.value.cash == p.cash + (price * held.quantity - c)
  {
    match Lookup(p.positions, Asset)
    case None => Ok(p)
    case Some(held) =>
      if |bars| == 0 then Err(IndexError)
      else
        var last := bars[|bars| - 1];
        var order := NewOrder(Asset, Sell, held.quantity, Some(last.timestamp), last.timestamp);
        var e :- ExecuteOrder(p, order, last.close, last.timestamp);
        assert e.filled;
        Ok(e.state)
  }

  /** The whole simulation, up to the ledger's final state. */
  function Simulate(bt: Backtester, output: Table): (r: Outcome<State>)
    requires Valid(bt.portfolio)
    ensures "signal" !in output.columns ==> r.Err? && r.error.ValueError?
    ensures r.Ok? ==> Valid(r.value) && Lookup(r.value.positions, Asset).None?
    ensures r.Ok? ==> |r.value.equityHistory| == |bt.portfolio.equityHistory| + |output.bars|
  {
    if "signal" !in output.columns then Err(ValueError("Strategy must generate 'signal' column"))
    else
      var looped :- Loop(LoopState(bt.portfolio, 0.0), output.bars);
      CloseOut(looped.portfolio, output.bars)
  }

  /** `Backtester.run`: simulate, then compute the metrics. `output` is the
      strategy's signal table for the backtester's data. */
  function Run(bt: Backtester, output: Table, numerics: SharpeNumerics): (r: Outcome<BacktestResult>)
    requires Valid(bt.portfolio)
    ensures "signal" !in output.columns ==> r.Err? && r.error.ValueError?
    ensures r.Ok? ==> r.value.totalTrades == r.value.winningTrades + r.value.losingTrades
    ensures r.Ok? ==> 0.0 <= r.value.winRate <= 100.0
    ensures r.Ok? ==> r.value.initialCapital == bt.initialCash
  {
    var final :- Simulate(bt, output);
    CalculateMetrics(final.closedTrades, final.equityHistory, bt.initialCash, final.totalCommission, numerics)
  }

  /** The loop's recorded size agrees with the ledger: 0 when flat, else the
      quantity of the open position. */
  predicate Tracks(st: LoopState) {
    match Lookup(st.portfolio.positions, Asset)
    case None => st.positionSize == 0.0
    case Some(p) => p.quantity == st.positionSize
  }

  /** Each row keeps the loop's record in step with the ledger; in
      consequence a sell signal while long sells the whole position and is
      never rejected. */
  lemma StepTracks(st: LoopState, bar: Bar)
    requires Valid(st.portfolio) && Tracks(st)
    ensures Step(st, bar).Ok? ==> Tracks(Step(st, bar).value.state)
    ensures Step(st, bar).Ok? && Triggers(st, bar) && bar.signal == -1 ==>
      Step(st, bar).value.filled && Lookup(Step(st, bar).value.state.portfolio.positions, Asset).None?
  {
    var ts := bar.timestamp;
    var marked := UpdatePositions(st.portfolio, Asset, bar.close);
    var r := Step(st, bar);
    if r.Ok? && Triggers(st, bar) {
      if bar.signal == 1 {
        var quantity := marked.cash * BuyFraction / bar.close;
        var order := NewOrder(Asset, Buy, quantity, Some(ts), ts);
        var price := ExecutionPrice(Buy, bar.close, marked.slippageRate);
        var e := ExecuteBuy(marked, order, price, Commission(price, quantity, marked.commissionRate), ts);
        assert ExecuteOrder(marked, order, bar.close, ts) == e;
      } else {
        var order := NewOrder(Asset, Sell, st.positionSize, Some(ts), ts);
        var price := ExecutionPrice(Sell, bar.close, marked.slippageRate);
        var e := ExecuteSell(marked, order, price, Commission(price, st.positionSize, marked.commissionRate), ts);
        assert ExecuteOrder(marked, order, bar.close, ts) == e;
      }
    }
  }

  /** Tracking holds after every prefix of rows. */
  lemma {:induction false} LoopTracks(st: LoopState, bars: seq<Bar>)
    requires Valid(st.portfolio) && Tracks(st)
    ensures Loop(st, bars).Ok? ==> Tracks(Loop(st, bars).value)
    decreases |bars|
  {
    if |bars| > 0 {
      var init := bars[..|bars| - 1];
      assert forall i :: 0 <= i < |init| ==> init[i] == bars[i];
      LoopTracks(st, init);
      if Loop(st, init).Ok? {
        StepTracks(Loop(st, init).value, bars[|bars| - 1]);
      }
    }
  }

  /** Every close is positive. */
  predicate PricesPositive(bars: seq<Bar>) {
    forall i :: 0 <= i < |bars| ==> bars[i].close > 0.0
  }

  /** Re-marking a position changes no quantity and no cash. */
  lemma UpdateKeepsSolvent(s: State, sym: string, price: real)
    requires Valid(s) && Solvent(s)
    ensures Solvent(UpdatePositions(s, sym, price))
  {
    var s' := UpdatePositions(s, sym, price);
    if Lookup(s.positions, sym).Some? {
      SolventLookup(s, sym);
    }
    SolventFromLookups(s', s, sym);
  }

  /** A row that submits an order leaves the ledger that executing the
      order on the re-marked ledger gives, plus one snapshot. */
  lemma StepExecutes(st: LoopState, bar: Bar)
    requires Valid(st.portfolio)
    ensures Step(st, bar).Ok? && Triggers(st, bar) ==>
      var marked := UpdatePositions(st.portfolio, Asset, bar.close);
      var e := ExecuteOrder(marked, Step(st, bar).value.submitted.value, bar.close, bar.timestamp);
      && e.Ok?
      && Step(st, bar).value.state.portfolio == RecordEquity(e.value.state, bar.timestamp)
  {
  }

  /** With positive closes and rates between 0 and 1, no row makes cash
      negative or leaves a short position. */
  lemma StepSolvent(st: LoopState, bar: Bar)
    requires Valid(st.portfolio) && Solvent(st.portfolio) && SaneRates(st.portfolio)
    requires bar.close > 0.0
    ensures Step(st, bar).Ok? ==> Solvent(Step(st, bar).value.state.portfolio) && SaneRates(Step(st, bar).value.state.portfolio)
  {
    var marked := UpdatePositions(st.portfolio, Asset, bar.close);
    UpdateKeepsSolvent(st.portfolio, Asset, bar.close);
    var r := Step(st, bar);
    if r.Ok? {
      if Triggers(st, bar) {
        StepExecutes(st, bar);
        var order := r.value.submitted.value;
        assert order.quantity >= 0.0 by {
          if bar.signal == 1 {
            BuyQuantityNonNegative(marked.cash, bar.close);
          }
        }
        ExecutePreservesSolvency(marked, order, bar.close, bar.timestamp);
      }
    }
  }

  /** The buy size of a solvent account is never negative. */
  lemma BuyQuantityNonNegative(cash: real, close: real)
    requires cash >= 0.0 && close > 0.0
    ensures cash * BuyFraction / close >= 0.0
  {
    assert cash * BuyFraction >= 0.0;
  }

  /** Solvency and sane rates hold after every prefix of rows. */
  lemma {:induction false} LoopSolvent(st: LoopState, bars: seq<Bar>)
    requires Valid(st.portfolio) && Solvent(st.portfolio) && SaneRates(st.portfolio) && PricesPositive(bars)
    ensures Loop(st, bars).Ok? ==> Solvent(Loop(st, bars).value.portfolio) && SaneRates(Loop(st, bars).value.portfolio)
    decreases |bars|
  {
    if |bars| > 0 {
      var init := bars[..|bars| - 1];
      assert forall i :: 0 <= i < |init| ==> init[i] == bars[i];
      LoopSolvent(st, init);
      if Loop(st, init).Ok? {
        StepSolvent(Loop(st, init).value, bars[|bars| - 1]);
      }
    }
  }

  /** A backtest over positive closes with sane rates and non-negative
      starting cash ends flat, solvent, with one snapshot per row. */
  lemma SimulateSolvent(bt: Backtester, output: Table)
    requires bt.portfolio == NewPortfolio(bt.initialCash, bt.portfolio.commissionRate, bt.portfolio.slippageRate)
    requires bt.initialCash >= 0.0 && SaneRates(bt.portfolio) && PricesPositive(output.bars)
    ensures Simulate(bt, output).Ok? ==>
      && Solvent(Simulate(bt, output).value)
      && Lookup(Simulate(bt, output).value.positions, Asset).None?
      && |Simulate(bt, output).value.equityHistory| == |output.bars|
  {
    var st := LoopState(bt.portfolio, 0.0);
    LoopSolvent(st, output.bars);
    if "signal" in output.columns && Loop(st, output.bars).Ok? {
      var p := Loop(st, output.bars).value.portfolio;
      match Lookup(p.positions, Asset)
      case None =>
      case Some(held) =>
        if |output.bars| > 0 {
          SolventLookup(p, Asset);
          var last := output.bars[|output.bars| - 1];
          ExecutePreservesSolvency(p, NewOrder(Asset, Sell, held.quantity, Some(last.timestamp), last.timestamp), last.close, last.timestamp);
        }
    }
  }

  /** Every row's signal is 0. */
  predicate Quiet(bars: seq<Bar>) {
    forall i :: 0 <= i < |bars| ==> bars[i].signal == 0
  }

  /** Without signals the loop never trades: cash, book and trades stay as
      they were and only snapshots are added. */
  lemma {:induction false} QuietLoopIdle(st: LoopState, bars: seq<Bar>)
    requires Valid(st.portfolio) && Quiet(bars) && st.portfolio.positions == []
    ensures Loop(st, bars).Ok?
    ensures Loop(st, bars).value.portfolio == st.portfolio.(equityHistory := Loop(st, bars).value.portfolio.equityHistory)
    decreases |bars|
  {
    if |bars| > 0 {
      var init := bars[..|bars| - 1];
      assert forall i :: 0 <= i < |init| ==> init[i] == bars[i];
      QuietLoopIdle(st, init);
    }
  }

  /** A run without signals reports no trades and ends with the initial
      capital. */
  lemma QuietRunHasNoTrades(bt: Backtester, output: Table, numerics: SharpeNumerics)
    requires bt.portfolio == NewPortfolio(bt.initialCash, bt.portfolio.commissionRate, bt.portfolio.slippageRate)
    requires Quiet(output.bars) && "signal" in output.columns
    ensures Run(bt, output, numerics).Ok?
    ensures Run(bt, output, numerics).value.totalTrades == 0
    ensures Run(bt, output, numerics).value.finalCapital == bt.initialCash
  {
    QuietLoopIdle(LoopState(bt.portfolio, 0.0), output.bars);
  }
}

=== FILE: combined.dfy ===
/** Consensus voting over several strategies' signal columns. */
module Combined {
  import opened Wrappers
  import opened Series

  /** A combined strategy: the names of its sub-strategies, in order, and how
      many of them must agree. */
  datatype CombinedStrategy = CombinedStrategy(strategies: seq<string>, threshold: int)

  /** The constructor's checks: at least one strategy and a threshold
      between 1 and the number of strategies. */
  function NewCombined(strategies: seq<string>, threshold: int): (r: Outcome<CombinedStrategy>)
    ensures r.Ok? <==> |strategies| > 0 && 1 <= threshold <= |strategies|
    ensures r.Err? ==> r.error.ValueError?
    ensures r.Ok? ==> r.value == CombinedStrategy(strategies, threshold)
  {
    if |strategies| == 0 then Err(ValueError("at least one strategy is required"))
    else if threshold < 1 then Err(ValueError("consensus_threshold must be at least 1"))
    else if threshold > |strategies| then Err(ValueError("consensus_threshold cannot exceed the number of strategies"))
    else Ok(CombinedStrategy(strategies, threshold))
  }

  predicate WellFormed(c: CombinedStrategy) {
    |c.strategies| > 0 && 1 <= c.threshold <= |c.strategies|
  }

  /** One sub-strategy's output: its column names and its signal column. */
  datatype SubResult = SubResult(columns: set<string>, signals: seq<int>)

  /** Every sub-result's signal column has one entry per row. */
  predicate Aligned(results: seq<SubResult>, rows: nat) {
    forall i :: 0 <= i < |results| ==> |results[i].signals| == rows
  }

  /** Number of sub-results whose signal at row `t` equals `v`. */
  function Votes(results: seq<SubResult>, rows: nat, t: nat, v: int): (n: nat)
    requires Aligned(results, rows) && t < rows
    ensures n <= |results|
    decreases |results|
  {
    if |results| == 0 then 0
    else
      var init := results[..|results| - 1];
      assert Aligned(init, rows) by {
        assert forall i :: 0 <= i < |init| ==> init[i] == results[i];
      }
      Votes(init, rows, t, v) + (if results[|results| - 1].signals[t] == v then 1 else 0)
  }

  /** Buy and sell votes never outnumber the strategies. */
  lemma {:induction false} VotesBounded(results: seq<SubResult>, rows: nat, t: nat)
    requires Aligned(results, rows) && t < rows
    ensures Votes(results, rows, t, 1) + Votes(results, rows, t, -1) <= |results|
    decreases |results|
  {
    if |results| > 0 {
      var init := results[..|results| - 1];
      assert forall i :: 0 <= i < |init| ==> init[i] == results[i];
      VotesBounded(init, rows, t);
    }
  }

  /** When every strategy casts `v` at row `t`, `v` gets every vote. */
  lemma {:induction false} UnanimousVotes(results: seq<SubResult>, rows: nat, t: nat, v: int)
    requires Aligned(results, rows) && t < rows
    requires forall i :: 0 <= i < |results| ==> results[i].signals[t] == v
    ensures Votes(results, rows, t, v) == |results|
    decreases |results|
  {
    if |results| > 0 {
      var init := results[..|results| - 1];
      assert forall i :: 0 <= i < |init| ==> init[i] == results[i];
      UnanimousVotes(init, rows, t, v);
    }
  }

  /** The consensus rule: enough sell votes give -1 (checked last in the
      source, so it wins a tie), else enough buy votes give 1, else 0. */
  function Consensus(buy: nat, sell: nat, threshold: int): (s: int)
    ensures IsSignal(s)
    ensures s == -1 <==> sell >= threshold
    ensures s == 1 <==> buy >= threshold && sell < threshold
    ensures s == 0 <==> buy < threshold && sell < threshold
  {
    if sell >= threshold then -1 else if buy >= threshold then 1 else 0
  }

  /** The combined output: vote counts and the final signal per row. */
  datatype CombinedOutput = CombinedOutput(buyVotes: seq<nat>, sellVotes: seq<nat>, signal: seq<int>)

  /** Index of the first sub-result without a signal column, if any. */
  function FirstMissingSignal(results: seq<SubResult>): (r: Option<nat>)
    ensures r.None? <==> forall i :: 0 <= i < |results| ==> "signal" in results[i].columns
    ensures r.Some? ==> r.value < |results| && "signal" !in results[r.value].columns
    ensures r.Some? ==> forall i :: 0 <= i < r.value ==> "signal" in results[i].columns
  {
    if |results| == 0 then None
    else if "signal" !in results[0].columns then Some(0)
    else match FirstMissingSignal(results[1..])
      case None => None
      case Some(k) => Some(k + 1)
  }

  /** `generate_signals`, given each sub-strategy's output on the same
      data: fails if one lacks a signal column, else counts votes row by
      row and applies the consensus rule. */
  function GenerateSignals(c: CombinedStrategy, results: seq<SubResult>, rows: nat): (r: Outcome<CombinedOutput>)
    requires |results| == |c.strategies| && Aligned(results, rows)
    ensures r.Err? <==> exists i :: 0 <= i < |results| && "signal" !in results[i].columns
    ensures r.Err? ==> r.error.ValueError?
    ensures r.Ok? ==> |r.value.signal| == |r.value.buyVotes| == |r.value.sellVotes| == rows
    ensures r.Ok? ==> forall t :: 0 <= t < rows ==>
      && r.value.buyVotes[t] == Votes(results, rows, t, 1)
      && r.value.sellVotes[t] == Votes(results, rows, t, -1)
      && r.value.signal[t] == Consensus(r.value.buyVotes[t], r.value.sellVotes[t], c.threshold)
  {
    if FirstMissingSignal(results).Some? then
      Err(ValueError("a strategy did not produce a 'signal' column"))
    else
      var buy := seq(rows, t requires 0 <= t < rows => Votes(results, rows, t, 1));
      var sell := seq(rows, t requires 0 <= t < rows => Votes(results, rows, t, -1));
      Ok(CombinedOutput(buy, sell, seq(rows, t requires 0 <= t < rows => Consensus(buy[t], sell[t], c.threshold))))
  }

  /** A unanimous row yields the unanimous signal. */
  lemma UnanimousSignal(c: CombinedStrategy, results: seq<SubResult>, rows: nat, t: nat, v: int)
    requires WellFormed(c) && |results| == |c.strategies| && Aligned(results, rows) && t < rows
    requires v == 1 || v == -1
    requires forall i :: 0 <= i < |results| ==> results[i].signals[t] == v
    requires GenerateSignals(c, results, rows).Ok?
    ensures GenerateSignals(c, results, rows).value.signal[t] == v
  {
    UnanimousVotes(results, rows, t, v);
    VotesBounded(results, rows, t);
  }

  /** With a strict-majority threshold, buy and sell consensus cannot both
      hold, so the order of the two checks does not matter. */
  lemma MajorityHasNoTie(c: CombinedStrategy, results: seq<SubResult>, rows: nat, t: nat)
    requires WellFormed(c) && Aligned(results, rows) && |results| == |c.strategies| && t < rows
    requires 2 * c.threshold > |c.strategies|
    ensures !(Votes(results, rows, t, 1) >= c.threshold && Votes(results, rows, t, -1) >= c.threshold)
  {
    VotesBounded(results, rows, t);
  }

  /** A lower threshold never silences a row a higher one acts on. */
  lemma ConsensusMonotone(buy: nat, sell: nat, low: int, high: int)
    requires low <= high
    ensures Consensus(buy, sell, high) != 0 ==> Consensus(buy, sell, low) != 0
  {
  }

  /** `get_strategy_summary`. */
  datatype Summary = Summary(numStrategies: nat, strategies: seq<string>, threshold: int, consensusPercentage: real)

  function StrategySummary(c: CombinedStrategy): (r: Summary)
    requires WellFormed(c)
    ensures r.numStrategies == |c.strategies| && r.strategies == c.strategies && r.threshold == c.threshold
    ensures 0.0 < r.consensusPercentage <= 100.0
    ensures r.consensusPercentage * (|c.strategies| as real) == (c.threshold as real) * 100.0
  {
    var n := |c.strategies| as real;
    var pct := (c.threshold as real / n) * 100.0;
    assert pct * n == (c.threshold as real) * 100.0;
    Summary(|c.strategies|, c.strategies, c.threshold, pct)
  }
}

=== FILE: config_loader.dfy ===
/** The strategy configuration string parser: `"key:value,key:value"` into a
    map of typed values, and the clamp applied to the consensus threshold
    when strategies are loaded. */
module ConfigLoader {

  /** A parsed value: Python's bool, int, float or str. */
  datatype Value = BoolValue(b: bool) | IntValue(i: int) | FloatValue(f: real) | StrValue(s: string)

  // ----- splitting -----

  /** Index of the first occurrence of `c` in `s`. */
  function IndexOf(s: string, c: char): (k: nat)
    requires c in s
    ensures k < |s| && s[k] == c && c !in s[..k]
  {
    if s[0] == c then 0 else IndexOf(s[1..], c) + 1
  }

  /** The parts put back together with `sep` between them. */
  function JoinWith(parts: seq<string>, sep: char): string
    requires |parts| >= 1
  {
    if |parts| == 1 then parts[0] else parts[0] + [sep] + JoinWith(parts[1..], sep)
  }

  /** `str.split(sep)`: never empty, no part contains `sep`, and joining
      the parts gives the input back. */
  function SplitOn(s: string, sep: char): (parts: seq<string>)
    ensures |parts| >= 1
    ensures forall i :: 0 <= i < |parts| ==> sep !in parts[i]
    ensures JoinWith(parts, sep) == s
    decreases |s|
  {
    if sep !in s then [s]
    else
      var k := IndexOf(s, sep);
      var rest := SplitOn(s[k + 1..], sep);
      assert s == s[..k] + [sep] + s[k + 1..];
      [s[..k]] + rest
  }

  /** Splitting undoes joining parts that do not contain the separator. */
  lemma {:induction false} SplitJoin(parts: seq<string>, sep: char)
    requires |parts| >= 1
    requires forall i :: 0 <= i < |parts| ==> sep !in parts[i]
    ensures SplitOn(JoinWith(parts, sep), sep) == parts
    decreases |parts|
  {
    if |parts| > 1 {
      var s := JoinWith(parts, sep);
      var head := parts[0];
      assert s == head + [sep] + JoinWith(parts[1..], sep);
      assert s[|head|] == sep;
      assert s[..|head|] == head;
      assert forall j :: 0 <= j < |head| ==> s[j] == head[j];
      assert IndexOf(s, sep) == |head|;
      assert s[|head| + 1..] == JoinWith(parts[1..], sep);
      SplitJoin(parts[1..], sep);
    } else {
      assert JoinWith(parts, sep) == parts[0];
    }
  }

  // ----- whitespace and case -----

  /** Python's `str.isspace` for one character. */
  predicate IsSpace(c: char) {
    ('\U{9}' <= c <= '\U{D}') || ('\U{1C}' <= c <= '\U{20}') || c == '\U{85}' || c == '\U{A0}'
    || c == '\U{1680}' || ('\U{2000}' <= c <= '\U{200A}') || c == '\U{2028}' || c == '\U{2029}'
    || c == '\U{202F}' || c == '\U{205F}' || c == '\U{3000}'
  }

  /** The first position at or after i that is not whitespace. */
  function SkipSpaces(s: string, i: nat): (j: nat)
    requires i <= |s|
    ensures i <= j <= |s|
    ensures forall k :: i <= k < j ==> IsSpace(s[k])
    ensures j < |s| ==> !IsSpace(s[j])
    decreases |s| - i
  {
    if i < |s| && IsSpace(s[i]) then SkipSpaces(s, i + 1) else i
  }

  /** The end of s[lo..j] once its trailing whitespace is cut off. */
  function TrimEnd(s: string, lo: nat, j: nat): (e: nat)
    requires lo <= j <= |s|
    ensures lo <= e <= j
    ensures forall k :: e <= k < j ==> IsSpace(s[k])
    ensures e > lo ==> !IsSpace(s[e - 1])
    decreases j
  {
    if j > lo && IsSpace(s[j - 1]) then TrimEnd(s, lo, j - 1) else j
  }

  /** `str.strip()`: the input without its leading and trailing whitespace. */
  function Strip(s: string): (r: string)
    ensures |r| <= |s|
    ensures |r| == 0 || (!IsSpace(r[0]) && !IsSpace(r[|r| - 1]))
  {
    var a := SkipSpaces(s, 0);
    s[a..TrimEnd(s, a, |s|)]
  }

  /** What stripping removed is whitespace at the two ends: the result is
      the slice of the input starting at the returned offset. */
  lemma StripIsInfix(s: string) returns (a: nat)
    ensures a + |Strip(s)| <= |s| && Strip(s) == s[a..a + |Strip(s)|]
    ensures forall i :: 0 <= i < a ==> IsSpace(s[i])
    ensures forall i :: a + |Strip(s)| <= i < |s| ==> IsSpace(s[i])
  {
    a := SkipSpaces(s, 0);
    var e := TrimEnd(s, a, |s|);
    assert Strip(s) == s[a..e];
    assert a + |Strip(s)| == e;
  }

  /** Stripping leaves a string without outer whitespace unchanged. */
  lemma StripIdle(s: string)
    requires |s| == 0 || (!IsSpace(s[0]) && !IsSpace(s[|s| - 1]))
    ensures Strip(s) == s
  {
  }

  /** Stripping adds no character. */
  lemma StripKeepsAbsent(s: string, c: char)
    ensures c !in s ==> c !in Strip(s)
  {
    var a := StripIsInfix(s);
    var r := Strip(s);
    assert forall i :: 0 <= i < |r| ==> r[i] == s[a + i];
  }

  function LowerAscii(c: char): char {
    if 'A' <= c <= 'Z' then (c as int + 32) as char else c
  }

  /** `v.lower() == word` for a lower-case ASCII word. */
  predicate LowerEquals(v: string, word: string) {
    |v| == |word| && forall i :: 0 <= i < |v| ==> LowerAscii(v[i]) == word[i]
  }

  // ----- numbers -----

  predicate IsDigit(c: char) { '0' <= c <= '9' }

  /** `str.isdigit()` over ASCII digits: non-empty and all digits. */
  predicate IsDigits(s: string) {
    |s| > 0 && forall i :: 0 <= i < |s| ==> IsDigit(s[i])
  }

  /** `s.replace(c, '', 1)`: the first occurrence of `c` removed. */
  function RemoveFirst(s: string, c: char): (r: string)
    ensures c !in s ==> r == s
    ensures c in s ==> r == s[..IndexOf(s, c)] + s[IndexOf(s, c) + 1..]
  {
    if c in s then s[..IndexOf(s, c)] + s[IndexOf(s, c) + 1..] else s
  }

  function DigitOf(c: char): (d: nat)
    requires IsDigit(c)
    ensures d <= 9
  {
    assert c as int >= '0' as int;
    c as int - '0' as int
  }

  /** The number a string of decimal digits denotes. */
  function DigitsValue(s: string): (n: nat)
    requires forall i :: 0 <= i < |s| ==> IsDigit(s[i])
  {
    if |s| == 0 then 0 else DigitsValue(s[..|s| - 1]) * 10 + DigitOf(s[|s| - 1])
  }

  function Pow10(k: nat): (p: nat)
    ensures p >= 1
  {
    if k == 0 then 1 else 10 * Pow10(k - 1)
  }

  /** The exact value of a decimal `digits.digits` string (either side may
      be empty). */
  function DecimalValue(s: string): (x: real)
    requires '.' in s && IsDigits(RemoveFirst(s, '.'))
  {
    var k := IndexOf(s, '.');
    var whole := s[..k];
    var fraction := s[k + 1..];
    assert forall i :: 0 <= i < |whole| ==> whole[i] == RemoveFirst(s, '.')[i];
    assert forall i :: 0 <= i < |fraction| ==> fraction[i] == RemoveFirst(s, '.')[k + i];
    (DigitsValue(whole) as real) + (DigitsValue(fraction) as real) / (Pow10(|fraction|) as real)
  }

  /** A value that starts with a letter is neither an int nor a float. */
  lemma LetterLeadsNoNumber(v: string)
    requires |v| > 0 && !IsDigit(v[0]) && v[0] != '.'
    ensures !IsDigits(v) && !IsDigits(RemoveFirst(v, '.'))
  {
    if '.' in v {
      assert RemoveFirst(v, '.')[0] == v[0];
    }
  }

  /** Type coercion of one stripped value. */
  function Coerce(v: string): (r: Value)
    ensures r.BoolValue? <==> LowerEquals(v, "true") || LowerEquals(v, "false")
    ensures r.BoolValue? ==> r.b == LowerEquals(v, "true")
    ensures r.IntValue? <==> IsDigits(v)
    ensures r.IntValue? ==> r.i >= 0
    ensures r.FloatValue? <==> '.' in v && IsDigits(RemoveFirst(v, '.'))
    ensures r.FloatValue? ==> r.f >= 0.0
    ensures r.StrValue? ==> r.s == v
  {
    if LowerEquals(v, "true") then
      assert LowerAscii(v[0]) == 't';
      LetterLeadsNoNumber(v);
      BoolValue(true)
    else if LowerEquals(v, "false") then
      assert LowerAscii(v[0]) == 'f';
      LetterLeadsNoNumber(v);
      BoolValue(false)
    else if IsDigits(RemoveFirst(v, '.')) then
      if '.' in v then FloatValue(DecimalValue(v)) else IntValue(DigitsValue(v))
    else
      assert !IsDigits(v);
      StrValue(v)
  }

  /** Decimal spelling of a natural number. */
  function NatToDecimal(n: nat): (s: string)
    ensures IsDigits(s)
  {
    if n < 10 then [('0' as int + n) as char]
    else NatToDecimal(n / 10) + [('0' as int + n % 10) as char]
  }

  lemma {:induction false} DigitsOfDecimal(n: nat)
    ensures DigitsValue(NatToDecimal(n)) == n
  {
    if n >= 10 {
      var s := NatToDecimal(n);
      assert s[..|s| - 1] == NatToDecimal(n / 10);
      DigitsOfDecimal(n / 10);
    }
  }

  /** A non-negative integer written in decimal parses back to itself. */
  lemma IntRoundTrip(n: nat)
    ensures Coerce(NatToDecimal(n)) == IntValue(n)
  {
    DigitsOfDecimal(n);
  }

  /** Reading the digits of a + b: those of a, shifted past the |b| digits
      of b, plus those of b. */
  lemma {:induction false} DigitsAppend(a: string, b: string)
    requires forall i :: 0 <= i < |a| ==> IsDigit(a[i])
    requires forall i :: 0 <= i < |b| ==> IsDigit(b[i])
    ensures forall i :: 0 <= i < |a + b| ==> IsDigit((a + b)[i])
    ensures DigitsValue(a + b) == DigitsValue(a) * Pow10(|b|) + DigitsValue(b)
    decreases |b|
  {
    if |b| == 0 {
      assert a + b == a;
    } else {
      var init := b[..|b| - 1];
      assert (a + b)[..|a + b| - 1] == a + init;
      assert (a + b)[|a + b| - 1] == b[|b| - 1];
      DigitsAppend(a, init);
      var d := DigitOf(b[|b| - 1]);
      calc {
        DigitsValue(a + b);
        DigitsValue(a + init) * 10 + d;
        (DigitsValue(a) * Pow10(|init|) + DigitsValue(init)) * 10 + d;
        DigitsValue(a) * (Pow10(|init|) * 10) + (DigitsValue(init) * 10 + d);
        DigitsValue(a) * Pow10(|b|) + DigitsValue(b);
      }
    }
  }

  /** x times the scale p is exactly the whole number n. */
  predicate ScalesTo(x: real, p: nat, n: nat) {
    x * (p as real) == n as real
  }

  /** A float value is exact: scaled by ten to the number of digits after
      the dot, it is the number the digits spell with the dot removed. */
  lemma FloatIsExact(v: string)
    ensures Coerce(v).FloatValue? ==>
      ScalesTo(Coerce(v).f, Pow10(|v| - 1 - IndexOf(v, '.')), DigitsValue(RemoveFirst(v, '.')))
  {
    if Coerce(v).FloatValue? {
      var k := IndexOf(v, '.');
      var whole := v[..k];
      var fraction := v[k + 1..];
      var digits := RemoveFirst(v, '.');
      assert DigitsValue(digits) == DigitsValue(whole) * Pow10(|fraction|) + DigitsValue(fraction) by {
        assert digits == whole + fraction;
        assert forall i :: 0 <= i < |whole| ==> whole[i] == digits[i];
        assert forall i :: 0 <= i < |fraction| ==> fraction[i] == digits[k + i];
        DigitsAppend(whole, fraction);
      }
      var scale := Pow10(|v| - 1 - k);
      assert scale == Pow10(|fraction|) by { assert |v| - 1 - k == |fraction|; }
      var x := Coerce(v).f;
      assert x == DigitsValue(whole) as real + DigitsValue(fraction) as real / scale as real;
      Rescale(x, DigitsValue(whole), DigitsValue(fraction), scale, DigitsValue(digits));
    }
  }

  /** Undoing the division by the scale of the fraction digits: whole
      part w and fraction digits f over scale p make, times p, the number
      n the digits spell without the dot. */
  lemma Rescale(x: real, w: nat, f: nat, p: nat, n: nat)
    requires p > 0 && x == w as real + f as real / p as real && n == w * p + f
    ensures ScalesTo(x, p, n)
  {
    assert (f as real / p as real) * (p as real) == f as real;
  }

  /** A minus sign keeps a number a string. */
  lemma NegativeStaysString()
    ensures Coerce("-5") == StrValue("-5")
  {
    assert !IsDigits("-5") by { assert !IsDigit("-5"[0]); }
  }

  // ----- the parser -----

  /** The key and value of a segment that has a ':', each stripped. The
      split is at the first ':', so the key never holds one. */
  function Entry(segment: string): (e: (string, string))
    requires ':' in segment
    ensures ':' !in e.0
  {
    var k := IndexOf(segment, ':');
    StripKeepsAbsent(segment[..k], ':');
    (Strip(segment[..k]), Strip(segment[k + 1..]))
  }

  /** A segment splits at its first ':' only, so the value keeps any later
      ':' it holds. */
  lemma EntrySplitsAtFirstColon(key: string, value: string)
    requires ':' !in key
    ensures Entry(key + ":" + value) == (Strip(key), Strip(value))
  {
    var segment := key + ":" + value;
    assert segment[|key|] == ':';
    assert segment[..|key|] == key;
    assert IndexOf(segment, ':') == |key|;
    assert segment[|key| + 1..] == value;
  }

  /** The segments' entries, in order, into one map. */
  function Assemble(segments: seq<string>): map<string, Value>
  {
    if |segments| == 0 then map[]
    else
      var m := Assemble(segments[..|segments| - 1]);
      var segment := segments[|segments| - 1];
      if ':' !in segment then m
      else m[Entry(segment).0 := Coerce(Entry(segment).1)]
  }

  /** `parse_strategy_config`: a key is present exactly when some comma
      segment with a ':' defines it, and it maps to the coerced value of
      the last segment that does. */
  function ParseConfig(config: string): (m: map<string, Value>)
    ensures |config| == 0 ==> m == map[]
    ensures forall k :: k in m <==> exists i :: 0 <= i < |SplitOn(config, ',')| && Defines(SplitOn(config, ',')[i], k)
    ensures forall i, k {:trigger Defines(SplitOn(config, ',')[i], k)} ::
      0 <= i < |SplitOn(config, ',')| && Defines(SplitOn(config, ',')[i], k) &&
      (forall j :: i < j < |SplitOn(config, ',')| ==> !Defines(SplitOn(config, ',')[j], k))
      ==> k in m && m[k] == Coerce(Entry(SplitOn(config, ',')[i]).1)
  {
    AssembleSpec(SplitOn(config, ','));
    if |config| == 0 then
      // the only segment of an empty string is empty and defines nothing
      SplitEmpty(config);
      map[]
    else Assemble(SplitOn(config, ','))
  }

  /** The empty string splits into one empty segment, which the parser
      skips: the guard in front of the loop only short-cuts it. */
  lemma SplitEmpty(config: string)
    requires |config| == 0
    ensures Assemble(SplitOn(config, ',')) == map[]
  {
    assert SplitOn(config, ',') == [config];
  }

  /** `AssembleKeys` and `AssembleLastWins` for every key at once. */
  lemma AssembleSpec(segments: seq<string>)
    ensures forall k :: k in Assemble(segments) <==> exists i :: 0 <= i < |segments| && Defines(segments[i], k)
    ensures forall i, k {:trigger Defines(segments[i], k)} ::
      0 <= i < |segments| && Defines(segments[i], k) && (forall j :: i < j < |segments| ==> !Defines(segments[j], k))
      ==> k in Assemble(segments) && Assemble(segments)[k] == Coerce(Entry(segments[i]).1)
  {
    forall k ensures k in Assemble(segments) <==> exists i :: 0 <= i < |segments| && Defines(segments[i], k) {
      AssembleKeys(segments, k);
    }
    forall i, k | 0 <= i < |segments| && Defines(segments[i], k) && (forall j :: i < j < |segments| ==> !Defines(segments[j], k))
      ensures k in Assemble(segments) && Assemble(segments)[k] == Coerce(Entry(segments[i]).1)
    {
      AssembleLastWins(segments, i, k);
    }
  }

  /** The segment defines key `k`. */
  predicate Defines(segment: string, k: string) {
    ':' in segment && Entry(segment).0 == k
  }

  /** One step of `Assemble`: the last segment overrides its key. */
  lemma AssembleLast(segments: seq<string>)
    requires |segments| > 0
    ensures var init := Assemble(segments[..|segments| - 1]);
      var last := segments[|segments| - 1];
      Assemble(segments) == if ':' in last then init[Entry(last).0 := Coerce(Entry(last).1)] else init
  {
  }

  /** Every key in the map was defined by some segment. */
  lemma {:induction false} AssembleKeySource(segments: seq<string>, k: string) returns (i: nat)
    requires k in Assemble(segments)
    ensures i < |segments| && Defines(segments[i], k)
    decreases |segments|
  {
    var n := |segments| - 1;
    var last := segments[n];
    AssembleLast(segments);
    if Defines(last, k) {
      i := n;
    } else {
      var init := segments[..n];
      i := AssembleKeySource(init, k);
      assert init[i] == segments[i];
    }
  }

  /** Every key a segment defines is in the map. */
  lemma {:induction false} AssembleKeyPresent(segments: seq<string>, i: nat, k: string)
    requires i < |segments| && Defines(segments[i], k)
    ensures k in Assemble(segments)
    decreases |segments|
  {
    var n := |segments| - 1;
    AssembleLast(segments);
    if i < n {
      var init := segments[..n];
      assert init[i] == segments[i];
      AssembleKeyPresent(init, i, k);
    }
  }

  /** A key is present exactly when some segment with a ':' defines it. */
  lemma AssembleKeys(segments: seq<string>, k: string)
    ensures k in Assemble(segments) <==> exists i :: 0 <= i < |segments| && Defines(segments[i], k)
  {
    if k in Assemble(segments) {
      var i := AssembleKeySource(segments, k);
    }
    if exists i :: 0 <= i < |segments| && Defines(segments[i], k) {
      var i :| 0 <= i < |segments| && Defines(segments[i], k);
      AssembleKeyPresent(segments, i, k);
    }
  }

  /** The value of a key comes from the last segment that defines it. */
  lemma {:induction false} AssembleLastWins(segments: seq<string>, i: nat, k: string)
    requires i < |segments| && Defines(segments[i], k)
    requires forall j :: i < j < |segments| ==> !Defines(segments[j], k)
    ensures k in Assemble(segments) && Assemble(segments)[k] == Coerce(Entry(segments[i]).1)
    decreases |segments|
  {
    var n := |segments| - 1;
    AssembleLast(segments);
    if i < n {
      var init := segments[..n];
      assert init[i] == segments[i];
      assert forall j :: i < j < |init| ==> init[j] == segments[j];
      AssembleLastWins(init, i, k);
    }
  }

  /** An empty string gives an empty map. */
  lemma ParseEmpty()
    ensures ParseConfig("") == map[]
  {
  }

  /** A decimal numeral has no outer whitespace. */
  lemma StripDecimal(n: nat)
    ensures Strip(NatToDecimal(n)) == NatToDecimal(n)
  {
    var d := NatToDecimal(n);
    assert IsDigit(d[0]) && IsDigit(d[|d| - 1]);
    StripIdle(d);
  }

  /** A segment `name:n` with a clean name. */
  lemma NumberEntry(name: string, n: nat)
    requires |name| > 0 && ':' !in name && !IsSpace(name[0]) && !IsSpace(name[|name| - 1])
    ensures Entry(name + ":" + NatToDecimal(n)) == (name, NatToDecimal(n))
  {
    EntrySplitsAtFirstColon(name, NatToDecimal(n));
    StripIdle(name);
    StripDecimal(n);
  }

  /** One `name:number` segment of the example. */
  lemma ExampleEntry(name: string, n: nat)
    requires |name| > 0 && ':' !in name && !IsSpace(name[0]) && !IsSpace(name[|name| - 1])
    ensures Entry(name + ":" + NatToDecimal(n)) == (name, NatToDecimal(n))
    ensures Coerce(Entry(name + ":" + NatToDecimal(n)).1) == IntValue(n)
  {
    NumberEntry(name, n);
    IntRoundTrip(n);
  }

  lemma ExampleSplit()
    ensures SplitOn("period:14,lower:30,upper:70", ',') == ["period:14", "lower:30", "upper:70"]
  {
    var parts := ["period:14", "lower:30", "upper:70"];
    assert JoinWith(parts, ',') == "period:14,lower:30,upper:70";
    assert forall i :: 0 <= i < |parts| ==> ',' !in parts[i];
    SplitJoin(parts, ',');
  }

  lemma ExampleDigits()
    ensures NatToDecimal(14) == "14" && NatToDecimal(30) == "30" && NatToDecimal(70) == "70"
  {
  }

  lemma ExampleSegment(segment: string, name: string, n: nat)
    requires n == 14 || n == 30 || n == 70
    requires |name| > 0 && ':' !in name && !IsSpace(name[0]) && !IsSpace(name[|name| - 1])
    requires segment == name + ":" + NatToDecimal(n)
    ensures ':' in segment && Entry(segment).0 == name && Coerce(Entry(segment).1) == IntValue(n)
  {
    assert segment[|name|] == ':';
    ExampleEntry(name, n);
  }

  /** Three segments with a ':' each, entered in order. */
  lemma AssembleThree(a: string, b: string, c: string)
    requires ':' in a && ':' in b && ':' in c
    ensures Assemble([a, b, c]) ==
      map[Entry(a).0 := Coerce(Entry(a).1)][Entry(b).0 := Coerce(Entry(b).1)][Entry(c).0 := Coerce(Entry(c).1)]
  {
    AssembleSnoc([], a);
    assert [] + [a] == [a];
    AssembleSnoc([a], b);
    assert [a] + [b] == [a, b];
    AssembleSnoc([a, b], c);
    assert [a, b] + [c] == [a, b, c];
  }

  /** One more segment with a ':' sets its key on top of the earlier ones. */
  lemma AssembleSnoc(segments: seq<string>, x: string)
    requires ':' in x
    ensures Assemble(segments + [x]) == Assemble(segments)[Entry(x).0 := Coerce(Entry(x).1)]
  {
    assert (segments + [x])[..|segments|] == segments;
  }

  lemma ExamplePeriod()
    ensures ':' in "period:14" && Entry("period:14").0 == "period" && Coerce(Entry("period:14").1) == IntValue(14)
  {
    ExampleDigits();
    ExampleSegment("period:14", "period", 14);
  }

  lemma ExampleLower()
    ensures ':' in "lower:30" && Entry("lower:30").0 == "lower" && Coerce(Entry("lower:30").1) == IntValue(30)
  {
    ExampleDigits();
    ExampleSegment("lower:30", "lower", 30);
  }

  lemma ExampleUpper()
    ensures ':' in "upper:70" && Entry("upper:70").0 == "upper" && Coerce(Entry("upper:70").1) == IntValue(70)
  {
    ExampleDigits();
    ExampleSegment("upper:70", "upper", 70);
  }

  lemma ExampleAssemble()
    ensures Assemble(["period:14", "lower:30", "upper:70"]) ==
      map["period" := IntValue(14), "lower" := IntValue(30), "upper" := IntValue(70)]
  {
    ExamplePeriod();
    ExampleLower();
    ExampleUpper();
    AssembleThree("period:14", "lower:30", "upper:70");
  }

  /** The documented example. */
  lemma ParseExample()
    ensures ParseConfig("period:14,lower:30,upper:70") ==
      map["period" := IntValue(14), "lower" := IntValue(30), "upper" := IntValue(70)]
  {
    ExampleSplit();
    ExampleAssemble();
  }

  // ----- the consensus clamp -----

  /** `str.upper()` over ASCII letters. */
  function UpperAscii(s: string): (r: string)
    ensures |r| == |s|
    ensures forall i :: 0 <= i < |s| ==> r[i] == (if 'a' <= s[i] <= 'z' then (s[i] as int - 32) as char else s[i])
  {
    seq(|s|, i requires 0 <= i < |s| => if 'a' <= s[i] <= 'z' then (s[i] as int - 32) as char else s[i])
  }

  /** The active strategy names: split on ',', stripped and upper-cased. */
  function ActiveNames(active: string): (names: seq<string>)
    ensures |names| == |SplitOn(active, ',')|
    ensures forall i :: 0 <= i < |names| ==> names[i] == UpperAscii(Strip(SplitOn(active, ',')[i]))
  {
    var parts := SplitOn(active, ',');
    seq(|parts|, i requires 0 <= i < |parts| => UpperAscii(Strip(parts[i])))
  }

  /** A strategy name as the loader looks it up: no comma, no whitespace
      at either end and no lower-case ASCII letter. */
  predicate CleanName(n: string) {
    && ',' !in n
    && (|n| == 0 || (!IsSpace(n[0]) && !IsSpace(n[|n| - 1])))
    && forall k :: 0 <= k < |n| ==> !('a' <= n[k] <= 'z')
  }

  /** Every active name is clean, whatever the configured text. */
  lemma ActiveNamesClean(active: string)
    ensures forall i :: 0 <= i < |ActiveNames(active)| ==> CleanName(ActiveNames(active)[i])
  {
    var parts := SplitOn(active, ',');
    forall i | 0 <= i < |parts| ensures CleanName(ActiveNames(active)[i]) {
      StripKeepsAbsent(parts[i], ',');
      UpperKeepsClean(Strip(parts[i]));
    }
  }

  /** Upper-casing a stripped, comma-free name makes it clean: it only
      turns lower-case letters into upper-case ones. */
  lemma UpperKeepsClean(s: string)
    requires ',' !in s
    requires |s| == 0 || (!IsSpace(s[0]) && !IsSpace(s[|s| - 1]))
    ensures CleanName(UpperAscii(s))
  {
    var u := UpperAscii(s);
    forall k | 0 <= k < |s| ensures u[k] != ',' {
    }
  }

  /** The names that load, in order; a name that fails is skipped. */
  function LoadAll(names: seq<string>, loads: set<string>): (loaded: seq<string>)
    ensures |loaded| <= |names|
    ensures forall i :: 0 <= i < |loaded| ==> loaded[i] in loads
    ensures forall i :: 0 <= i < |names| && names[i] in loads ==> names[i] in loaded
  {
    if |names| == 0 then []
    else (if names[0] in loads then [names[0]] else []) + LoadAll(names[1..], loads)
  }

  /** A single name loads exactly when it is in `loads`. */
  lemma LoadOne(n: string, loads: set<string>)
    ensures LoadAll([n], loads) == if n in loads then [n] else []
  {
    assert [n][1..] == [];
  }

  /** Loading distributes over concatenation. With `LoadOne` this pins
      `LoadAll` down as the order-keeping filter of the loader's loop. */
  lemma {:induction false} LoadAppend(a: seq<string>, b: seq<string>, loads: set<string>)
    ensures LoadAll(a + b, loads) == LoadAll(a, loads) + LoadAll(b, loads)
    decreases |a|
  {
    if |a| == 0 {
      assert a + b == b;
    } else {
      assert (a + b)[0] == a[0];
      assert (a + b)[1..] == a[1..] + b;
      LoadAppend(a[1..], b, loads);
    }
  }

  /** `load_strategies_from_env`, with the environment and the strategy
      constructors as parameters: `loads` is the set of names whose
      construction succeeds and `requested` the configured threshold. */
  function LoadStrategies(active: string, loads: set<string>, requested: int): (r: (seq<string>, int))
    ensures r.0 == LoadAll(ActiveNames(active), loads)
    ensures r.1 <= |r.0|
    ensures requested <= |r.0| ==> r.1 == requested
    ensures requested > |r.0| ==> r.1 == |r.0|
  {
    var loaded := LoadAll(ActiveNames(active), loads);
    (loaded, ClampConsensus(requested, |loaded|))
  }

  /** The clamp: never more than the number of loaded strategies; no lower
      bound is applied. */
  function ClampConsensus(requested: int, loaded: nat): (c: int)
    ensures c <= loaded
    ensures c == requested || c == loaded
    ensures requested <= loaded ==> c == requested
  {
    if requested > loaded then loaded else requested
  }
}

=== FILE: crossing.dfy ===
/** The crossing rule shared by the signal generators: a boolean state per
    row ("close above its average", "uptrend"), compared with the previous
    row's state; the first row compares with a fixed starting state (pandas'
    `shift(1, fill_value=...)`). */
module Crossing {
  import opened Series

  /** The state on the row before row `i`; `start` before the first row. */
  function Before(above: seq<bool>, start: bool, i: nat): bool
    requires i < |above|
  {
    if i == 0 then start else above[i - 1]
  }

  /** 1 when the state turns on, -1 when it turns off, else 0. */
  function Cross(above: seq<bool>, start: bool, i: nat): (s: int)
    requires i < |above|
    ensures IsSignal(s)
  {
    if above[i] && !Before(above, start, i) then 1
    else if !above[i] && Before(above, start, i) then -1
    else 0
  }

  function CrossSignals(above: seq<bool>, start: bool): (r: seq<int>)
    ensures |r| == |above|
    ensures forall i :: 0 <= i < |above| ==> r[i] == Cross(above, start, i)
  {
    seq(|above|, i requires 0 <= i < |above| => Cross(above, start, i))
  }

  /** The last non-zero signal, 0 when there is none. */
  function LastNonZero(s: seq<int>): (v: int)
    ensures v == 0 || v in s
  {
    if |s| == 0 then 0
    else if s[|s| - 1] != 0 then s[|s| - 1]
    else LastNonZero(s[..|s| - 1])
  }

  /** The state the signals so far announce: on after a buy, off after a
      sell, `start` before any signal. */
  predicate Held(start: bool, s: seq<int>) {
    LastNonZero(s) == 1 || (LastNonZero(s) == 0 && start)
  }

  /** The signals follow the state: after the first k rows, the last signal
      tells whether the state is on. */
  lemma {:induction false} CrossingsTrack(above: seq<bool>, start: bool, k: nat)
    requires k <= |above|
    ensures Held(start, CrossSignals(above, start)[..k]) == (if k == 0 then start else above[k - 1])
  {
    var s := CrossSignals(above, start);
    if k > 0 {
      CrossingsTrack(above, start, k - 1);
      assert s[..k][..k - 1] == s[..k - 1];
      assert s[..k][k - 1] == Cross(above, start, k - 1);
    }
  }

  /** Buys and sells alternate: a buy comes only while the signals so far
      leave the state off, a sell only while they leave it on. */
  lemma Alternate(above: seq<bool>, start: bool, i: nat)
    requires i < |above|
    ensures CrossSignals(above, start)[i] == 1 ==> !Held(start, CrossSignals(above, start)[..i])
    ensures CrossSignals(above, start)[i] == -1 ==> Held(start, CrossSignals(above, start)[..i])
  {
    CrossingsTrack(above, start, i);
  }

  /** Clears the signals on rows that `keep` rejects. */
  function Keep(s: seq<int>, keep: seq<bool>): (r: seq<int>)
    requires |keep| == |s|
    ensures |r| == |s|
    ensures forall i :: 0 <= i < |s| ==> r[i] == (if keep[i] then s[i] else 0)
  {
    seq(|s|, i requires 0 <= i < |s| => if keep[i] then s[i] else 0)
  }

  /** A filter only clears: every signal it leaves was there before, so it
      never produces more non-zero signals. */
  lemma KeepOnlyClears(s: seq<int>, keep: seq<bool>)
    requires |keep| == |s|
    ensures forall i :: 0 <= i < |s| && Keep(s, keep)[i] != 0 ==> Keep(s, keep)[i] == s[i]
    ensures CountNonZero(Keep(s, keep)) <= CountNonZero(s)
  {
    CountNonZeroMonotone(Keep(s, keep), s);
  }
}

=== FILE: elliott_waves.dfy ===
/** `ElliottWavesStrategy`: local pivots, a simplified wave count over
    consecutive pivots, and signals at the start of waves 3 and 5 or on a
    corrective move. */
module ElliottWaves {
  import opened Series
  import Models

  /** The strategy's parameters; the wave size is kept as a fraction. */
  datatype ElliottConfig = ElliottConfig(pivotWindow: int, minWaveSize: real, useVolume: bool, waveCount: int)

  /** What `get_parameters` reports, with the wave size as a percentage. */
  datatype Parameters = Parameters(pivotWindow: int, minWaveSizePercent: real, useVolume: bool, waveCount: int)

  /** The constructor: the wave size is given in percent and stored as a fraction. */
  function NewElliott(pivotWindow: int, minWaveSizePercent: real, useVolume: bool, waveCount: int): (c: ElliottConfig)
    ensures c.minWaveSize * 100.0 == minWaveSizePercent
    ensures c.pivotWindow == pivotWindow && c.useVolume == useVolume && c.waveCount == waveCount
  {
    ElliottConfig(pivotWindow, minWaveSizePercent / 100.0, useVolume, waveCount)
  }

  const ElliottDefaults := NewElliott(5, 2.0, true, 5)

  /** `get_parameters`. */
  function GetParameters(c: ElliottConfig): (p: Parameters)
    ensures p.minWaveSizePercent / 100.0 == c.minWaveSize
  {
    Parameters(c.pivotWindow, c.minWaveSize * 100.0, c.useVolume, c.waveCount)
  }

  /** The parameters reported are the ones given to the constructor. */
  lemma ParametersRoundTrip(pivotWindow: int, minWaveSizePercent: real, useVolume: bool, waveCount: int)
    ensures GetParameters(NewElliott(pivotWindow, minWaveSizePercent, useVolume, waveCount))
         == Parameters(pivotWindow, minWaveSizePercent, useVolume, waveCount)
  {
  }

  // ----- pivots -----

  /** The high at row i is the largest in the window of w rows either side. */
  predicate PivotHigh(highs: seq<real>, w: nat, i: nat)
    requires w <= i && i + w < |highs|
  {
    forall j :: i - w <= j <= i + w ==> highs[j] <= highs[i]
  }

  /** The low at row i is the smallest in the window of w rows either side. */
  predicate PivotLow(lows: seq<real>, w: nat, i: nat)
    requires w <= i && i + w < |lows|
  {
    forall j :: i - w <= j <= i + w ==> lows[i] <= lows[j]
  }

  /** Which column a pivot comes from; "high" sorts before "low", as the
      strings do in the source's sort. */
  datatype Side = High | Low

  datatype Pivot = Pivot(index: nat, side: Side, price: real)

  /** The order of the source's `sorted` on (index, side, price) tuples. */
  predicate Precedes(a: Pivot, b: Pivot) {
    a.index < b.index || (a.index == b.index && a.side == High && b.side == Low)
  }

  predicate Ordered(ps: seq<Pivot>) {
    forall i, j :: 0 <= i < j < |ps| ==> Precedes(ps[i], ps[j])
  }

  /** A pivot at row i of the given side, with that row's price. */
  predicate IsPivot(highs: seq<real>, lows: seq<real>, w: nat, p: Pivot)
    requires |highs| == |lows|
  {
    && w <= p.index && p.index + w < |highs|
    && (p.side == High ==> p.price == highs[p.index] && PivotHigh(highs, w, p.index))
    && (p.side == Low ==> p.price == lows[p.index] && PivotLow(lows, w, p.index))
  }

  /** `_identify_pivots` for the rows w .. k-1, combined and sorted as in
      `_detect_waves`: by row, a row's high pivot before its low pivot. */
  function Pivots(highs: seq<real>, lows: seq<real>, w: nat, k: nat): (r: seq<Pivot>)
    requires |highs| == |lows| && w <= k && k + w <= |highs|
    ensures forall p :: p in r ==> p.index < k && IsPivot(highs, lows, w, p)
    ensures forall i :: w <= i < k ==>
      && (Pivot(i, High, highs[i]) in r <==> PivotHigh(highs, w, i))
      && (Pivot(i, Low, lows[i]) in r <==> PivotLow(lows, w, i))
    ensures Ordered(r)
    decreases k
  {
    if k == w then []
    else
      var before := Pivots(highs, lows, w, k - 1);
      var here := PivotsAt(highs, lows, w, k - 1);
      PivotsGrow(highs, lows, w, k, before, here);
      before + here
  }

  /** The pivots of rows w .. k-2 followed by those of row k-1 are the
      pivots of rows w .. k-1, still in order. */
  lemma PivotsGrow(highs: seq<real>, lows: seq<real>, w: nat, k: nat, before: seq<Pivot>, here: seq<Pivot>)
    requires |highs| == |lows| && w < k && k + w <= |highs|
    requires Ordered(before) && forall p :: p in before ==> p.index < k - 1 && IsPivot(highs, lows, w, p)
    requires forall i :: w <= i < k - 1 ==>
      && (Pivot(i, High, highs[i]) in before <==> PivotHigh(highs, w, i))
      && (Pivot(i, Low, lows[i]) in before <==> PivotLow(lows, w, i))
    requires Ordered(here) && forall p :: p in here ==> p.index == k - 1 && IsPivot(highs, lows, w, p)
    requires Pivot(k - 1, High, highs[k - 1]) in here <==> PivotHigh(highs, w, k - 1)
    requires Pivot(k - 1, Low, lows[k - 1]) in here <==> PivotLow(lows, w, k - 1)
    ensures forall p :: p in before + here ==> p.index < k && IsPivot(highs, lows, w, p)
    ensures forall i :: w <= i < k ==>
      && (Pivot(i, High, highs[i]) in before + here <==> PivotHigh(highs, w, i))
      && (Pivot(i, Low, lows[i]) in before + here <==> PivotLow(lows, w, i))
    ensures Ordered(before + here)
  {
    OrderedAppend(before, here);
    forall i | w <= i < k - 1
      ensures Pivot(i, High, highs[i]) !in here && Pivot(i, Low, lows[i]) !in here
    {
    }
    forall i | i == k - 1
      ensures Pivot(i, High, highs[i]) in before + here <==> PivotHigh(highs, w, i)
      ensures Pivot(i, Low, lows[i]) in before + here <==> PivotLow(lows, w, i)
    {
      assert Pivot(i, High, highs[i]) !in before && Pivot(i, Low, lows[i]) !in before;
    }
  }

  /** The pivots of row i: its high pivot, then its low pivot. */
  function PivotsAt(highs: seq<real>, lows: seq<real>, w: nat, i: nat): (r: seq<Pivot>)
    requires |highs| == |lows| && w <= i && i + w < |highs|
    ensures Ordered(r)
    ensures forall p :: p in r ==> p.index == i && IsPivot(highs, lows, w, p)
    ensures Pivot(i, High, highs[i]) in r <==> PivotHigh(highs, w, i)
    ensures Pivot(i, Low, lows[i]) in r <==> PivotLow(lows, w, i)
  {
    (if PivotHigh(highs, w, i) then [Pivot(i, High, highs[i])] else [])
    + (if PivotLow(lows, w, i) then [Pivot(i, Low, lows[i])] else [])
  }

  /** Ordered runs, each wholly before the next, concatenate to an ordered run. */
  lemma OrderedAppend(a: seq<Pivot>, b: seq<Pivot>)
    requires Ordered(a) && Ordered(b)
    requires forall p, q :: p in a && q in b ==> Precedes(p, q)
    ensures Ordered(a + b)
  {
    var r := a + b;
    forall x, y | 0 <= x < y < |r| ensures Precedes(r[x], r[y]) {
      if y < |a| {
        assert r[x] == a[x] && r[y] == a[y];
      } else if x < |a| {
        assert r[x] in a && r[y] in b;
      } else {
        assert r[x] == b[x - |a|] && r[y] == b[y - |a|];
      }
    }
  }

  // ----- waves -----

  datatype WaveType = Neutral | Impulse | Corrective

  datatype Trend = Up | Down

  /** A wave over the rows start .. end, with its number and type. */
  datatype Wave = Wave(start: nat, end: nat, number: int, kind: WaveType)

  /** The state of the wave count: the next wave number, the trend, and the
      waves found so far. */
  datatype Count = Count(number: int, trend: Trend, waves: seq<Wave>)

  /** `abs(curr - prev) / prev >= min_wave_size` in floating point: over a
      zero previous price a move is infinitely large (significant) and no
      move is NaN (never significant). */
  predicate Significant(prev: real, curr: real, minSize: real) {
    if prev == 0.0 then curr != 0.0 else Models.Abs(curr - prev) / prev >= minSize
  }

  /** A wave is well formed: numbered 1 to 5, never neutral, and a
      corrective wave is always wave 1. */
  predicate WellFormed(wave: Wave) {
    && 1 <= wave.number <= 5
    && wave.kind != Neutral
    && (wave.kind == Corrective ==> wave.number == 1)
    && wave.start <= wave.end
  }

  predicate Sound(c: Count) {
    1 <= c.number <= 5 && forall k :: 0 <= k < |c.waves| ==> WellFormed(c.waves[k])
  }

  /** r is c with one more wave, from pivot prev to pivot curr. The trend
      becomes the direction of the move; the wave is an impulse that goes on
      with the count when the trend holds, and a corrective wave 1 when it
      turns; the next number then cycles through 1 to 5. */
  predicate Extends(c: Count, r: Count, prev: Pivot, curr: Pivot) {
    && |r.waves| == |c.waves| + 1 && r.waves[..|c.waves|] == c.waves
    && r.waves[|c.waves|].start == prev.index && r.waves[|c.waves|].end == curr.index
    && r.trend == (if curr.side == High then Up else Down)
    && (r.waves[|c.waves|].kind == Impulse <==> c.trend == r.trend)
    && r.waves[|c.waves|].number == (if c.trend == r.trend then c.number else 1)
    && r.number == r.waves[|c.waves|].number % 5 + 1
  }

  /** One pass of the loop in `_detect_waves` over the pivot pair (prev, curr). */
  function Step(c: Count, prev: Pivot, curr: Pivot, minSize: real): (r: Count)
    requires Sound(c) && prev.index <= curr.index
    ensures Sound(r)
    // a significant move between pivots of different sides adds one wave
    // over its rows; anything else leaves the count alone
    ensures Significant(prev.price, curr.price, minSize) && prev.side != curr.side ==> Extends(c, r, prev, curr)
    ensures !(Significant(prev.price, curr.price, minSize) && prev.side != curr.side) ==> r == c
  {
    if !Significant(prev.price, curr.price, minSize) || prev.side == curr.side then c
    else
      var trend := if curr.side == High then Up else Down;
      var kind := if c.trend == trend then Impulse else Corrective;
      var number := if c.trend == trend then c.number else 1;
      var r := Count(number % 5 + 1, trend, c.waves + [Wave(prev.index, curr.index, number, kind)]);
      assert forall k :: 0 <= k < |c.waves| ==> r.waves[k] == c.waves[k];
      r
  }

  /** The numbering rule over a run of waves: the first is wave 1, an
      impulse continues the previous wave's number cyclically (5 is followed
      by 1), and a corrective wave starts again at 1. */
  predicate Numbered(waves: seq<Wave>) {
    && (|waves| > 0 ==> waves[0].number == 1)
    && forall k :: 0 < k < |waves| ==>
         waves[k].number == (if waves[k].kind == Impulse then waves[k - 1].number % 5 + 1 else 1)
  }

  /** The number the next wave along the trend receives. */
  function NextNumber(waves: seq<Wave>): int {
    if |waves| == 0 then 1 else waves[|waves| - 1].number % 5 + 1
  }

  /** The count after the pairs among the first m pivots. */
  function CountTo(pivots: seq<Pivot>, m: nat, minSize: real): (r: Count)
    requires Ordered(pivots) && 1 <= m <= |pivots|
    ensures Sound(r)
    ensures Numbered(r.waves) && r.number == NextNumber(r.waves)
    decreases m
  {
    if m == 1 then Count(1, Up, [])
    else Step(CountTo(pivots, m - 1, minSize), pivots[m - 2], pivots[m - 1], minSize)
  }

  /** The waves `_detect_waves` assigns; none with fewer than three pivots. */
  function DetectWaves(pivots: seq<Pivot>, minSize: real): (r: seq<Wave>)
    requires Ordered(pivots)
    ensures forall k :: 0 <= k < |r| ==> WellFormed(r[k])
    ensures Numbered(r)
  {
    if |pivots| < 3 then [] else CountTo(pivots, |pivots|, minSize).waves
  }

  /** A wave runs from one of the first m pivots to the next one. */
  predicate SpansPair(w: Wave, pivots: seq<Pivot>, m: nat) {
    exists j :: 1 <= j < m && j < |pivots| && w.start == pivots[j - 1].index && w.end == pivots[j].index
  }

  /** Each wave spans two consecutive pivots. */
  lemma {:induction false} WavesSpanPivots(pivots: seq<Pivot>, m: nat, minSize: real)
    requires Ordered(pivots) && 1 <= m <= |pivots|
    ensures forall k :: 0 <= k < |CountTo(pivots, m, minSize).waves| ==>
      SpansPair(CountTo(pivots, m, minSize).waves[k], pivots, m)
    decreases m
  {
    if m > 1 {
      WavesSpanPivots(pivots, m - 1, minSize);
      var c := CountTo(pivots, m - 1, minSize);
      assert CountTo(pivots, m, minSize) == Step(c, pivots[m - 2], pivots[m - 1], minSize);
      StepSpans(c, CountTo(pivots, m, minSize), pivots, m);
    } else {
      assert CountTo(pivots, m, minSize).waves == [];
    }
  }

  /** One step of the count keeps every wave over a pair of consecutive
      pivots: the old waves stay, and a new one spans the latest pair. */
  lemma StepSpans(c: Count, r: Count, pivots: seq<Pivot>, m: nat)
    requires 2 <= m <= |pivots|
    requires r == c || Extends(c, r, pivots[m - 2], pivots[m - 1])
    requires forall k :: 0 <= k < |c.waves| ==> SpansPair(c.waves[k], pivots, m - 1)
    ensures forall k :: 0 <= k < |r.waves| ==> SpansPair(r.waves[k], pivots, m)
  {
    forall k | 0 <= k < |c.waves| ensures SpansPair(c.waves[k], pivots, m) {
      SpansWiden(c.waves[k], pivots, m - 1);
    }
    if r != c {
      var w := r.waves[|c.waves|];
      assert SpansPair(w, pivots, m) by {
        var j := m - 1;
        assert 1 <= j < m && j < |pivots| && w.start == pivots[j - 1].index && w.end == pivots[j].index;
      }
      forall k | 0 <= k < |r.waves| ensures SpansPair(r.waves[k], pivots, m) {
        if k < |c.waves| {
          assert r.waves[k] == r.waves[..|c.waves|][k] == c.waves[k];
        }
      }
    }
  }

  /** A wave over the first m pivots lies over the first m + 1. */
  lemma SpansWiden(w: Wave, pivots: seq<Pivot>, m: nat)
    requires SpansPair(w, pivots, m)
    ensures SpansPair(w, pivots, m + 1)
  {
    var j :| 1 <= j < m && j < |pivots| && w.start == pivots[j - 1].index && w.end == pivots[j].index;
    assert 1 <= j < m + 1;
  }

  /** Wave w runs over row i. */
  predicate Covers(w: Wave, i: nat) {
    w.start <= i <= w.end
  }

  /** Wave k is the last of the waves that runs over row i. */
  predicate LastCover(waves: seq<Wave>, i: nat, k: nat)
    requires k < |waves|
  {
    Covers(waves[k], i) && forall k' :: k < k' < |waves| ==> !Covers(waves[k'], i)
  }

  /** A last wave not over row i leaves the last earlier wave over it the
      last one. */
  lemma LastCoverGrows(waves: seq<Wave>, i: nat)
    requires |waves| > 0 && !Covers(waves[|waves| - 1], i)
    ensures forall k :: 0 <= k < |waves| - 1 && LastCover(waves[..|waves| - 1], i, k) ==> LastCover(waves, i, k)
  {
    var init := waves[..|waves| - 1];
    assert forall k :: 0 <= k < |init| ==> init[k] == waves[k];
  }

  /** The number and type row i ends up with: those of the last wave over
      it (later waves overwrite earlier ones), else 0 and neutral. */
  function LabelAt(waves: seq<Wave>, i: nat): (l: (int, WaveType))
    requires forall k :: 0 <= k < |waves| ==> WellFormed(waves[k])
    ensures 0 <= l.0 <= 5
    ensures l.1 == Neutral <==> l.0 == 0
    ensures l.1 == Corrective ==> l.0 == 1
    ensures l.0 == 0 <==> forall k :: 0 <= k < |waves| ==> !Covers(waves[k], i)
    ensures l.0 != 0 ==> exists k :: 0 <= k < |waves| && LastCover(waves, i, k) && l == (waves[k].number, waves[k].kind)
  {
    if |waves| == 0 then (0, Neutral)
    else
      var n := |waves| - 1;
      var last := waves[n];
      assert WellFormed(last);
      if Covers(last, i) then
        assert LastCover(waves, i, n);
        (last.number, last.kind)
      else
        var init := waves[..n];
        assert forall k :: 0 <= k < |init| ==> init[k] == waves[k];
        LastCoverGrows(waves, i);
        LabelAt(init, i)
  }

  // ----- signals -----

  /** One row of market data. */
  datatype Bar = Bar(high: real, low: real, close: real, volume: real)

  /** The buy rule of `_generate_wave_signals` at row i > 0: a change into
      impulse wave 3 or 5 on a rising close. */
  predicate BuyRule(numbers: seq<int>, kinds: seq<WaveType>, bars: seq<Bar>, i: nat)
    requires |numbers| == |kinds| == |bars| && 0 < i < |bars|
  {
    && kinds[i] == Impulse && numbers[i - 1] != numbers[i] && (numbers[i] == 3 || numbers[i] == 5)
    && bars[i].close > bars[i - 1].close
  }

  /** The sell rule at row i > 0: a corrective wave, or an impulse right
      after wave 5, on a falling close. */
  predicate SellRule(numbers: seq<int>, kinds: seq<WaveType>, bars: seq<Bar>, i: nat)
    requires |numbers| == |kinds| == |bars| && 0 < i < |bars|
  {
    && (kinds[i] == Corrective || (kinds[i] == Impulse && numbers[i - 1] == 5))
    && bars[i].close < bars[i - 1].close
  }

  /** A rising and a falling close exclude each other, so no row is both a
      buy and a sell. */
  lemma BuyOrSell(numbers: seq<int>, kinds: seq<WaveType>, bars: seq<Bar>, i: nat)
    requires |numbers| == |kinds| == |bars| && 0 < i < |bars|
    ensures !(BuyRule(numbers, kinds, bars, i) && SellRule(numbers, kinds, bars, i))
  {
  }

  /** `_generate_wave_signals` at row i; the sell is written last and wins. */
  function WaveSignal(numbers: seq<int>, kinds: seq<WaveType>, bars: seq<Bar>, i: nat): (s: int)
    requires |numbers| == |kinds| == |bars| && i < |bars|
    ensures IsSignal(s)
  {
    if i == 0 then 0
    else if SellRule(numbers, kinds, bars, i) then -1
    else if BuyRule(numbers, kinds, bars, i) then 1
    else 0
  }

  /** `_confirm_with_volume` at row i: the volume is compared with its
      20-row average (over fewer rows at the start); an impulse signal needs
      120% of it, a sell 80%. */
  function Confirmed(s: int, kind: WaveType, volumes: seq<real>, i: nat): (r: int)
    requires i < |volumes|
    ensures r == 0 || r == s
  {
    var avg := RollingMeanFrom1(volumes, 20, i);
    if s == 0 then 0
    else
      var s1 := if kind == Impulse && volumes[i] < avg * 1.2 then 0 else s;
      if s1 == -1 && volumes[i] < avg * 0.8 then 0 else s1
  }

  /** The columns `generate_signals` adds. */
  datatype Output = Output(signal: seq<int>, pivotHigh: seq<bool>, pivotLow: seq<bool>,
                           waveNumber: seq<int>, waveType: seq<WaveType>)

  /** The numbered waves of the table, one label per row. */
  datatype Labels = Labels(numbers: seq<int>, kinds: seq<WaveType>)

  /** The waves detected over a table's pivots, numbered by `Numbered`. */
  function BarWaves(w: nat, minSize: real, bars: seq<Bar>): (r: seq<Wave>)
    requires |bars| >= 2 * w + 1
    ensures forall k :: 0 <= k < |r| ==> WellFormed(r[k])
    ensures Numbered(r)
  {
    DetectWaves(Pivots(Highs(bars), Lows(bars), w, |bars| - w), minSize)
  }

  /** Pivots, waves and row labels, for a table with at least one full window. */
  function Label(w: nat, minSize: real, bars: seq<Bar>): (l: Labels)
    requires |bars| >= 2 * w + 1
    ensures |l.numbers| == |l.kinds| == |bars|
    ensures forall i :: 0 <= i < |bars| ==>
      && 0 <= l.numbers[i] <= 5
      && (l.kinds[i] == Neutral <==> l.numbers[i] == 0)
      && (l.kinds[i] == Corrective ==> l.numbers[i] == 1)
    ensures forall i :: 0 <= i < |bars| ==> (l.numbers[i], l.kinds[i]) == LabelAt(BarWaves(w, minSize, bars), i)
  {
    var n := |bars|;
    var waves := BarWaves(w, minSize, bars);
    Labels(seq(n, i requires 0 <= i < n => LabelAt(waves, i).0),
           seq(n, i requires 0 <= i < n => LabelAt(waves, i).1))
  }

  function Highs(bars: seq<Bar>): (r: seq<real>)
    ensures |r| == |bars| && forall i :: 0 <= i < |bars| ==> r[i] == bars[i].high
  {
    seq(|bars|, i requires 0 <= i < |bars| => bars[i].high)
  }

  function Lows(bars: seq<Bar>): (r: seq<real>)
    ensures |r| == |bars| && forall i :: 0 <= i < |bars| ==> r[i] == bars[i].low
  {
    seq(|bars|, i requires 0 <= i < |bars| => bars[i].low)
  }

  function Volumes(bars: seq<Bar>): (r: seq<real>)
    ensures |r| == |bars|
  {
    seq(|bars|, i requires 0 <= i < |bars| => bars[i].volume)
  }

  /** The signals of `_generate_wave_signals`, each obeying its rule. */
  function WaveSignals(l: Labels, bars: seq<Bar>): (r: seq<int>)
    requires |l.numbers| == |l.kinds| == |bars|
    ensures |r| == |bars|
    ensures forall i :: 0 <= i < |bars| ==> IsSignal(r[i])
    ensures |bars| > 0 ==> r[0] == 0
    ensures forall i :: 0 < i < |bars| && r[i] == 1 ==> BuyRule(l.numbers, l.kinds, bars, i)
    ensures forall i :: 0 < i < |bars| && r[i] == -1 ==> SellRule(l.numbers, l.kinds, bars, i)
  {
    seq(|bars|, i requires 0 <= i < |bars| => WaveSignal(l.numbers, l.kinds, bars, i))
  }

  /** `_confirm_with_volume` over all rows: it only clears signals. */
  function ConfirmAll(raw: seq<int>, kinds: seq<WaveType>, bars: seq<Bar>): (r: seq<int>)
    requires |raw| == |kinds| == |bars|
    ensures |r| == |bars|
    ensures forall i :: 0 <= i < |bars| ==> r[i] == 0 || r[i] == raw[i]
  {
    var volumes := Volumes(bars);
    seq(|bars|, i requires 0 <= i < |bars| => Confirmed(raw[i], kinds[i], volumes, i))
  }

  /** `generate_signals`; `hasVolume` says whether the table has a volume column. */
  function GenerateSignals(cfg: ElliottConfig, bars: seq<Bar>, hasVolume: bool): (r: Output)
    requires cfg.pivotWindow >= 0
    ensures |r.signal| == |r.pivotHigh| == |r.pivotLow| == |r.waveNumber| == |r.waveType| == |bars|
    // too few rows for one window: nothing is marked
    ensures |bars| < 2 * cfg.pivotWindow + 1 ==> forall i :: 0 <= i < |bars| ==>
      r.signal[i] == 0 && !r.pivotHigh[i] && !r.pivotLow[i] && r.waveNumber[i] == 0 && r.waveType[i] == Neutral
    ensures forall i :: 0 <= i < |bars| ==> IsSignal(r.signal[i])
    ensures |bars| > 0 ==> r.signal[0] == 0
    // wave labels: numbers 0 to 5, 0 exactly on neutral rows, corrective waves are wave 1
    ensures forall i :: 0 <= i < |bars| ==>
      && 0 <= r.waveNumber[i] <= 5
      && (r.waveType[i] == Neutral <==> r.waveNumber[i] == 0)
      && (r.waveType[i] == Corrective ==> r.waveNumber[i] == 1)
    // every buy and sell obeys its rule
    ensures forall i :: 0 < i < |bars| && r.signal[i] == 1 ==> BuyRule(r.waveNumber, r.waveType, bars, i)
    ensures forall i :: 0 < i < |bars| && r.signal[i] == -1 ==> SellRule(r.waveNumber, r.waveType, bars, i)
    // pivots exactly where a full window fits on both sides and the row's
    // high (low) is the window's largest (smallest)
    ensures forall i :: 0 <= i < |bars| && (r.pivotHigh[i] || r.pivotLow[i]) ==>
      cfg.pivotWindow <= i < |bars| - cfg.pivotWindow
    ensures |bars| >= 2 * cfg.pivotWindow + 1 ==> forall i :: cfg.pivotWindow <= i < |bars| - cfg.pivotWindow ==>
      && (r.pivotHigh[i] <==> PivotHigh(Highs(bars), cfg.pivotWindow, i))
      && (r.pivotLow[i] <==> PivotLow(Lows(bars), cfg.pivotWindow, i))
    // each row carries the number and type of the last detected wave over it
    ensures |bars| >= 2 * cfg.pivotWindow + 1 ==> forall i :: 0 <= i < |bars| ==>
      (r.waveNumber[i], r.waveType[i]) == LabelAt(BarWaves(cfg.pivotWindow, cfg.minWaveSize, bars), i)
  {
    var n := |bars|;
    var w: nat := cfg.pivotWindow;
    if n < 2 * w + 1 then Blank(n)
    else
      var l := Label(w, cfg.minWaveSize, bars);
      Output(Signals(cfg, l, bars, hasVolume), HighMarks(Highs(bars), w), LowMarks(Lows(bars), w), l.numbers, l.kinds)
  }

  /** The signal column: the wave rules, then the volume check when it is
      both enabled and possible. */
  function Signals(cfg: ElliottConfig, l: Labels, bars: seq<Bar>, hasVolume: bool): (r: seq<int>)
    requires |l.numbers| == |l.kinds| == |bars|
    ensures |r| == |bars|
    ensures forall i :: 0 <= i < |bars| ==> IsSignal(r[i])
    ensures |bars| > 0 ==> r[0] == 0
    ensures forall i :: 0 < i < |bars| && r[i] == 1 ==> BuyRule(l.numbers, l.kinds, bars, i)
    ensures forall i :: 0 < i < |bars| && r[i] == -1 ==> SellRule(l.numbers, l.kinds, bars, i)
    ensures !(cfg.useVolume && hasVolume) ==> r == WaveSignals(l, bars)
  {
    var raw := WaveSignals(l, bars);
    if cfg.useVolume && hasVolume then ConfirmAll(raw, l.kinds, bars) else raw
  }

  /** The output of a table too short for one window: nothing marked. */
  function Blank(n: nat): (r: Output)
    ensures |r.signal| == |r.pivotHigh| == |r.pivotLow| == |r.waveNumber| == |r.waveType| == n
    ensures forall i :: 0 <= i < n ==>
      r.signal[i] == 0 && !r.pivotHigh[i] && !r.pivotLow[i] && r.waveNumber[i] == 0 && r.waveType[i] == Neutral
  {
    Output(seq(n, _ => 0), seq(n, _ => false), seq(n, _ => false), seq(n, _ => 0), seq(n, _ => Neutral))
  }

  /** The `pivot_high` column: set on the rows that are high pivots. */
  function HighMarks(highs: seq<real>, w: nat): (r: seq<bool>)
    ensures |r| == |highs|
    ensures forall i :: 0 <= i < |highs| ==> (r[i] <==> w <= i < |highs| - w && PivotHigh(highs, w, i))
  {
    seq(|highs|, i requires 0 <= i < |highs| => w <= i < |highs| - w && PivotHigh(highs, w, i))
  }

  /** The `pivot_low` column: set on the rows that are low pivots. */
  function LowMarks(lows: seq<real>, w: nat): (r: seq<bool>)
    ensures |r| == |lows|
    ensures forall i :: 0 <= i < |lows| ==> (r[i] <==> w <= i < |lows| - w && PivotLow(lows, w, i))
  {
    seq(|lows|, i requires 0 <= i < |lows| => w <= i < |lows| - w && PivotLow(lows, w, i))
  }

  /** Without volume confirmation the rules are exact: a buy exactly where
      the buy rule holds, a sell exactly where the sell rule holds. */
  lemma SignalRules(cfg: ElliottConfig, bars: seq<Bar>, hasVolume: bool, i: nat)
    requires cfg.pivotWindow >= 0 && !(cfg.useVolume && hasVolume) && 0 < i < |bars|
    ensures var r := GenerateSignals(cfg, bars, hasVolume);
      && (r.signal[i] == 1 <==> BuyRule(r.waveNumber, r.waveType, bars, i))
      && (r.signal[i] == -1 <==> SellRule(r.waveNumber, r.waveType, bars, i))
  {
    var w: nat := cfg.pivotWindow;
    if |bars| >= 2 * w + 1 {
      var l := Label(w, cfg.minWaveSize, bars);
      var r := FullOutput(cfg, bars, hasVolume);
      assert r.signal[i] == WaveSignal(l.numbers, l.kinds, bars, i);
      BuyOrSell(l.numbers, l.kinds, bars, i);
    }
  }

  /** With a full window the output is built from the labels and marks. */
  lemma FullOutput(cfg: ElliottConfig, bars: seq<Bar>, hasVolume: bool) returns (r: Output)
    requires cfg.pivotWindow >= 0 && |bars| >= 2 * cfg.pivotWindow + 1
    ensures r == GenerateSignals(cfg, bars, hasVolume)
    ensures var l := Label(cfg.pivotWindow, cfg.minWaveSize, bars);
      && r.signal == Signals(cfg, l, bars, hasVolume)
      && r.waveNumber == l.numbers && r.waveType == l.kinds
  {
    r := GenerateSignals(cfg, bars, hasVolume);
  }

  /** Volume confirmation only clears signals: the pivots and waves are the
      same, and each signal it leaves is the unconfirmed one. */
  lemma VolumeOnlyClears(cfg: ElliottConfig, bars: seq<Bar>)
    requires cfg.pivotWindow >= 0 && cfg.useVolume
    ensures var confirmed := GenerateSignals(cfg, bars, true);
      var plain := GenerateSignals(cfg.(useVolume := false), bars, true);
      && confirmed.waveNumber == plain.waveNumber && confirmed.waveType == plain.waveType
      && confirmed.pivotHigh == plain.pivotHigh && confirmed.pivotLow == plain.pivotLow
      && (forall i :: 0 <= i < |bars| && confirmed.signal[i] != 0 ==> confirmed.signal[i] == plain.signal[i])
      && CountNonZero(confirmed.signal) <= CountNonZero(plain.signal)
  {
    var confirmed := GenerateSignals(cfg, bars, true);
    var plain := GenerateSignals(cfg.(useVolume := false), bars, true);
    CountNonZeroMonotone(confirmed.signal, plain.signal);
  }
}

=== FILE: ma_cross.dfy ===
/** The moving-average strategies `Ma200Strategy` and `Ma100Strategy`. They
    share one rule set and differ only in the default period, so one module
    models both. */
module MaCross {
  import opened Wrappers
  import opened Series
  import opened Crossing

  /** The constructor parameters. */
  datatype MaConfig = MaConfig(period: int, useCrossover: bool, volumeConfirmation: bool, volumePeriod: int)

  const Ma200Defaults := MaConfig(200, true, false, 20)
  const Ma100Defaults := MaConfig(100, true, false, 20)

  /** The window lengths pandas can roll over; a negative one raises
      ValueError. */
  predicate Windows(cfg: MaConfig) {
    cfg.period >= 0 && (cfg.volumeConfirmation ==> cfg.volumePeriod >= 0)
  }

  /** Whether the average over the last `period` closes exists at row i; it
      never does over a zero window. */
  predicate Defined(closes: seq<real>, period: nat, i: nat) {
    period >= 1 && i + 1 >= period
  }

  /** `close > ma`: false where the average is undefined (NaN compares false). */
  function AboveSeq(closes: seq<real>, period: nat): (r: seq<bool>)
    ensures |r| == |closes|
    ensures forall i :: 0 <= i < |closes| && r[i] ==> Defined(closes, period, i)
    ensures forall i {:trigger r[i]} :: 0 <= i < |closes| ==>
      (r[i] <==> Defined(closes, period, i) && closes[i] > Mean(closes[i + 1 - period..i + 1]))
  {
    seq(|closes|, i requires 0 <= i < |closes| =>
      var ma := RollingMean(closes, period, i);
      ma.Some? && closes[i] > ma.value)
  }

  /** `volume > volume_ma` (false while the volume average is undefined). */
  predicate HighVolume(volumes: seq<real>, volumePeriod: nat, i: nat)
    requires i < |volumes|
  {
    var vma := RollingMean(volumes, volumePeriod, i);
    vma.Some? && volumes[i] > vma.value
  }

  /** The rows whose signal survives: the average exists and, when volume
      confirmation is on, the volume is above its own average. */
  function Kept(cfg: MaConfig, closes: seq<real>, volumes: seq<real>): (r: seq<bool>)
    requires Windows(cfg) && |volumes| == |closes|
    ensures |r| == |closes|
  {
    seq(|closes|, i requires 0 <= i < |closes| =>
      Defined(closes, cfg.period, i) && (cfg.volumeConfirmation ==> HighVolume(volumes, cfg.volumePeriod, i)))
  }

  /** The signals before filtering: crossings of the average, or the side of
      the average the close is on. */
  function Raw(cfg: MaConfig, closes: seq<real>): (r: seq<int>)
    requires cfg.period >= 0
    ensures |r| == |closes|
  {
    var above := AboveSeq(closes, cfg.period);
    if cfg.useCrossover then CrossSignals(above, false)
    else seq(|closes|, i requires 0 <= i < |closes| => if above[i] then 1 else -1)
  }

  /** `generate_signals`. */
  function GenerateSignals(cfg: MaConfig, closes: seq<real>, volumes: seq<real>): (r: Outcome<seq<int>>)
    requires |volumes| == |closes|
    // too few rows, or a negative window for pandas' rolling mean
    ensures r.Err? <==> |closes| < cfg.period || !Windows(cfg)
    ensures r.Err? ==> r.error.ValueError?
    ensures r.Ok? ==> |r.value| == |closes|
    ensures r.Ok? ==> forall i :: 0 <= i < |closes| ==> IsSignal(r.value[i])
    // no signal where the average is undefined, so none at all over a zero window
    ensures r.Ok? ==> forall i :: 0 <= i < |closes| && !Defined(closes, cfg.period, i) ==> r.value[i] == 0
  {
    if |closes| < cfg.period then Err(ValueError("insufficient data"))
    else if !Windows(cfg) then Err(ValueError("window must be an integer 0 or greater"))
    else
      var raw := Raw(cfg, closes);
      assert forall i :: 0 <= i < |closes| ==> IsSignal(raw[i]);
      Ok(Keep(raw, Kept(cfg, closes, volumes)))
  }

  /** Crossover mode: a buy exactly where the close moves above its average
      (the row before row 0 counts as not above), a sell exactly where it
      moves back, on rows that pass the filters. */
  lemma CrossoverRule(cfg: MaConfig, closes: seq<real>, volumes: seq<real>, i: nat)
    requires Windows(cfg) && |volumes| == |closes| && cfg.useCrossover
    requires GenerateSignals(cfg, closes, volumes).Ok? && i < |closes|
    ensures var above := AboveSeq(closes, cfg.period);
      var was := i > 0 && above[i - 1];
      var kept := cfg.volumeConfirmation ==> HighVolume(volumes, cfg.volumePeriod, i);
      && (GenerateSignals(cfg, closes, volumes).value[i] == 1 <==> kept && !was && above[i])
      && (GenerateSignals(cfg, closes, volumes).value[i] == -1 <==> kept && Defined(closes, cfg.period, i) && was && !above[i])
  {
    var above := AboveSeq(closes, cfg.period);
    var raw := Raw(cfg, closes);
    var keep := Kept(cfg, closes, volumes);
    var g := GenerateSignals(cfg, closes, volumes);
    assert g == Ok(Keep(raw, keep));
    var r := g.value;
    assert raw == CrossSignals(above, false);
    assert r[i] == (if keep[i] then Cross(above, false, i) else 0);
    var kept := cfg.volumeConfirmation ==> HighVolume(volumes, cfg.volumePeriod, i);
    assert keep[i] == (Defined(closes, cfg.period, i) && kept);
    // a close above its average implies the average exists, and so does
    // one above it on the row before
    assert i > 0 && above[i - 1] ==> Defined(closes, cfg.period, i - 1);
    KeptCross(above, i, Defined(closes, cfg.period, i), kept, r[i]);
  }

  /** The crossing rule on one row whose signal survives only where the
      average exists (`defined`) and the volume filter passes (`kept`). */
  lemma KeptCross(above: seq<bool>, i: nat, defined: bool, kept: bool, s: int)
    requires i < |above|
    requires s == (if defined && kept then Cross(above, false, i) else 0)
    requires above[i] ==> defined
    requires i > 0 && above[i - 1] ==> defined
    ensures var was := i > 0 && above[i - 1];
      && (s == 1 <==> kept && !was && above[i])
      && (s == -1 <==> kept && defined && was && !above[i])
  {
  }

  /** Position mode: 1 wherever the close is above the average, -1 wherever
      it is not, once the average exists and the filters pass. */
  lemma PositionRule(cfg: MaConfig, closes: seq<real>, volumes: seq<real>, i: nat)
    requires Windows(cfg) && |volumes| == |closes| && !cfg.useCrossover
    requires GenerateSignals(cfg, closes, volumes).Ok? && i < |closes|
    ensures var above := AboveSeq(closes, cfg.period);
      var kept := Defined(closes, cfg.period, i) && (cfg.volumeConfirmation ==> HighVolume(volumes, cfg.volumePeriod, i));
      && (GenerateSignals(cfg, closes, volumes).value[i] == 1 <==> kept && above[i])
      && (GenerateSignals(cfg, closes, volumes).value[i] == -1 <==> kept && !above[i])
  {
  }

  /** Position mode signals on every row crossover mode signals on, so it
      never has fewer non-zero signals. */
  lemma PositionCoversCrossover(cfg: MaConfig, closes: seq<real>, volumes: seq<real>)
    requires Windows(cfg) && |volumes| == |closes| && |closes| >= cfg.period
    ensures var cross := GenerateSignals(cfg.(useCrossover := true), closes, volumes).value;
      var pos := GenerateSignals(cfg.(useCrossover := false), closes, volumes).value;
      && (forall i :: 0 <= i < |closes| && cross[i] != 0 ==> pos[i] != 0)
      && CountNonZero(cross) <= CountNonZero(pos)
  {
    var cross := GenerateSignals(cfg.(useCrossover := true), closes, volumes).value;
    var pos := GenerateSignals(cfg.(useCrossover := false), closes, volumes).value;
    assert Kept(cfg.(useCrossover := true), closes, volumes) == Kept(cfg.(useCrossover := false), closes, volumes);
    CountNonZeroMonotone(cross, pos);
  }

  /** Volume confirmation only clears signals: each signal it leaves is the
      one the unconfirmed strategy gives, and there are never more of them. */
  lemma VolumeOnlyClears(cfg: MaConfig, closes: seq<real>, volumes: seq<real>)
    requires Windows(cfg) && cfg.volumeConfirmation && |volumes| == |closes| && |closes| >= cfg.period
    ensures var confirmed := GenerateSignals(cfg, closes, volumes).value;
      var plain := GenerateSignals(cfg.(volumeConfirmation := false), closes, volumes).value;
      && (forall i :: 0 <= i < |closes| && confirmed[i] != 0 ==> confirmed[i] == plain[i])
      && CountNonZero(confirmed) <= CountNonZero(plain)
  {
    var confirmed := GenerateSignals(cfg, closes, volumes).value;
    var plain := GenerateSignals(cfg.(volumeConfirmation := false), closes, volumes).value;
    CountNonZeroMonotone(confirmed, plain);
  }

  /** Without volume confirmation, crossover signals alternate: a buy comes
      only when the last signal was not a buy, a sell only right after a buy. */
  lemma CrossoverAlternates(cfg: MaConfig, closes: seq<real>, volumes: seq<real>, i: nat)
    requires Windows(cfg) && cfg.useCrossover && !cfg.volumeConfirmation
    requires |volumes| == |closes| && |closes| >= cfg.period && i < |closes|
    ensures var s := GenerateSignals(cfg, closes, volumes).value;
      && (s[i] == 1 ==> LastNonZero(s[..i]) != 1)
      && (s[i] == -1 ==> LastNonZero(s[..i]) == 1)
  {
    var above := AboveSeq(closes, cfg.period);
    var s := GenerateSignals(cfg, closes, volumes).value;
    assert s == CrossSignals(above, false) by {
      forall j | 0 <= j < |closes| ensures s[j] == CrossSignals(above, false)[j] {
        if !Defined(closes, cfg.period, j) {
          assert !above[j];
          assert j > 0 ==> !above[j - 1];
        }
      }
    }
    Alternate(above, false, i);
  }
}

=== FILE: metrics.dfy ===
/** The metrics engine: a pure function from the closed trades and the
    equity curve to the backtest result record. */
module Metrics {
  import opened Wrappers
  import opened Series
  import opened Models

  /** Trades with strictly positive pnl, in order. */
  function Winners(ts: seq<Trade>): (w: seq<Trade>)
    ensures |w| <= |ts|
    ensures forall i :: 0 <= i < |w| ==> w[i].pnl > 0.0
    decreases |ts|
  {
    if |ts| == 0 then []
    else Winners(ts[..|ts| - 1]) + (if IsWinner(ts[|ts| - 1]) then [ts[|ts| - 1]] else [])
  }

  /** Every other trade, break-even ones included. */
  function Losers(ts: seq<Trade>): (l: seq<Trade>)
    ensures |l| <= |ts|
    ensures forall i :: 0 <= i < |l| ==> l[i].pnl <= 0.0
    decreases |ts|
  {
    if |ts| == 0 then []
    else Losers(ts[..|ts| - 1]) + (if !IsWinner(ts[|ts| - 1]) then [ts[|ts| - 1]] else [])
  }

  /** The winners are exactly the winning trades and the losers exactly the
      others. */
  lemma {:induction false} SelectMembers(ts: seq<Trade>)
    ensures forall t :: t in Winners(ts) <==> t in ts && IsWinner(t)
    ensures forall t :: t in Losers(ts) <==> t in ts && !IsWinner(t)
    decreases |ts|
  {
    if |ts| > 0 {
      var init := ts[..|ts| - 1];
      SelectMembers(init);
      assert ts == init + [ts[|ts| - 1]];
    }
  }

  /** A single trade lands in exactly one of the two lists. */
  lemma SelectOne(t: Trade)
    ensures Winners([t]) == (if IsWinner(t) then [t] else [])
    ensures Losers([t]) == (if IsWinner(t) then [] else [t])
  {
    assert [t][..0] == [];
  }

  /** Both selections distribute over concatenation. With `SelectOne` this
      pins them down as the order-keeping filters of the list comprehensions. */
  lemma {:induction false} SelectAppend(a: seq<Trade>, b: seq<Trade>)
    ensures Winners(a + b) == Winners(a) + Winners(b)
    ensures Losers(a + b) == Losers(a) + Losers(b)
    decreases |b|
  {
    if |b| == 0 {
      assert a + b == a;
    } else {
      var b' := b[..|b| - 1];
      var x := b[|b| - 1];
      assert b == b' + [x];
      assert a + b == (a + b') + [x];
      SelectAppend(a, b');
      SelectSnoc(a + b', x);
      SelectSnoc(b', x);
    }
  }

  lemma SelectSnoc(xs: seq<Trade>, x: Trade)
    ensures Winners(xs + [x]) == Winners(xs) + (if IsWinner(x) then [x] else [])
    ensures Losers(xs + [x]) == Losers(xs) + (if IsWinner(x) then [] else [x])
  {
    assert (xs + [x])[..|xs|] == xs;
  }

  lemma {:induction false} SumPnlAppend(a: seq<Trade>, b: seq<Trade>)
    ensures SumPnl(a + b) == SumPnl(a) + SumPnl(b)
    decreases |b|
  {
    if |b| == 0 {
      assert a + b == a;
    } else {
      assert (a + b)[..|a + b| - 1] == a + b[..|b| - 1];
      assert (a + b)[|a + b| - 1] == b[|b| - 1];
      SumPnlAppend(a, b[..|b| - 1]);
    }
  }

  /** Winners and losers split the trades: their counts and their pnl add
      up to those of the whole list. */
  lemma {:induction false} WinnersLosersPartition(ts: seq<Trade>)
    ensures |Winners(ts)| + |Losers(ts)| == |ts|
    ensures SumPnl(Winners(ts)) + SumPnl(Losers(ts)) == SumPnl(ts)
    decreases |ts|
  {
    if |ts| > 0 {
      var init := ts[..|ts| - 1];
      var last := ts[|ts| - 1];
      WinnersLosersPartition(init);
      SumPnlAppend(Winners(init), if IsWinner(last) then [last] else []);
      SumPnlAppend(Losers(init), if !IsWinner(last) then [last] else []);
      assert SumPnl([last]) == last.pnl by {
        assert [last][..0] == [];
      }
      assert SumPnl([]) == 0.0;
    }
  }

  /** A non-empty list of winning trades has a positive total. */
  lemma {:induction false} WinnersSumPositive(ts: seq<Trade>)
    requires |ts| > 0 && forall i :: 0 <= i < |ts| ==> ts[i].pnl > 0.0
    ensures SumPnl(ts) > 0.0
    decreases |ts|
  {
    if |ts| > 1 {
      WinnersSumPositive(ts[..|ts| - 1]);
    }
  }

  lemma WinnersTotal(ts: seq<Trade>)
    ensures |Winners(ts)| > 0 ==> SumPnl(Winners(ts)) > 0.0
  {
    if |Winners(ts)| > 0 {
      WinnersSumPositive(Winners(ts));
    }
  }

  lemma WinnersNonNegative(ts: seq<Trade>)
    ensures SumPnl(Winners(ts)) >= 0.0
  {
    WinnersTotal(ts);
    if |Winners(ts)| == 0 {
      assert Winners(ts) == [];
    }
  }

  /** A list of losing trades has a non-positive total, zero exactly when
      every one of them broke even. */
  lemma {:induction false} LosersSumNonPositive(ts: seq<Trade>)
    requires forall i :: 0 <= i < |ts| ==> ts[i].pnl <= 0.0
    ensures SumPnl(ts) <= 0.0
    ensures SumPnl(ts) == 0.0 <==> forall i :: 0 <= i < |ts| ==> ts[i].pnl == 0.0
    decreases |ts|
  {
    if |ts| > 0 {
      LosersSumNonPositive(ts[..|ts| - 1]);
      assert forall i :: 0 <= i < |ts| - 1 ==> ts[..|ts| - 1][i] == ts[i];
    }
  }

  /** Mean pnl of a list of trades, 0 for an empty list. */
  function AveragePnl(ts: seq<Trade>): (r: real)
    ensures |ts| == 0 ==> r == 0.0
    ensures |ts| > 0 ==> IsQuotient(r, SumPnl(ts), |ts| as real)
    ensures |ts| > 0 && SumPnl(ts) > 0.0 ==> r > 0.0
    ensures SumPnl(ts) <= 0.0 ==> r <= 0.0
  {
    if |ts| == 0 then 0.0 else SumPnl(ts) / (|ts| as real)
  }

  /** `q` is `a` divided by `b`, stated without division. */
  predicate IsQuotient(q: real, a: real, b: real) {
    q * b == a
  }

  /** `r` is `part` as a percentage of `whole`, stated without division. */
  predicate IsPercentOf(r: real, part: real, whole: real) {
    r * whole == part * 100.0
  }

  /** Share of winners in percent. */
  function WinRate(winners: nat, total: nat): (r: real)
    requires winners <= total && total > 0
    ensures 0.0 <= r <= 100.0
    ensures IsPercentOf(r, winners as real, total as real)
  {
    var ratio := (winners as real) / (total as real);
    assert ratio * (total as real) == winners as real;
    assert ratio <= 1.0;
    ratio * 100.0
  }

  /** Return on the initial capital, in percent. */
  function ReturnPercent(finalCapital: real, initialCapital: real): (r: real)
    requires initialCapital != 0.0
    ensures IsPercentOf(r, finalCapital - initialCapital, initialCapital)
  {
    var ratio := (finalCapital - initialCapital) / initialCapital;
    assert ratio * initialCapital == finalCapital - initialCapital;
    ratio * 100.0
  }

  /** The return on the initial capital as the source's floating point
      computes it. Over a zero initial capital the final capital is a numpy
      float read from the curve, whose division by zero does not raise: it
      gives an infinity of the final capital's sign, or NaN for 0/0. */
  function ReturnOnCapital(finalCapital: real, initialCapital: real): (r: Extended)
    ensures initialCapital != 0.0 ==> r.Finite? && IsPercentOf(r.v, finalCapital - initialCapital, initialCapital)
    ensures initialCapital == 0.0 ==>
      && (r.PosInf? <==> finalCapital > 0.0)
      && (r.NegInf? <==> finalCapital < 0.0)
      && (r.NaN? <==> finalCapital == 0.0)
  {
    if initialCapital != 0.0 then Finite(ReturnPercent(finalCapital, initialCapital))
    else if finalCapital > 0.0 then PosInf
    else if finalCapital < 0.0 then NegInf
    else NaN
  }

  /** Gross profit over gross loss; positive infinity when the losses sum to
      zero (in particular when there are no losing trades). */
  function ProfitFactor(ts: seq<Trade>): (pf: Extended)
    ensures pf.Finite? || pf.PosInf?
    ensures pf.Finite? ==> pf.v >= 0.0 && IsQuotient(pf.v, SumPnl(Winners(ts)), Abs(SumPnl(Losers(ts))))
    ensures pf.PosInf? <==> forall i :: 0 <= i < |Losers(ts)| ==> Losers(ts)[i].pnl == 0.0
  {
    GrossTotals(ts);
    GrossRatio(SumPnl(Winners(ts)), Abs(SumPnl(Losers(ts))))
  }

  /** Profit over loss, infinite without a loss. */
  function GrossRatio(wins: real, losses: real): (pf: Extended)
    requires wins >= 0.0 && losses >= 0.0
    ensures pf.Finite? <==> losses > 0.0
    ensures pf.PosInf? <==> losses == 0.0
    ensures pf.Finite? ==> pf.v >= 0.0 && IsQuotient(pf.v, wins, losses)
  {
    if losses > 0.0 then Finite(Ratio(wins, losses)) else PosInf
  }

  /** The gross profit is never negative, and the gross loss is zero exactly
      when every losing trade broke even. */
  lemma GrossTotals(ts: seq<Trade>)
    ensures SumPnl(Winners(ts)) >= 0.0 && Abs(SumPnl(Losers(ts))) >= 0.0
    ensures Abs(SumPnl(Losers(ts))) > 0.0 <==> !forall i :: 0 <= i < |Losers(ts)| ==> Losers(ts)[i].pnl == 0.0
  {
    WinnersNonNegative(ts);
    LosersSumNonPositive(Losers(ts));
  }

  /** A non-negative amount over a positive one. */
  function Ratio(a: real, b: real): (r: real)
    requires a >= 0.0 && b > 0.0
    ensures r >= 0.0 && IsQuotient(r, a, b)
  {
    a / b
  }

  /** The caller-supplied floating-point part of the Sharpe ratio:
      `degenerate` says whether the percentage changes of the curve are
      empty or have zero standard deviation, `annualised` gives the
      annualised ratio otherwise. */
  datatype SharpeNumerics = SharpeNumerics(degenerate: seq<real> -> bool, annualised: seq<real> -> real)

  /** The Sharpe ratio's guard: 0 for fewer than two points or degenerate
      returns, the supplied numeric value otherwise. */
  function SharpeRatio(values: seq<real>, numerics: SharpeNumerics): (r: real)
    ensures |values| < 2 ==> r == 0.0
    ensures numerics.degenerate(values) ==> r == 0.0
    ensures |values| >= 2 && !numerics.degenerate(values) ==> r == numerics.annualised(values)
  {
    if |values| < 2 then 0.0
    else if numerics.degenerate(values) then 0.0
    else numerics.annualised(values)
  }

  function Max(a: real, b: real): real {
    if a >= b then a else b
  }

  /** Running maximum of the curve up to and including point i. */
  function Peak(values: seq<real>, i: nat): (m: real)
    requires i < |values|
    ensures values[i] <= m
  {
    if i == 0 then values[0] else Max(Peak(values, i - 1), values[i])
  }

  lemma {:induction false} PeakBounds(values: seq<real>, i: nat)
    requires i < |values|
    ensures forall k :: 0 <= k <= i ==> values[k] <= Peak(values, i)
  {
    if i > 0 {
      PeakBounds(values, i - 1);
    }
  }

  lemma {:induction false} PeakAttained(values: seq<real>, i: nat) returns (k: nat)
    requires i < |values|
    ensures k <= i && values[k] == Peak(values, i)
  {
    if i == 0 {
      k := 0;
    } else if Peak(values, i - 1) >= values[i] {
      k := PeakAttained(values, i - 1);
    } else {
      k := i;
    }
  }

  /** The lowest drawdown (equity minus running maximum) among the first n
      points; never positive, since the first point has none. */
  function LowestDrawdown(values: seq<real>, n: nat): (d: real)
    requires 1 <= n <= |values|
    ensures d <= 0.0
  {
    var here := values[n - 1] - Peak(values, n - 1);
    if n == 1 then here
    else
      var before := LowestDrawdown(values, n - 1);
      if here < before then here else before
  }

  lemma {:induction false} LowestDrawdownBounds(values: seq<real>, n: nat)
    requires 1 <= n <= |values|
    ensures forall j :: 0 <= j < n ==> LowestDrawdown(values, n) <= values[j] - Peak(values, j)
  {
    if n > 1 {
      LowestDrawdownBounds(values, n - 1);
    }
  }

  lemma {:induction false} LowestDrawdownAttained(values: seq<real>, n: nat) returns (j: nat)
    requires 1 <= n <= |values|
    ensures j < n && LowestDrawdown(values, n) == values[j] - Peak(values, j)
  {
    if n == 1 {
      j := 0;
    } else if values[n - 1] - Peak(values, n - 1) < LowestDrawdown(values, n - 1) {
      j := n - 1;
    } else {
      j := LowestDrawdownAttained(values, n - 1);
    }
  }

  /** Maximum drawdown in currency: the absolute value of the lowest
      drawdown, 0 for an empty curve. */
  function MaxDrawdown(values: seq<real>): (r: real)
    ensures r >= 0.0
    ensures |values| == 0 ==> r == 0.0
    ensures forall j :: 0 <= j < |values| ==> Peak(values, j) - values[j] <= r
  {
    if |values| == 0 then 0.0
    else
      LowestDrawdownBounds(values, |values|);
      Abs(LowestDrawdown(values, |values|))
  }

  /** The maximum drawdown is the largest fall from an earlier (or the same)
      point to a later one. */
  lemma MaxDrawdownIsLargestFall(values: seq<real>) returns (i: nat, j: nat)
    requires |values| > 0
    ensures forall a, b :: 0 <= a <= b < |values| ==> values[a] - values[b] <= MaxDrawdown(values)
    ensures i <= j < |values| && values[i] - values[j] == MaxDrawdown(values)
  {
    forall a, b | 0 <= a <= b < |values|
      ensures values[a] - values[b] <= MaxDrawdown(values)
    {
      PeakBounds(values, b);
    }
    j := LowestDrawdownAttained(values, |values|);
    i := PeakAttained(values, j);
  }

  /** Drawdown of point i as a percentage of the running maximum; undefined
      where the running maximum is zero. */
  function DrawdownPercent(values: seq<real>, i: nat): Option<real>
    requires i < |values|
  {
    var peak := Peak(values, i);
    if peak == 0.0 then None else Some((values[i] - peak) / peak * 100.0)
  }

  /** The lowest defined drawdown percentage among the first n points. */
  function LowestDrawdownPercent(values: seq<real>, n: nat): (d: Option<real>)
    requires n <= |values|
  {
    if n == 0 then None
    else
      var before := LowestDrawdownPercent(values, n - 1);
      var here := DrawdownPercent(values, n - 1);
      if here.None? then before
      else if before.None? || here.value < before.value then here
      else before
  }

  lemma {:induction false} LowestDrawdownPercentBounds(values: seq<real>, n: nat)
    requires n <= |values|
    ensures forall j :: 0 <= j < n && DrawdownPercent(values, j).Some? ==>
      LowestDrawdownPercent(values, n).Some? &&
      LowestDrawdownPercent(values, n).value <= DrawdownPercent(values, j).value
  {
    if n > 0 {
      LowestDrawdownPercentBounds(values, n - 1);
    }
  }

  /** Maximum drawdown as a percentage of the running maximum. */
  function MaxDrawdownPercent(values: seq<real>): (r: real)
    ensures r >= 0.0
    ensures |values| == 0 ==> r == 0.0
    ensures forall j :: 0 <= j < |values| && Peak(values, j) > 0.0 ==>
      (Peak(values, j) - values[j]) / Peak(values, j) * 100.0 <= r
  {
    var lowest := LowestDrawdownPercent(values, |values|);
    LowestDrawdownPercentBounds(values, |values|);
    PercentIsNegatedDrawdown(values);
    if lowest.None? then 0.0 else Abs(lowest.value)
  }

  lemma {:induction false} LowestDrawdownPercentAttained(values: seq<real>, n: nat) returns (j: nat)
    requires n <= |values|
    ensures LowestDrawdownPercent(values, n).None? <==> forall k :: 0 <= k < n ==> Peak(values, k) == 0.0
    ensures LowestDrawdownPercent(values, n).Some? ==>
      j < n && DrawdownPercent(values, j) == LowestDrawdownPercent(values, n)
  {
    if n == 0 {
      j := 0;
    } else {
      var here := DrawdownPercent(values, n - 1);
      var before := LowestDrawdownPercent(values, n - 1);
      var lowest := LowestDrawdownPercent(values, n);
      j := LowestDrawdownPercentAttained(values, n - 1);
      assert here.None? <==> Peak(values, n - 1) == 0.0;
      if here.None? {
        assert lowest == before;
        if lowest.None? {
          forall k | 0 <= k < n ensures Peak(values, k) == 0.0 {
            if k < n - 1 {
              assert Peak(values, k) == 0.0;
            }
          }
        }
      } else if before.None? || here.value < before.value {
        assert lowest == here;
        j := n - 1;
      } else {
        assert lowest == before;
      }
    }
  }

  /** The percentage drawdown is the largest percentage fall below the
      running maximum: 0 when every running maximum is zero, otherwise the
      size of the lowest defined percentage, attained at some point j. */
  lemma MaxDrawdownPercentAttained(values: seq<real>) returns (j: nat)
    ensures (forall k :: 0 <= k < |values| ==> Peak(values, k) == 0.0) ==> MaxDrawdownPercent(values) == 0.0
    ensures (exists k :: 0 <= k < |values| && Peak(values, k) != 0.0) ==>
      && j < |values| && Peak(values, j) != 0.0
      && MaxDrawdownPercent(values) == Abs(DrawdownPercent(values, j).value)
      && forall k :: 0 <= k < |values| && Peak(values, k) != 0.0 ==>
           DrawdownPercent(values, j).value <= DrawdownPercent(values, k).value
  {
    var lowest := LowestDrawdownPercent(values, |values|);
    MaxDrawdownPercentIsLowest(values);
    j := LowestDrawdownPercentAttained(values, |values|);
    if lowest.Some? {
      assert Peak(values, j) != 0.0;
      LowestDrawdownPercentBounds(values, |values|);
      forall k | 0 <= k < |values| && Peak(values, k) != 0.0
        ensures DrawdownPercent(values, j).value <= DrawdownPercent(values, k).value
      {
        assert DrawdownPercent(values, k).Some?;
      }
    } else {
      assert forall k :: 0 <= k < |values| ==> Peak(values, k) == 0.0;
    }
  }

  lemma MaxDrawdownPercentIsLowest(values: seq<real>)
    ensures var lowest := LowestDrawdownPercent(values, |values|);
      MaxDrawdownPercent(values) == if lowest.None? then 0.0 else Abs(lowest.value)
  {
  }

  lemma PercentIsNegatedDrawdown(values: seq<real>)
    ensures forall j :: 0 <= j < |values| && Peak(values, j) > 0.0 ==>
      (Peak(values, j) - values[j]) / Peak(values, j) * 100.0 == -DrawdownPercent(values, j).value
  {
    forall j | 0 <= j < |values| && Peak(values, j) > 0.0
      ensures (Peak(values, j) - values[j]) / Peak(values, j) * 100.0 == -DrawdownPercent(values, j).value
    {
      var p := Peak(values, j);
      var x := values[j] - p;
      assert DrawdownPercent(values, j).value == x / p * 100.0;
      assert (-x) / p == -(x / p);
    }
  }

  /** The curve 10000, 11000, 9000, 9500 falls 2000 from its 11000 peak: a
      maximum drawdown of 2000, or 200/11 (about 18.18) percent. */
  lemma DrawdownExample()
    ensures MaxDrawdown([10000.0, 11000.0, 9000.0, 9500.0]) == 2000.0
    ensures MaxDrawdownPercent([10000.0, 11000.0, 9000.0, 9500.0]) == 200.0 / 11.0
  {
    var v := [10000.0, 11000.0, 9000.0, 9500.0];
    assert Peak(v, 0) == 10000.0;
    assert Peak(v, 1) == 11000.0;
    assert Peak(v, 2) == 11000.0;
    assert Peak(v, 3) == 11000.0;
    assert LowestDrawdown(v, 2) == 0.0;
    assert LowestDrawdown(v, 3) == -2000.0;
    assert LowestDrawdown(v, 4) == -2000.0;
    assert DrawdownPercent(v, 0) == Some(0.0);
    assert DrawdownPercent(v, 1) == Some(0.0);
    assert DrawdownPercent(v, 2) == Some(-200.0 / 11.0);
    assert DrawdownPercent(v, 3) == Some(-1500.0 / 11000.0 * 100.0);
    assert LowestDrawdownPercent(v, 2) == Some(0.0);
    assert LowestDrawdownPercent(v, 3) == Some(-200.0 / 11.0);
    assert LowestDrawdownPercent(v, 4) == Some(-200.0 / 11.0);
  }

  function EquityValues(curve: seq<EquityPoint>): (vs: seq<real>)
    ensures |vs| == |curve|
    ensures forall i :: 0 <= i < |curve| ==> vs[i] == curve[i].equity
  {
    seq(|curve|, i requires 0 <= i < |curve| => curve[i].equity)
  }

  /** `calculate_metrics`. */
  function CalculateMetrics(
    trades: seq<Trade>, curve: seq<EquityPoint>, initialCapital: real, totalCommission: real,
    numerics: SharpeNumerics): (r: Outcome<BacktestResult>)
    // with trades the return divides by the initial capital; only a Python
    // float numerator (the initial capital itself, for an empty curve) raises
    ensures r.Err? <==> |trades| > 0 && initialCapital == 0.0 && |curve| == 0
    ensures r.Err? ==> r.error == ZeroDivisionError
    // consistency of the trade counts, in every case
    ensures r.Ok? ==>
      var m := r.value;
      && m.totalTrades == |trades| == m.winningTrades + m.losingTrades
      && 0.0 <= m.winRate <= 100.0
      && m.initialCapital == initialCapital
      && m.maxDrawdown >= 0.0 && m.maxDrawdownPercent >= 0.0
    // without trades every statistic is zero, commission included
    ensures |trades| == 0 ==>
      r.Ok? &&
      var m := r.value;
      && m.totalPnl == 0.0 && m.totalReturnPercent == Finite(0.0) && m.sharpeRatio == 0.0
      && m.maxDrawdown == 0.0 && m.maxDrawdownPercent == 0.0 && m.winRate == 0.0
      && m.averageWin == 0.0 && m.averageLoss == 0.0 && m.profitFactor == Finite(0.0)
      && m.finalCapital == initialCapital && m.totalCommission == 0.0
      && m.trades == [] && m.equityCurve.None?
    ensures |trades| > 0 && r.Ok? ==>
      var m := r.value;
      && m.totalPnl == SumPnl(trades)
      && m.winningTrades == |Winners(trades)|
      && IsPercentOf(m.winRate, m.winningTrades as real, |trades| as real)
      && m.finalCapital == (if |curve| == 0 then initialCapital else curve[|curve| - 1].equity)
      && m.totalReturnPercent == ReturnOnCapital(m.finalCapital, initialCapital)
      && (initialCapital != 0.0 ==>
            m.totalReturnPercent.Finite? &&
            IsPercentOf(m.totalReturnPercent.v, m.finalCapital - initialCapital, initialCapital))
      && m.averageWin == AveragePnl(Winners(trades)) && m.averageLoss == AveragePnl(Losers(trades))
      && (m.winningTrades > 0 ==> m.averageWin > 0.0)
      && (m.winningTrades == 0 ==> m.averageWin == 0.0)
      && m.averageLoss <= 0.0
      && m.profitFactor == ProfitFactor(trades)
      && m.maxDrawdown == MaxDrawdown(EquityValues(curve))
      && m.maxDrawdownPercent == MaxDrawdownPercent(EquityValues(curve))
      && m.sharpeRatio == SharpeRatio(EquityValues(curve), numerics)
      && m.totalCommission == totalCommission
      && m.trades == trades && m.equityCurve == Some(curve)
  {
    if |trades| == 0 then
      Ok(BacktestResult(0.0, Finite(0.0), 0.0, 0.0, 0.0, 0, 0, 0, 0.0, 0.0, 0.0, Finite(0.0),
                        initialCapital, initialCapital, 0.0, [], None))
    else if initialCapital == 0.0 && |curve| == 0 then Err(ZeroDivisionError)
    else
      var values := EquityValues(curve);
      var finalCapital := if |curve| == 0 then initialCapital else curve[|curve| - 1].equity;
      var wins := Winners(trades);
      var losses := Losers(trades);
      WinnersLosersPartition(trades);
      WinnersTotal(trades);
      LosersSumNonPositive(losses);
      var winRate := WinRate(|wins|, |trades|);
      var returnPercent := ReturnOnCapital(finalCapital, initialCapital);
      Ok(BacktestResult(
        SumPnl(trades),
        returnPercent,
        SharpeRatio(values, numerics),
        MaxDrawdown(values),
        MaxDrawdownPercent(values),
        |trades|, |wins|, |losses|,
        winRate,
        AveragePnl(wins),
        AveragePnl(losses),
        ProfitFactor(trades),
        initialCapital, finalCapital, totalCommission, trades, Some(curve)))
  }
}

=== FILE: models.dfy ===
/** Value types of the trading engine: orders, open positions, closed trades
    and the backtest result record. Quantities and prices are exact reals;
    timestamps are integer seconds. */
module Models {
  import opened Wrappers

  datatype OrderType = Market | Limit | Stop
  datatype Side = Buy | Sell
  datatype OrderStatus = Pending | Filled | Cancelled | Rejected

  /** An intent to trade; `status`, `filledPrice` and `commission` are set by
      the ledger when it executes the order. */
  datatype Order = Order(
    symbol: string,
    side: Side,
    quantity: real,
    orderType: OrderType,
    price: Option<real>,
    timestamp: int,
    status: OrderStatus,
    filledPrice: Option<real>,
    commission: real)

  /** An order built with the record's defaults. `now` is the clock reading
      the record falls back to when no timestamp is given. */
  function NewOrder(symbol: string, side: Side, quantity: real, timestamp: Option<int>, now: int): (o: Order)
    ensures o.symbol == symbol && o.side == side && o.quantity == quantity
    ensures o.orderType == Market && o.status == Pending
    ensures o.price.None? && o.filledPrice.None? && o.commission == 0.0
    ensures timestamp.Some? ==> o.timestamp == timestamp.value
    ensures timestamp.None? ==> o.timestamp == now
  {
    Order(symbol, side, quantity, Market, None, timestamp.GetOr(now), Pending, None, 0.0)
  }

  /** An open holding of one symbol; a positive quantity is long. */
  datatype Position = Position(
    symbol: string,
    quantity: real,
    entryPrice: real,
    entryTime: int,
    currentPrice: Option<real>,
    exitPrice: Option<real>,
    exitTime: Option<int>)

  function Abs(x: real): real {
    if x < 0.0 then -x else x
  }

  predicate IsLong(p: Position) {
    p.quantity > 0.0
  }

  predicate IsShort(p: Position) {
    p.quantity < 0.0
  }

  /** A position is long, short or flat, and never both long and short. */
  lemma LongShortExclusive(p: Position)
    ensures !(IsLong(p) && IsShort(p))
    ensures IsLong(p) || IsShort(p) || p.quantity == 0.0
  {
  }

  /** The price a position is valued at: the current mark, unless it is
      missing or zero (Python's `current_price or entry_price`). */
  function MarkPrice(p: Position): real {
    if p.currentPrice.Some? && p.currentPrice.value != 0.0 then p.currentPrice.value else p.entryPrice
  }

  /** Market value: absolute quantity times the mark price. */
  function MarketValue(p: Position): (v: real)
    ensures p.currentPrice.Some? && p.currentPrice.value != 0.0 ==> v == Abs(p.quantity) * p.currentPrice.value
    ensures p.currentPrice.None? || p.currentPrice == Some(0.0) ==> v == Abs(p.quantity) * p.entryPrice
    ensures MarkPrice(p) >= 0.0 ==> v >= 0.0
  {
    Abs(p.quantity) * MarkPrice(p)
  }

  /** Unrealised profit and loss. */
  function UnrealizedPnl(p: Position): (r: real)
    ensures p.currentPrice.None? ==> r == 0.0
    ensures p.quantity == 0.0 ==> r == 0.0
  {
    if p.currentPrice.None? then 0.0
    else if IsLong(p) then (p.currentPrice.value - p.entryPrice) * p.quantity
    else (p.entryPrice - p.currentPrice.value) * Abs(p.quantity)
  }

  /** With a non-zero mark, the unrealised pnl of a long position is the gain
      of its market value over its cost, and that of a short position the
      fall of its market value below its proceeds. */
  lemma PnlIsValueChange(p: Position)
    requires p.currentPrice.Some? && p.currentPrice.value != 0.0
    ensures IsLong(p) ==> UnrealizedPnl(p) == MarketValue(p) - p.entryPrice * p.quantity
    ensures !IsLong(p) ==> UnrealizedPnl(p) == p.entryPrice * Abs(p.quantity) - MarketValue(p)
  {
  }

  /** Unrealised pnl as a percentage of the cost basis. A zero entry price
      gives 0; a zero quantity with a non-zero entry price divides by zero. */
  function PnlPercent(p: Position): (r: Outcome<real>)
    ensures p.entryPrice == 0.0 ==> r == Ok(0.0)
    ensures r.Err? <==> p.entryPrice != 0.0 && p.quantity == 0.0
    ensures r.Ok? && p.entryPrice > 0.0 ==> (r.value > 0.0 <==> UnrealizedPnl(p) > 0.0)
    ensures r.Ok? && p.entryPrice > 0.0 ==> (r.value < 0.0 <==> UnrealizedPnl(p) < 0.0)
    // otherwise the pnl over the cost basis, in percent
    ensures r.Ok? && p.entryPrice != 0.0 ==> r.value * (p.entryPrice * Abs(p.quantity)) == UnrealizedPnl(p) * 100.0
  {
    if p.entryPrice == 0.0 then Ok(0.0)
    else if p.entryPrice * Abs(p.quantity) == 0.0 then Err(ZeroDivisionError)
    else
      var basis := p.entryPrice * Abs(p.quantity);
      assert p.entryPrice > 0.0 ==> basis > 0.0;
      Ok(UnrealizedPnl(p) / basis * 100.0)
  }

  /** The percentage does not depend on the size of the position: scaling
      the quantity by a positive factor scales pnl and cost basis alike. */
  lemma PnlPercentSizeFree(p: Position, k: real)
    requires k > 0.0 && p.quantity != 0.0
    ensures PnlPercent(p.(quantity := p.quantity * k)) == PnlPercent(p)
  {
    if p.entryPrice != 0.0 {
      ScaledPercent(p, k);
    }
  }

  /** The step of `PnlPercentSizeFree` for a non-zero entry price: both
      percentages exist and agree. */
  lemma ScaledPercent(p: Position, k: real)
    requires k > 0.0 && p.quantity != 0.0 && p.entryPrice != 0.0
    ensures PnlPercent(p.(quantity := p.quantity * k)).Ok? && PnlPercent(p).Ok?
    ensures PnlPercent(p.(quantity := p.quantity * k)).value == PnlPercent(p).value
  {
    var q := p.(quantity := p.quantity * k);
    ScaledPnl(p, k);
    var basis := p.entryPrice * Abs(p.quantity);
    var scaledBasis := p.entryPrice * Abs(q.quantity);
    assert scaledBasis == basis * k;
    SameQuotient(PnlPercent(p).value, PnlPercent(q).value, basis, scaledBasis, UnrealizedPnl(p), UnrealizedPnl(q), k);
  }

  /** Scaling the quantity by a positive factor scales its size and its
      unrealised pnl by that factor, and keeps it non-zero. */
  lemma ScaledPnl(p: Position, k: real)
    requires k > 0.0 && p.quantity != 0.0
    ensures p.quantity * k != 0.0
    ensures Abs(p.quantity * k) == Abs(p.quantity) * k
    ensures UnrealizedPnl(p.(quantity := p.quantity * k)) == UnrealizedPnl(p) * k
  {
    var q := p.(quantity := p.quantity * k);
    assert IsLong(q) == IsLong(p);
  }

  /** The percentages of u over basis and of u * k over basis * k agree. */
  lemma SameQuotient(a: real, b: real, basis: real, scaledBasis: real, u: real, scaledU: real, k: real)
    requires basis != 0.0 && k > 0.0 && scaledBasis == basis * k && scaledU == u * k
    requires a * basis == u * 100.0 && b * scaledBasis == scaledU * 100.0
    ensures a == b
  {
    assert (b * basis) * k == (a * basis) * k;
    assert b * basis == a * basis;
  }

  datatype TradeSide = Long | Short

  /** A closed round trip. */
  datatype Trade = Trade(
    symbol: string,
    entryTime: int,
    exitTime: int,
    entryPrice: real,
    exitPrice: real,
    quantity: real,
    side: TradeSide,
    pnl: real,
    pnlPercent: real,
    commission: real,
    durationSeconds: int)

  /** A trade wins only with a strictly positive pnl: a break-even trade is
      counted as a loser. */
  predicate IsWinner(t: Trade) {
    t.pnl > 0.0
  }

  /** Sum of the realised pnl of a list of trades. */
  function SumPnl(ts: seq<Trade>): real
    decreases |ts|
  {
    if |ts| == 0 then 0.0 else SumPnl(ts[..|ts| - 1]) + ts[|ts| - 1].pnl
  }

  lemma BreakEvenIsNotWinner(t: Trade)
    requires t.pnl == 0.0
    ensures !IsWinner(t)
  {
  }

  /** A floating-point result that need not be finite: the profit factor
      without losses is positive infinity, and a return over a zero initial
      capital may be either infinity or NaN. */
  datatype Extended = Finite(v: real) | PosInf | NegInf | NaN

  /** One snapshot of the equity curve. */
  datatype EquityPoint = EquityPoint(timestamp: int, equity: real)

  /** The terminal statistics of a backtest. `equityCurve` is `None` in the
      record built for a run without trades. */
  datatype BacktestResult = BacktestResult(
    totalPnl: real,
    totalReturnPercent: Extended,
    sharpeRatio: real,
    maxDrawdown: real,
    maxDrawdownPercent: real,
    totalTrades: nat,
    winningTrades: nat,
    losingTrades: nat,
    winRate: real,
    averageWin: real,
    averageLoss: real,
    profitFactor: Extended,
    initialCapital: real,
    finalCapital: real,
    totalCommission: real,
    trades: seq<Trade>,
    equityCurve: Option<seq<EquityPoint>>)
}

=== FILE: obv.dfy ===
/** `OBVStrategy`: the On-Balance Volume accumulator and the signals drawn
    from its crossings with its own moving average. */
module Obv {
  import opened Wrappers
  import opened Series
  import opened Crossing

  /** The constructor parameters. */
  datatype ObvConfig = ObvConfig(period: int, useSignalLine: bool, minVolume: real)

  const ObvDefaults := ObvConfig(20, true, 0.0)

  /** The volume row i adds to the running total: all of it on row 0, with
      the sign of the close's move afterwards, nothing on an unchanged close. */
  function Flow(closes: seq<real>, volumes: seq<real>, i: nat): real
    requires |closes| == |volumes| && i < |closes|
  {
    if i == 0 then volumes[0]
    else if closes[i] > closes[i - 1] then volumes[i]
    else if closes[i] < closes[i - 1] then -volumes[i]
    else 0.0
  }

  function Flows(closes: seq<real>, volumes: seq<real>): (r: seq<real>)
    requires |closes| == |volumes|
    ensures |r| == |closes| && forall i :: 0 <= i < |closes| ==> r[i] == Flow(closes, volumes, i)
  {
    seq(|closes|, i requires 0 <= i < |closes| => Flow(closes, volumes, i))
  }

  /** OBV as a closed form: the total of the flows up to and including each row. */
  function ObvSeries(closes: seq<real>, volumes: seq<real>): (r: seq<real>)
    requires |closes| == |volumes|
    ensures |r| == |closes|
  {
    var f := Flows(closes, volumes);
    seq(|closes|, i requires 0 <= i < |closes| => Sum(f[..i + 1]))
  }

  /** `_calculate_obv`: the running update of the source, row by row. An
      empty table fails on its first row. */
  method CalculateObv(closes: seq<real>, volumes: seq<real>) returns (r: Outcome<seq<real>>)
    requires |closes| == |volumes|
    ensures r.Err? <==> |closes| == 0
    ensures r.Err? ==> r.error == IndexError
    ensures r.Ok? ==> r.value == ObvSeries(closes, volumes)
    ensures r.Ok? ==> r.value[0] == volumes[0]
    ensures r.Ok? ==> forall i :: 0 < i < |closes| ==>
      r.value[i] == r.value[i - 1] + (if closes[i] > closes[i - 1] then volumes[i]
                                      else if closes[i] < closes[i - 1] then -volumes[i] else 0.0)
  {
    if |closes| == 0 {
      return Err(IndexError);
    }
    ghost var f := Flows(closes, volumes);
    var obv := [volumes[0]];
    assert f[..1] == [f[0]];
    var i := 1;
    while i < |closes|
      invariant 1 <= i <= |closes| && |obv| == i
      invariant forall j :: 0 <= j < i ==> obv[j] == Sum(f[..j + 1])
    {
      var next: real;
      if closes[i] > closes[i - 1] {
        next := obv[i - 1] + volumes[i];
      } else if closes[i] < closes[i - 1] {
        next := obv[i - 1] - volumes[i];
      } else {
        next := obv[i - 1];
      }
      assert next == obv[i - 1] + f[i];
      assert Sum(f[..i + 1]) == Sum(f[..i]) + f[i] by {
        assert f[..i + 1][..i] == f[..i];
      }
      obv := obv + [next];
      i := i + 1;
    }
    assert obv == ObvSeries(closes, volumes);
    r := Ok(obv);
    ObvRecurrence(closes, volumes);
  }

  /** Every row after the first adds its flow to the previous total. */
  lemma ObvRecurrence(closes: seq<real>, volumes: seq<real>)
    requires |closes| == |volumes|
    ensures var obv := ObvSeries(closes, volumes);
      forall i :: 0 < i < |closes| ==> obv[i] == obv[i - 1] + Flow(closes, volumes, i)
  {
    forall i | 0 < i < |closes|
      ensures ObvSeries(closes, volumes)[i] == ObvSeries(closes, volumes)[i - 1] + Flow(closes, volumes, i)
    {
      ObvStep(closes, volumes, i);
    }
  }

  /** Each row adds its flow to the previous total. */
  lemma ObvStep(closes: seq<real>, volumes: seq<real>, i: nat)
    requires |closes| == |volumes| && 0 < i < |closes|
    ensures ObvSeries(closes, volumes)[i] == ObvSeries(closes, volumes)[i - 1] + Flow(closes, volumes, i)
  {
    var f := Flows(closes, volumes);
    assert f[..i + 1][..i] == f[..i];
    assert Sum(f[..i + 1]) == Sum(f[..i]) + f[i];
  }

  /** With non-negative volume, OBV moves by at most the row's volume. */
  lemma StepBounded(closes: seq<real>, volumes: seq<real>, i: nat)
    requires |closes| == |volumes| && 0 < i < |closes| && volumes[i] >= 0.0
    ensures var obv := ObvSeries(closes, volumes);
      -volumes[i] <= obv[i] - obv[i - 1] <= volumes[i]
  {
    ObvStep(closes, volumes, i);
  }

  /** On rising closes with non-negative volume, OBV never falls. */
  lemma RisingClosesRaiseObv(closes: seq<real>, volumes: seq<real>, i: nat)
    requires |closes| == |volumes| && 0 < i < |closes| && volumes[i] >= 0.0
    requires closes[i] >= closes[i - 1]
    ensures ObvSeries(closes, volumes)[i] >= ObvSeries(closes, volumes)[i - 1]
  {
    ObvStep(closes, volumes, i);
  }

  /** `obv > obv_signal` in signal-line mode (false while the average is
      undefined). */
  function AboveSignal(obv: seq<real>, period: nat): (r: seq<bool>)
    ensures |r| == |obv|
  {
    seq(|obv|, i requires 0 <= i < |obv| => var m := RollingMean(obv, period, i); m.Some? && obv[i] > m.value)
  }

  /** `obv - obv_sma > 0` in trend mode. */
  function TrendPositive(obv: seq<real>, period: nat): (r: seq<bool>)
    ensures |r| == |obv|
  {
    seq(|obv|, i requires 0 <= i < |obv| => var m := RollingMean(obv, period, i); m.Some? && obv[i] - m.value > 0.0)
  }

  /** The rows the minimum-volume filter keeps (all of them when the minimum
      is not positive). */
  function Liquid(cfg: ObvConfig, volumes: seq<real>): (r: seq<bool>)
    ensures |r| == |volumes|
    ensures forall i :: 0 <= i < |volumes| ==> (r[i] <==> cfg.minVolume <= 0.0 || volumes[i] >= cfg.minVolume)
  {
    seq(|volumes|, i requires 0 <= i < |volumes| => !(cfg.minVolume > 0.0 && volumes[i] < cfg.minVolume))
  }

  /** `generate_signals`: a buy where OBV moves above its average, a sell
      where it moves back below (the row before row 0 counts as not above),
      cleared on rows below the minimum volume. */
  method GenerateSignals(cfg: ObvConfig, closes: seq<real>, volumes: seq<real>) returns (r: Outcome<seq<int>>)
    requires |closes| == |volumes|
    // the first row is read before the window is checked
    ensures r.Err? <==> |closes| == 0 || cfg.period < 0
    ensures |closes| == 0 ==> r == Err(IndexError)
    ensures |closes| > 0 && cfg.period < 0 ==> r.Err? && r.error.ValueError?
    ensures r.Ok? ==> |r.value| == |closes|
    ensures r.Ok? ==> forall i :: 0 <= i < |closes| ==> IsSignal(r.value[i])
    ensures r.Ok? ==> forall i :: 0 <= i < |closes| && r.value[i] != 0 ==> cfg.minVolume <= 0.0 || volumes[i] >= cfg.minVolume
    ensures r.Ok? ==> r.value == Signals(cfg, closes, volumes)
  {
    var obv := CalculateObv(closes, volumes);
    if obv.Err? {
      return Err(obv.error);
    }
    if cfg.period < 0 {
      return Err(ValueError("window must be an integer 0 or greater"));
    }
    var o := obv.value;
    var above := if cfg.useSignalLine then AboveSignal(o, cfg.period) else TrendPositive(o, cfg.period);
    r := Ok(Keep(CrossSignals(above, false), Liquid(cfg, volumes)));
  }

  /** The signals as a function of the input, for stating properties. */
  function Signals(cfg: ObvConfig, closes: seq<real>, volumes: seq<real>): (r: seq<int>)
    requires cfg.period >= 0 && |closes| == |volumes|
    ensures |r| == |closes|
  {
    var o := ObvSeries(closes, volumes);
    var above := if cfg.useSignalLine then AboveSignal(o, cfg.period) else TrendPositive(o, cfg.period);
    Keep(CrossSignals(above, false), Liquid(cfg, volumes))
  }

  /** The two modes compare the same quantities (`obv > sma` and
      `obv - sma > 0`), so they give the same signals. */
  lemma ModesAgree(cfg: ObvConfig, closes: seq<real>, volumes: seq<real>)
    requires cfg.period >= 0 && |closes| == |volumes|
    ensures Signals(cfg.(useSignalLine := true), closes, volumes) == Signals(cfg.(useSignalLine := false), closes, volumes)
  {
    var o := ObvSeries(closes, volumes);
    assert AboveSignal(o, cfg.period) == TrendPositive(o, cfg.period);
  }

  /** Buy and sell never fall on one row, and without a volume minimum they
      alternate: no buy right after a buy, no sell without a buy before it. */
  lemma SignalsAlternate(cfg: ObvConfig, closes: seq<real>, volumes: seq<real>, i: nat)
    requires cfg.period >= 0 && |closes| == |volumes| && i < |closes| && cfg.minVolume <= 0.0
    ensures var s := Signals(cfg, closes, volumes);
      && (s[i] == 1 ==> LastNonZero(s[..i]) != 1)
      && (s[i] == -1 ==> LastNonZero(s[..i]) == 1)
  {
    var o := ObvSeries(closes, volumes);
    var above := if cfg.useSignalLine then AboveSignal(o, cfg.period) else TrendPositive(o, cfg.period);
    assert Signals(cfg, closes, volumes) == CrossSignals(above, false);
    Alternate(above, false, i);
  }
}

=== FILE: parabolic_sar.dfy ===
/** `ParabolicSARStrategy`: Wilder's stop-and-reverse state machine and the
    signals drawn from its trend changes. */
module ParabolicSar {
  import opened Wrappers
  import opened Series
  import opened Crossing

  /** The constructor parameters: the acceleration factor's start, step and cap. */
  datatype SarConfig = SarConfig(afStart: real, afIncrement: real, afMax: real)

  const SarDefaults := SarConfig(0.02, 0.02, 0.20)

  /** The indicator on one row: stop level, extreme point, acceleration
      factor and trend (1 up, -1 down). */
  datatype SarState = SarState(sar: real, ep: real, af: real, trend: int)

  function Min(a: real, b: real): real { if a <= b then a else b }
  function Max(a: real, b: real): real { if a >= b then a else b }

  /** Row 0: the stop at the first low, the extreme at the first high,
      starting acceleration, uptrend. */
  function Initial(cfg: SarConfig, highs: seq<real>, lows: seq<real>): SarState
    requires |highs| > 0 && |lows| > 0
  {
    SarState(lows[0], highs[0], cfg.afStart, 1)
  }

  /** The stop moved towards the extreme by the acceleration factor. */
  function Advanced(prev: SarState): real {
    prev.sar + prev.af * (prev.ep - prev.sar)
  }

  /** The advanced stop, kept below the last two lows in an uptrend and
      above the last two highs in a downtrend. */
  function Projected(prev: SarState, highs: seq<real>, lows: seq<real>, i: nat): (p: real)
    requires |highs| == |lows| && 1 <= i < |highs|
    // in an uptrend: the least of the advanced stop and the last two lows
    ensures prev.trend == 1 ==> p <= Advanced(prev) && p <= lows[i - 1] && (i >= 2 ==> p <= lows[i - 2])
    ensures prev.trend == 1 ==> p == Advanced(prev) || p == lows[i - 1] || (i >= 2 && p == lows[i - 2])
    // in a downtrend: the greatest of the advanced stop and the last two highs
    ensures prev.trend != 1 ==> p >= Advanced(prev) && p >= highs[i - 1] && (i >= 2 ==> p >= highs[i - 2])
    ensures prev.trend != 1 ==> p == Advanced(prev) || p == highs[i - 1] || (i >= 2 && p == highs[i - 2])
  {
    var raw := Advanced(prev);
    if prev.trend == 1 then
      if i >= 2 then Min(Min(raw, lows[i - 1]), lows[i - 2]) else Min(raw, lows[i - 1])
    else
      if i >= 2 then Max(Max(raw, highs[i - 1]), highs[i - 2]) else Max(raw, highs[i - 1])
  }

  /** One iteration of the loop in `_calculate_parabolic_sar`. */
  function Next(cfg: SarConfig, prev: SarState, highs: seq<real>, lows: seq<real>, i: nat): (s: SarState)
    requires |highs| == |lows| && 1 <= i < |highs|
    ensures s.trend == 1 || s.trend == -1
    // the trend reverses exactly when the bar pierces the projected stop
    ensures prev.trend == 1 ==> (s.trend == -1 <==> lows[i] < Projected(prev, highs, lows, i))
    ensures prev.trend != 1 ==> (s.trend == 1 <==> highs[i] > Projected(prev, highs, lows, i))
    // a reversal puts the stop at the previous extreme and restarts the acceleration
    ensures (prev.trend == 1) != (s.trend == 1) ==> s.sar == prev.ep && s.af == cfg.afStart
    ensures prev.trend == 1 && s.trend == -1 ==> s.ep == lows[i]
    ensures prev.trend != 1 && s.trend == 1 ==> s.ep == highs[i]
    // an uptrend continues with the stop under this and the last two lows;
    // its extreme never falls
    ensures prev.trend == 1 && s.trend == 1 ==>
      && s.sar <= lows[i] && s.sar <= lows[i - 1] && (i >= 2 ==> s.sar <= lows[i - 2])
      && s.ep >= prev.ep && s.ep >= highs[i]
    // a downtrend continues with the stop over this and the last two highs;
    // its extreme never rises
    ensures prev.trend != 1 && s.trend == -1 ==>
      && s.sar >= highs[i] && s.sar >= highs[i - 1] && (i >= 2 ==> s.sar >= highs[i - 2])
      && s.ep <= prev.ep && s.ep <= lows[i]
    // a continuing trend keeps the projected stop and the furthest extreme
    ensures (prev.trend == 1) == (s.trend == 1) ==> s.sar == Projected(prev, highs, lows, i)
    ensures prev.trend == 1 && s.trend == 1 ==> s.ep == Max(prev.ep, highs[i])
    ensures prev.trend != 1 && s.trend == -1 ==> s.ep == Min(prev.ep, lows[i])
    // the factor grows, up to the cap, only on a new extreme
    ensures (prev.trend == 1) == (s.trend == 1) ==>
      s.af == (if s.ep != prev.ep then Min(prev.af + cfg.afIncrement, cfg.afMax) else prev.af)
  {
    var p := Projected(prev, highs, lows, i);
    if prev.trend == 1 then
      if lows[i] < p then SarState(prev.ep, lows[i], cfg.afStart, -1)
      else if highs[i] > prev.ep then SarState(p, highs[i], Min(prev.af + cfg.afIncrement, cfg.afMax), 1)
      else SarState(p, prev.ep, prev.af, 1)
    else
      if highs[i] > p then SarState(prev.ep, highs[i], cfg.afStart, 1)
      else if lows[i] < prev.ep then SarState(p, lows[i], Min(prev.af + cfg.afIncrement, cfg.afMax), -1)
      else SarState(p, prev.ep, prev.af, -1)
  }

  /** The states of the first k rows. */
  function States(cfg: SarConfig, highs: seq<real>, lows: seq<real>, k: nat): (r: seq<SarState>)
    requires |highs| == |lows| && 1 <= k <= |highs|
    ensures |r| == k && r[0] == Initial(cfg, highs, lows)
    ensures forall i :: 0 < i < k ==> r[i] == Next(cfg, r[i - 1], highs, lows, i)
    decreases k
  {
    if k == 1 then [Initial(cfg, highs, lows)]
    else
      var r := States(cfg, highs, lows, k - 1);
      r + [Next(cfg, r[k - 2], highs, lows, k - 1)]
  }

  /** `_calculate_parabolic_sar`: fails on an empty table (row 0 is read
      unconditionally), otherwise one state per row. */
  method CalculateSar(cfg: SarConfig, highs: seq<real>, lows: seq<real>) returns (r: Outcome<seq<SarState>>)
    requires |highs| == |lows|
    ensures r.Err? <==> |highs| == 0
    ensures r.Err? ==> r.error == IndexError
    ensures r.Ok? ==> r.value == States(cfg, highs, lows, |highs|)
  {
    if |highs| == 0 {
      return Err(IndexError);
    }
    var states := [Initial(cfg, highs, lows)];
    var i := 1;
    while i < |highs|
      invariant 1 <= i <= |highs|
      invariant states == States(cfg, highs, lows, i)
    {
      states := states + [Next(cfg, states[i - 1], highs, lows, i)];
      i := i + 1;
    }
    r := Ok(states);
  }

  /** Every row is in an uptrend or a downtrend. */
  lemma TrendIsSign(cfg: SarConfig, highs: seq<real>, lows: seq<real>)
    requires |highs| == |lows| && |highs| > 0
    ensures forall i :: 0 <= i < |highs| ==>
      States(cfg, highs, lows, |highs|)[i].trend == 1 || States(cfg, highs, lows, |highs|)[i].trend == -1
  {
    var st := States(cfg, highs, lows, |highs|);
    forall i | 0 <= i < |highs| ensures st[i].trend == 1 || st[i].trend == -1 {
      if i > 0 {
        assert st[i] == Next(cfg, st[i - 1], highs, lows, i);
      }
    }
  }

  /** The factor starts at `af_start`, only grows up to `af_max`, and resets
      on a reversal, so it stays within those two bounds. */
  lemma {:induction false} AfBounded(cfg: SarConfig, highs: seq<real>, lows: seq<real>, k: nat)
    requires |highs| == |lows| && 1 <= k <= |highs|
    requires cfg.afStart <= cfg.afMax && cfg.afIncrement >= 0.0
    ensures forall i :: 0 <= i < k ==> cfg.afStart <= States(cfg, highs, lows, k)[i].af <= cfg.afMax
  {
    if k > 1 {
      AfBounded(cfg, highs, lows, k - 1);
      var r := States(cfg, highs, lows, k);
      assert r[..k - 1] == States(cfg, highs, lows, k - 1);
      assert r[k - 1] == Next(cfg, r[k - 2], highs, lows, k - 1);
    }
  }

  /** Scaling a non-negative amount by a factor in [0, 1] does not enlarge it. */
  lemma ScaleDown(af: real, d: real)
    requires 0.0 <= af <= 1.0 && d >= 0.0
    ensures 0.0 <= af * d <= d
  {
    assert (1.0 - af) * d == d - af * d;
    assert (1.0 - af) * d >= 0.0;
  }

  /** Moving a fraction af in [0, 1] of the way up from sar to ep stays between them. */
  lemma TowardsUp(sar: real, ep: real, af: real)
    requires 0.0 <= af <= 1.0 && sar <= ep
    ensures sar <= sar + af * (ep - sar) <= ep
  {
    ScaleDown(af, ep - sar);
    var m := af * (ep - sar);
    assert 0.0 <= m <= ep - sar;
  }

  /** Moving a fraction af in [0, 1] of the way down from sar to ep stays between them. */
  lemma TowardsDown(sar: real, ep: real, af: real)
    requires 0.0 <= af <= 1.0 && sar >= ep
    ensures ep <= sar + af * (ep - sar) <= sar
  {
    ScaleDown(af, sar - ep);
    var m := af * (sar - ep);
    assert 0.0 <= m <= sar - ep;
    assert af * (ep - sar) == -m;
  }

  /** The step from one state to the next keeps the stop on the far side of
      the extreme point. */
  lemma NextKeepsSide(cfg: SarConfig, prev: SarState, highs: seq<real>, lows: seq<real>, i: nat)
    requires |highs| == |lows| && 1 <= i < |highs|
    requires 0.0 <= prev.af <= 1.0
    requires prev.trend == 1 ==> prev.sar <= prev.ep
    requires prev.trend != 1 ==> prev.sar >= prev.ep
    ensures var s := Next(cfg, prev, highs, lows, i);
      && (s.trend == 1 ==> s.sar <= s.ep)
      && (s.trend == -1 ==> s.sar >= s.ep)
  {
    var p := Projected(prev, highs, lows, i);
    var s := Next(cfg, prev, highs, lows, i);
    ProjectedBeforeExtreme(prev, highs, lows, i);
    if prev.trend == 1 {
      if lows[i] < p {
        assert s == SarState(prev.ep, lows[i], cfg.afStart, -1);
      } else if highs[i] > prev.ep {
        assert s == SarState(p, highs[i], Min(prev.af + cfg.afIncrement, cfg.afMax), 1);
      } else {
        assert s == SarState(p, prev.ep, prev.af, 1);
      }
    } else {
      if highs[i] > p {
        assert s == SarState(prev.ep, highs[i], cfg.afStart, 1);
      } else if lows[i] < prev.ep {
        assert s == SarState(p, lows[i], Min(prev.af + cfg.afIncrement, cfg.afMax), -1);
      } else {
        assert s == SarState(p, prev.ep, prev.af, -1);
      }
    }
  }

  /** The projected stop never passes the extreme point. */
  lemma ProjectedBeforeExtreme(prev: SarState, highs: seq<real>, lows: seq<real>, i: nat)
    requires |highs| == |lows| && 1 <= i < |highs|
    requires 0.0 <= prev.af <= 1.0
    requires prev.trend == 1 ==> prev.sar <= prev.ep
    requires prev.trend != 1 ==> prev.sar >= prev.ep
    ensures prev.trend == 1 ==> Projected(prev, highs, lows, i) <= prev.ep
    ensures prev.trend != 1 ==> Projected(prev, highs, lows, i) >= prev.ep
  {
    if prev.trend == 1 {
      TowardsUp(prev.sar, prev.ep, prev.af);
    } else {
      TowardsDown(prev.sar, prev.ep, prev.af);
    }
  }

  /** With factors in [0, 1] and a first bar whose low is not above its high,
      the stop stays at or below the extreme point in an uptrend and at or
      above it in a downtrend: the stop trails the price. */
  lemma {:induction false} StopTrailsExtreme(cfg: SarConfig, highs: seq<real>, lows: seq<real>, k: nat)
    requires |highs| == |lows| && 1 <= k <= |highs|
    requires 0.0 <= cfg.afStart <= cfg.afMax <= 1.0 && cfg.afIncrement >= 0.0
    requires lows[0] <= highs[0]
    ensures forall i :: 0 <= i < k ==>
      var s := States(cfg, highs, lows, k)[i];
      (s.trend == 1 ==> s.sar <= s.ep) && (s.trend == -1 ==> s.sar >= s.ep)
  {
    if k > 1 {
      StopTrailsExtreme(cfg, highs, lows, k - 1);
      AfBounded(cfg, highs, lows, k - 1);
      var r := States(cfg, highs, lows, k);
      assert r[..k - 1] == States(cfg, highs, lows, k - 1);
      NextKeepsSide(cfg, r[k - 2], highs, lows, k - 1);
    }
  }

  /** `generate_signals`: 1 where the trend turns up, -1 where it turns down,
      0 elsewhere and on row 0 (whose `diff` is undefined). */
  method GenerateSignals(cfg: SarConfig, highs: seq<real>, lows: seq<real>) returns (r: Outcome<seq<int>>)
    requires |highs| == |lows|
    ensures r.Err? <==> |highs| == 0
    ensures r.Err? ==> r.error == IndexError
    ensures r.Ok? ==> r.value == Signals(cfg, highs, lows)
  {
    var states := CalculateSar(cfg, highs, lows);
    if states.Err? {
      return Err(states.error);
    }
    var st := states.value;
    var up := seq(|st|, i requires 0 <= i < |st| => st[i].trend == 1);
    r := Ok(CrossSignals(up, true));
  }

  /** The signals as a function of the input. */
  function Signals(cfg: SarConfig, highs: seq<real>, lows: seq<real>): (r: seq<int>)
    requires |highs| == |lows| && |highs| > 0
    ensures |r| == |highs|
  {
    var st := States(cfg, highs, lows, |highs|);
    CrossSignals(seq(|st|, i requires 0 <= i < |st| => st[i].trend == 1), true)
  }

  /** A signal exactly at a trend change, in the direction of the new trend. */
  lemma SignalRule(cfg: SarConfig, highs: seq<real>, lows: seq<real>, i: nat)
    requires |highs| == |lows| && i < |highs|
    ensures var st := States(cfg, highs, lows, |highs|);
      var s := Signals(cfg, highs, lows);
      && (s[i] == 1 <==> i > 0 && st[i - 1].trend == -1 && st[i].trend == 1)
      && (s[i] == -1 <==> i > 0 && st[i - 1].trend == 1 && st[i].trend == -1)
      && (s[i] == 0 <==> i == 0 || st[i - 1].trend == st[i].trend)
  {
    TrendIsSign(cfg, highs, lows);
  }

  /** Signals alternate, and the first one is a sell: the indicator starts in
      an uptrend, so a buy needs a sell before it and a sell needs no sell
      since the last buy. */
  lemma SignalsAlternate(cfg: SarConfig, highs: seq<real>, lows: seq<real>, i: nat)
    requires |highs| == |lows| && i < |highs|
    ensures var s := Signals(cfg, highs, lows);
      && (s[i] == 1 ==> LastNonZero(s[..i]) == -1)
      && (s[i] == -1 ==> LastNonZero(s[..i]) != -1)
  {
    var st := States(cfg, highs, lows, |highs|);
    var up := seq(|st|, j requires 0 <= j < |st| => st[j].trend == 1);
    var s := Signals(cfg, highs, lows);
    Alternate(up, true, i);
    var v := LastNonZero(s[..i]);
    assert v == 0 || v in s[..i];
    if v != 0 {
      var j :| 0 <= j < i && s[..i][j] == v;
      assert IsSignal(s[j]);
    }
  }
}

=== FILE: portfolio.dfy ===
/** The ledger of the backtest engine: cash, at most one open position per
    symbol, the closed-trade log, the equity curve and the running
    commission total, with the order-execution rules that change them. */
module Portfolio {
  import opened Wrappers
  import opened Series
  import opened Models

  /** The open-position book: a dictionary from symbol to position, kept as
      an association list in insertion order. */
  type Book = seq<Position>

  predicate DistinctSymbols(ps: Book) {
    forall i, j :: 0 <= i < j < |ps| ==> ps[i].symbol != ps[j].symbol
  }

  /** Index of the position held for `sym`, if any. */
  function Find(ps: Book, sym: string): (r: Option<nat>)
    ensures r.Some? ==> r.value < |ps| && ps[r.value].symbol == sym
    ensures r.None? ==> forall j :: 0 <= j < |ps| ==> ps[j].symbol != sym
  {
    if |ps| == 0 then None
    else if ps[0].symbol == sym then Some(0)
    else match Find(ps[1..], sym)
      case None => None
      case Some(k) => Some(k + 1)
  }

  /** The position held for `sym`, if any (`dict.get`). */
  function Lookup(ps: Book, sym: string): (r: Option<Position>)
    ensures r.Some? ==> r.value in ps && r.value.symbol == sym
    ensures r.None? ==> forall j :: 0 <= j < |ps| ==> ps[j].symbol != sym
  {
    match Find(ps, sym)
    case None => None
    case Some(k) => Some(ps[k])
  }

  lemma LookupAt(ps: Book, k: nat)
    requires DistinctSymbols(ps) && k < |ps|
    ensures Lookup(ps, ps[k].symbol) == Some(ps[k])
  {
  }

  /** Store `p` under its symbol, overwriting in place or appending. */
  function Put(ps: Book, p: Position): Book {
    match Find(ps, p.symbol)
    case Some(k) => ps[k := p]
    case None => ps + [p]
  }

  /** Delete the entry for `sym` if there is one. */
  function Remove(ps: Book, sym: string): Book {
    match Find(ps, sym)
    case Some(k) => ps[..k] + ps[k + 1..]
    case None => ps
  }

  /** After `Put`, the symbol maps to the new position, every other symbol
      to what it mapped to before, and symbols stay distinct. */
  lemma PutLookup(ps: Book, p: Position)
    requires DistinctSymbols(ps)
    ensures DistinctSymbols(Put(ps, p))
    ensures Lookup(Put(ps, p), p.symbol) == Some(p)
    ensures forall s :: s != p.symbol ==> Lookup(Put(ps, p), s) == Lookup(ps, s)
  {
    var qs := Put(ps, p);
    assert DistinctSymbols(qs);
    forall s | s != p.symbol
      ensures Lookup(qs, s) == Lookup(ps, s)
    {
      match Find(ps, s)
      case None =>
      case Some(k) =>
        assert qs[k] == ps[k];
        LookupAt(qs, k);
    }
    match Find(ps, p.symbol)
    case None =>
      LookupAt(qs, |ps|);
    case Some(k) =>
      LookupAt(qs, k);
  }

  /** After `Remove`, the symbol maps to nothing and every other symbol to
      what it mapped to before. */
  lemma RemoveLookup(ps: Book, sym: string)
    requires DistinctSymbols(ps)
    ensures DistinctSymbols(Remove(ps, sym))
    ensures Lookup(Remove(ps, sym), sym).None?
    ensures forall s :: s != sym ==> Lookup(Remove(ps, sym), s) == Lookup(ps, s)
  {
    var qs := Remove(ps, sym);
    match Find(ps, sym)
    case None =>
    case Some(k) =>
      assert forall j :: 0 <= j < |qs| ==> qs[j] == (if j < k then ps[j] else ps[j + 1]);
      assert DistinctSymbols(qs);
      forall s | s != sym
        ensures Lookup(qs, s) == Lookup(ps, s)
      {
        match Find(ps, s)
        case None =>
        case Some(i) =>
          if i < k {
            LookupAt(qs, i);
          } else {
            assert i != k;
            LookupAt(qs, i - 1);
          }
      }
  }

  /** Ledger state. */
  datatype State = State(
    initialCash: real,
    cash: real,
    commissionRate: real,
    slippageRate: real,
    positions: Book,
    closedTrades: seq<Trade>,
    equityHistory: seq<EquityPoint>,
    totalCommission: real)

  predicate Valid(s: State) {
    DistinctSymbols(s.positions)
  }

  /** A fresh ledger holding only cash. */
  function NewPortfolio(initialCash: real, commissionRate: real, slippageRate: real): (s: State)
    ensures Valid(s) && s.cash == initialCash && s.positions == [] && s.closedTrades == []
    ensures s.equityHistory == [] && s.totalCommission == 0.0
  {
    State(initialCash, initialCash, commissionRate, slippageRate, [], [], [], 0.0)
  }

  /** Sum of the market values of a book. */
  function BookValue(ps: Book): real
    decreases |ps|
  {
    if |ps| == 0 then 0.0 else BookValue(ps[..|ps| - 1]) + MarketValue(ps[|ps| - 1])
  }

  lemma {:induction false} BookValueAppend(ps: Book, p: Position)
    ensures BookValue(ps + [p]) == BookValue(ps) + MarketValue(p)
  {
    assert (ps + [p])[..|ps|] == ps;
  }

  /** Total equity: cash plus the market value of every open position. */
  function Equity(s: State): real {
    s.cash + BookValue(s.positions)
  }

  /** Realised pnl of the closed trades plus unrealised pnl of the book. */
  function TotalPnl(s: State): real {
    SumPnl(s.closedTrades) + BookPnl(s.positions)
  }

  function BookPnl(ps: Book): real
    decreases |ps|
  {
    if |ps| == 0 then 0.0 else BookPnl(ps[..|ps| - 1]) + UnrealizedPnl(ps[|ps| - 1])
  }

  /** Slippage always works against the trader. */
  function ExecutionPrice(side: Side, marketPrice: real, slippageRate: real): (p: real)
    ensures marketPrice >= 0.0 && slippageRate >= 0.0 ==>
      (side == Buy ==> p >= marketPrice) && (side == Sell ==> p <= marketPrice)
  {
    if side == Buy then marketPrice * (1.0 + slippageRate) else marketPrice * (1.0 - slippageRate)
  }

  /** Commission on the traded notional. */
  function Commission(executionPrice: real, quantity: real, commissionRate: real): real {
    executionPrice * quantity * commissionRate
  }

  /** Outcome of one `execute_order` call: the new ledger, the order with its
      final status, and whether it filled. */
  datatype Execution = Execution(state: State, order: Order, filled: bool)

  function Fill(order: Order, executionPrice: real, commission: real): Order {
    order.(status := Filled, filledPrice := Some(executionPrice), commission := commission)
  }

  function Reject(s: State, order: Order): Execution {
    Execution(s, order.(status := Rejected), false)
  }

  /** Realised pnl of closing `p` at `exitPrice`; only the closing order's
      commission is charged against it. */
  function ClosingPnl(p: Position, exitPrice: real, commission: real): real {
    if IsLong(p) then (exitPrice - p.entryPrice) * p.quantity - commission
    else (p.entryPrice - exitPrice) * Abs(p.quantity) - commission
  }

  /** `t` records closing `p` at `exitPrice` and `exitTime`: the position's
      entry, its size and side, the closing commission, the realised pnl and
      that pnl as a percentage of the cost basis. */
  predicate ClosedAs(t: Trade, p: Position, exitPrice: real, exitTime: int, commission: real) {
    && t.symbol == p.symbol && t.entryPrice == p.entryPrice && t.exitPrice == exitPrice
    && t.entryTime == p.entryTime && t.exitTime == exitTime
    && t.quantity == Abs(p.quantity) && t.commission == commission
    && t.side == (if IsLong(p) then Long else Short)
    && t.pnl == ClosingPnl(p, exitPrice, commission)
    && t.pnlPercent * (p.entryPrice * Abs(p.quantity)) == t.pnl * 100.0
    && t.durationSeconds == exitTime - p.entryTime
  }

  /** Close `p`: append one trade and remove the position. Divides by the
      cost basis, so a zero basis raises ZeroDivisionError. */
  function ClosePosition(s: State, p: Position, exitPrice: real, exitTime: int, commission: real): (r: Outcome<State>)
    requires Valid(s)
    ensures r.Err? <==> p.entryPrice * Abs(p.quantity) == 0.0
    ensures r.Ok? ==> Valid(r.value)
    ensures r.Ok? ==> r.value == s.(positions := Remove(s.positions, p.symbol), closedTrades := r.value.closedTrades)
    ensures r.Ok? ==> |r.value.closedTrades| == |s.closedTrades| + 1
    ensures r.Ok? ==> r.value.closedTrades[..|s.closedTrades|] == s.closedTrades
    ensures r.Ok? ==> ClosedAs(r.value.closedTrades[|s.closedTrades|], p, exitPrice, exitTime, commission)
  {
    var pnl := ClosingPnl(p, exitPrice, commission);
    var basis := p.entryPrice * Abs(p.quantity);
    if basis == 0.0 then Err(ZeroDivisionError)
    else
      var trade := Trade(
        p.symbol, p.entryTime, exitTime, p.entryPrice, exitPrice, Abs(p.quantity),
        if IsLong(p) then Long else Short, pnl, pnl / basis * 100.0, commission, exitTime - p.entryTime);
      RemoveLookup(s.positions, p.symbol);
      Ok(s.(closedTrades := s.closedTrades + [trade], positions := Remove(s.positions, p.symbol)))
  }

  /** Volume-weighted average entry price after adding `q` at `price`. */
  function AverageEntry(p: Position, price: real, q: real): real
    requires p.quantity + q != 0.0
  {
    (p.entryPrice * p.quantity + price * q) / (p.quantity + q)
  }

  /** The buy path of `execute_order`. */
  function ExecuteBuy(s: State, order: Order, price: real, commission: real, ts: int): (r: Outcome<Execution>)
    requires Valid(s)
    ensures r.Ok? ==> Valid(r.value.state)
    ensures r.Ok? ==> r.value.state.commissionRate == s.commissionRate && r.value.state.slippageRate == s.slippageRate
    // rejection: exactly when the cost exceeds the cash, and nothing changes
    ensures (r.Ok? && !r.value.filled) <==> price * order.quantity + commission > s.cash
    ensures r.Ok? && !r.value.filled ==> r.value.state == s && r.value.order == order.(status := Rejected)
    // a fill pays the cost out of cash and never overdraws it
    ensures r.Ok? && r.value.filled ==>
      && r.value.order == Fill(order, price, commission)
      && r.value.state.cash == s.cash - (price * order.quantity + commission)
      && r.value.state.cash >= 0.0
      && r.value.state.totalCommission == s.totalCommission + commission
      && r.value.state.equityHistory == s.equityHistory
      && (forall sym :: sym != order.symbol ==> Lookup(r.value.state.positions, sym) == Lookup(s.positions, sym))
    // adding to a long position averages the entry price by volume
    ensures r.Ok? && r.value.filled && Lookup(s.positions, order.symbol).Some? && IsLong(Lookup(s.positions, order.symbol).value) ==>
      var p := Lookup(s.positions, order.symbol).value;
      && p.quantity + order.quantity != 0.0
      && Lookup(r.value.state.positions, order.symbol) ==
           Some(p.(quantity := p.quantity + order.quantity, entryPrice := AverageEntry(p, price, order.quantity)))
      && r.value.state.closedTrades == s.closedTrades
    // without a long or short position, a new one opens at the execution price
    ensures r.Ok? && r.value.filled && (Lookup(s.positions, order.symbol).None? || Lookup(s.positions, order.symbol).value.quantity == 0.0) ==>
      && Lookup(r.value.state.positions, order.symbol) == Some(Position(order.symbol, order.quantity, price, ts, Some(price), None, None))
      && r.value.state.closedTrades == s.closedTrades
    // a buy against a short position closes the whole short
    ensures r.Ok? && r.value.filled && Lookup(s.positions, order.symbol).Some? && IsShort(Lookup(s.positions, order.symbol).value) ==>
      && Lookup(r.value.state.positions, order.symbol).None?
      && |r.value.state.closedTrades| == |s.closedTrades| + 1
      && r.value.state.closedTrades[..|s.closedTrades|] == s.closedTrades
      && ClosedAs(r.value.state.closedTrades[|s.closedTrades|], Lookup(s.positions, order.symbol).value, price, ts, commission)
    ensures r.Err? ==> price * order.quantity + commission <= s.cash && Lookup(s.positions, order.symbol).Some?
  {
    var cost := price * order.quantity + commission;
    var existing := Lookup(s.positions, order.symbol);
    if cost > s.cash then Ok(Reject(s, order))
    else
      var s1 := s.(cash := s.cash - cost, totalCommission := s.totalCommission + commission);
      var filled := Fill(order, price, commission);
      if existing.Some? && IsShort(existing.value) then
        var s2 :- ClosePosition(s1, existing.value, price, ts, commission);
        RemoveLookup(s1.positions, order.symbol);
        Ok(Execution(s2, filled, true))
      else if existing.Some? && IsLong(existing.value) then
        var p := existing.value;
        var total := p.quantity + order.quantity;
        if total == 0.0 then Err(ZeroDivisionError)
        else
          var merged := p.(quantity := total, entryPrice := AverageEntry(p, price, order.quantity));
          PutLookup(s1.positions, merged);
          Ok(Execution(s1.(positions := Put(s1.positions, merged)), filled, true))
      else
        var newPosition := Position(order.symbol, order.quantity, price, ts, Some(price), None, None);
        PutLookup(s1.positions, newPosition);
        Ok(Execution(s1.(positions := Put(s1.positions, newPosition)), filled, true))
  }

  /** The sell path of `execute_order`. */
  function ExecuteSell(s: State, order: Order, price: real, commission: real, ts: int): (r: Outcome<Execution>)
    requires Valid(s)
    ensures r.Ok? ==> Valid(r.value.state)
    ensures r.Ok? ==> r.value.state.commissionRate == s.commissionRate && r.value.state.slippageRate == s.slippageRate
    // rejection: no position, or fewer units held than requested; nothing changes
    ensures (r.Ok? && !r.value.filled) <==>
      (Lookup(s.positions, order.symbol).None? || Lookup(s.positions, order.symbol).value.quantity < order.quantity)
    ensures r.Ok? && !r.value.filled ==> r.value.state == s && r.value.order == order.(status := Rejected)
    // a fill credits the proceeds net of commission
    ensures r.Ok? && r.value.filled ==>
      && r.value.order == Fill(order, price, commission)
      && r.value.state.cash == s.cash + (price * order.quantity - commission)
      && r.value.state.totalCommission == s.totalCommission + commission
      && r.value.state.equityHistory == s.equityHistory
      && (forall sym :: sym != order.symbol ==> Lookup(r.value.state.positions, sym) == Lookup(s.positions, sym))
    // selling everything held closes the position into exactly one trade
    ensures r.Ok? && r.value.filled && Lookup(s.positions, order.symbol).value.quantity == order.quantity ==>
      var p := Lookup(s.positions, order.symbol).value;
      && Lookup(r.value.state.positions, order.symbol).None?
      && |r.value.state.closedTrades| == |s.closedTrades| + 1
      && r.value.state.closedTrades[..|s.closedTrades|] == s.closedTrades
      && ClosedAs(r.value.state.closedTrades[|s.closedTrades|], p, price, ts, commission)
    // a partial sell only reduces the quantity
    ensures r.Ok? && r.value.filled && Lookup(s.positions, order.symbol).value.quantity != order.quantity ==>
      var p := Lookup(s.positions, order.symbol).value;
      && Lookup(r.value.state.positions, order.symbol) == Some(p.(quantity := p.quantity - order.quantity))
      && r.value.state.closedTrades == s.closedTrades
    ensures r.Err? ==> Lookup(s.positions, order.symbol).Some? && Lookup(s.positions, order.symbol).value.quantity == order.quantity
  {
    var existing := Lookup(s.positions, order.symbol);
    if existing.None? || existing.value.quantity < order.quantity then Ok(Reject(s, order))
    else
      var p := existing.value;
      var s1 := s.(cash := s.cash + (price * order.quantity - commission), totalCommission := s.totalCommission + commission);
      var filled := Fill(order, price, commission);
      if p.quantity == order.quantity then
        var s2 :- ClosePosition(s1, p, price, ts, commission);
        RemoveLookup(s1.positions, order.symbol);
        Ok(Execution(s2, filled, true))
      else
        var reduced := p.(quantity := p.quantity - order.quantity);
        PutLookup(s1.positions, reduced);
        Ok(Execution(s1.(positions := Put(s1.positions, reduced)), filled, true))
  }

  /** `execute_order`: apply slippage and commission, then take the buy or
      sell path. A rejection is a normal result, never an error. */
  function ExecuteOrder(s: State, order: Order, marketPrice: real, ts: int): (r: Outcome<Execution>)
    requires Valid(s)
    ensures r.Ok? ==> Valid(r.value.state)
    // the rates and the equity history never change
    ensures r.Ok? ==> r.value.state.commissionRate == s.commissionRate && r.value.state.slippageRate == s.slippageRate
    ensures r.Ok? ==> r.value.state.equityHistory == s.equityHistory
    ensures r.Ok? ==> r.value.order.status == (if r.value.filled then Filled else Rejected)
    ensures r.Ok? && !r.value.filled ==> r.value.state == s
    ensures r.Ok? && r.value.filled ==>
      var price := ExecutionPrice(order.side, marketPrice, s.slippageRate);
      && r.value.order.filledPrice == Some(price)
      && r.value.order.commission == Commission(price, order.quantity, s.commissionRate)
      && r.value.state.totalCommission == s.totalCommission + r.value.order.commission
  {
    var price := ExecutionPrice(order.side, marketPrice, s.slippageRate);
    var commission := Commission(price, order.quantity, s.commissionRate);
    if order.side == Buy then ExecuteBuy(s, order, price, commission, ts)
    else ExecuteSell(s, order, price, commission, ts)
  }

  /** `update_positions`: re-mark the position of `sym`, if there is one. */
  function UpdatePositions(s: State, sym: string, price: real): (r: State)
    requires Valid(s)
    ensures Valid(r)
    ensures r == s.(positions := r.positions)
    ensures Lookup(s.positions, sym).None? ==> r == s
    ensures Lookup(s.positions, sym).Some? ==>
      Lookup(r.positions, sym) == Some(Lookup(s.positions, sym).value.(currentPrice := Some(price)))
    ensures forall other :: other != sym ==> Lookup(r.positions, other) == Lookup(s.positions, other)
  {
    match Lookup(s.positions, sym)
    case None => s
    case Some(p) =>
      PutLookup(s.positions, p.(currentPrice := Some(price)));
      s.(positions := Put(s.positions, p.(currentPrice := Some(price))))
  }

  /** `record_equity`: append one snapshot of cash plus market value. */
  function RecordEquity(s: State, ts: int): (r: State)
    ensures r == s.(equityHistory := r.equityHistory)
    ensures r.equityHistory == s.equityHistory + [EquityPoint(ts, s.cash + BookValue(s.positions))]
  {
    s.(equityHistory := s.equityHistory + [EquityPoint(ts, Equity(s))])
  }
}

=== FILE: portfolio_properties.dfy ===
/** Properties of the ledger that relate several calls or hold across
    every order: solvency, equity conservation and worked examples. */
module PortfolioProperties {
  import opened Wrappers
  import opened Series
  import opened Models
  import opened Portfolio

  /** Cash is never negative and no position is short. */
  predicate Solvent(s: State) {
    && s.cash >= 0.0
    && forall i :: 0 <= i < |s.positions| ==> s.positions[i].quantity >= 0.0
  }

  /** Slippage and commission rates between 0 and 1. */
  predicate SaneRates(s: State) {
    0.0 <= s.slippageRate <= 1.0 && 0.0 <= s.commissionRate <= 1.0
  }

  lemma SolventLookup(s: State, sym: string)
    requires Valid(s) && Solvent(s) && Lookup(s.positions, sym).Some?
    ensures Lookup(s.positions, sym).value.quantity >= 0.0
  {
  }

  /** A book whose entries all have non-negative quantity, stated per symbol. */
  lemma SolventFromLookups(s: State, before: State, sym: string)
    requires Valid(s) && Valid(before) && Solvent(before) && s.cash >= 0.0
    requires forall other :: other != sym ==> Lookup(s.positions, other) == Lookup(before.positions, other)
    requires Lookup(s.positions, sym).Some? ==> Lookup(s.positions, sym).value.quantity >= 0.0
    ensures Solvent(s)
  {
    forall i | 0 <= i < |s.positions|
      ensures s.positions[i].quantity >= 0.0
    {
      LookupAt(s.positions, i);
      var other := s.positions[i].symbol;
      if other != sym {
        SolventLookup(before, other);
      }
    }
  }

  /** A rate between 0 and 1 takes a share of a non-negative amount. */
  lemma Share(x: real, rate: real)
    requires x >= 0.0 && 0.0 <= rate <= 1.0
    ensures 0.0 <= x * rate <= x
  {
    var m := x * rate;
    assert x * (1.0 - rate) >= 0.0;
  }

  lemma NonNegativeProduct(a: real, b: real)
    requires a >= 0.0 && b >= 0.0
    ensures a * b >= 0.0
  {
  }

  /** With rates between 0 and 1, a sell's commission never exceeds its
      notional. */
  lemma SellCommissionBounded(marketPrice: real, q: real, slippageRate: real, commissionRate: real)
    requires marketPrice >= 0.0 && q >= 0.0 && 0.0 <= slippageRate <= 1.0 && 0.0 <= commissionRate <= 1.0
    ensures var price := ExecutionPrice(Sell, marketPrice, slippageRate);
      0.0 <= Commission(price, q, commissionRate) <= price * q
  {
    var price := ExecutionPrice(Sell, marketPrice, slippageRate);
    Share(marketPrice, slippageRate);
    assert price == marketPrice - marketPrice * slippageRate;
    NonNegativeProduct(price, q);
    Share(price * q, commissionRate);
  }

  /** A filled sell adds non-negative net proceeds to cash and sells no
      more than is held. */
  lemma SellKeepsSolvent(s: State, order: Order, price: real, commission: real, ts: int)
    requires Valid(s) && Solvent(s) && order.quantity >= 0.0
    requires 0.0 <= commission <= price * order.quantity
    ensures ExecuteSell(s, order, price, commission, ts).Ok? ==> Solvent(ExecuteSell(s, order, price, commission, ts).value.state)
  {
    var r := ExecuteSell(s, order, price, commission, ts);
    if r.Ok? && r.value.filled {
      SolventLookup(s, order.symbol);
      SolventFromLookups(r.value.state, s, order.symbol);
    }
  }

  /** A filled buy never overdraws cash, and it adds to a long or flat
      position, since a solvent ledger holds no short one. */
  lemma BuyKeepsSolvent(s: State, order: Order, price: real, commission: real, ts: int)
    requires Valid(s) && Solvent(s) && order.quantity >= 0.0
    ensures ExecuteBuy(s, order, price, commission, ts).Ok? ==> Solvent(ExecuteBuy(s, order, price, commission, ts).value.state)
  {
    var r := ExecuteBuy(s, order, price, commission, ts);
    if r.Ok? && r.value.filled {
      if Lookup(s.positions, order.symbol).Some? {
        SolventLookup(s, order.symbol);
      }
      SolventFromLookups(r.value.state, s, order.symbol);
    }
  }

  /** With non-negative prices and quantities and sane rates, no order can
      make cash negative or open a short position: every fill keeps the
      ledger solvent. */
  lemma ExecutePreservesSolvency(s: State, order: Order, marketPrice: real, ts: int)
    requires Valid(s) && Solvent(s) && SaneRates(s)
    requires marketPrice >= 0.0 && order.quantity >= 0.0
    ensures ExecuteOrder(s, order, marketPrice, ts).Ok? ==> Solvent(ExecuteOrder(s, order, marketPrice, ts).value.state)
  {
    var price := ExecutionPrice(order.side, marketPrice, s.slippageRate);
    var commission := Commission(price, order.quantity, s.commissionRate);
    ExecuteOrderRoutes(s, order, marketPrice, ts);
    if order.side == Sell {
      SellCommissionBounded(marketPrice, order.quantity, s.slippageRate, s.commissionRate);
      SellKeepsSolvent(s, order, price, commission, ts);
    } else {
      BuyKeepsSolvent(s, order, price, commission, ts);
    }
  }

  /** An order goes to the buy or the sell path at its execution price and
      commission. */
  lemma ExecuteOrderRoutes(s: State, order: Order, marketPrice: real, ts: int)
    requires Valid(s)
    ensures var price := ExecutionPrice(order.side, marketPrice, s.slippageRate);
      var commission := Commission(price, order.quantity, s.commissionRate);
      ExecuteOrder(s, order, marketPrice, ts) ==
        if order.side == Buy then ExecuteBuy(s, order, price, commission, ts)
        else ExecuteSell(s, order, price, commission, ts)
  {
  }

  /** Appending a position for a symbol not yet held adds its market value
      to the book's value. */
  lemma BookValuePutNew(ps: Book, p: Position)
    requires Find(ps, p.symbol).None?
    ensures BookValue(Put(ps, p)) == BookValue(ps) + MarketValue(p)
  {
    BookValueAppend(ps, p);
  }

  /** The opening path of a buy, as a single equation. */
  lemma OpeningBuyState(s: State, order: Order, price: real, commission: real, ts: int)
    requires Valid(s) && Lookup(s.positions, order.symbol).None?
    requires price * order.quantity + commission <= s.cash
    ensures ExecuteBuy(s, order, price, commission, ts) ==
      Ok(Execution(
        s.(cash := s.cash - (price * order.quantity + commission),
           totalCommission := s.totalCommission + commission,
           positions := Put(s.positions, Position(order.symbol, order.quantity, price, ts, Some(price), None, None))),
        Fill(order, price, commission), true))
  {
  }

  /** Opening a new long position converts cash into an equal market value:
      equity falls by exactly the commission paid. */
  lemma OpeningBuyCostsOnlyCommission(s: State, order: Order, marketPrice: real, ts: int)
    requires Valid(s) && order.side == Buy && order.quantity >= 0.0
    requires Lookup(s.positions, order.symbol).None?
    requires ExecuteOrder(s, order, marketPrice, ts).Ok? && ExecuteOrder(s, order, marketPrice, ts).value.filled
    ensures var e := ExecuteOrder(s, order, marketPrice, ts).value;
      Equity(e.state) == Equity(s) - e.order.commission
  {
    var price := ExecutionPrice(Buy, marketPrice, s.slippageRate);
    var commission := Commission(price, order.quantity, s.commissionRate);
    ExecuteOrderRoutes(s, order, marketPrice, ts);
    var e := ExecuteBuy(s, order, price, commission, ts);
    assert e.Ok? && e.value.filled;
    assert e.value.order.commission == commission;
    OpeningBuyEquity(s, order, price, commission, ts);
  }

  /** The buy path of an opening fill, at any price and commission. */
  lemma OpeningBuyEquity(s: State, order: Order, price: real, commission: real, ts: int)
    requires Valid(s) && order.quantity >= 0.0 && Lookup(s.positions, order.symbol).None?
    requires price * order.quantity + commission <= s.cash
    ensures ExecuteBuy(s, order, price, commission, ts).Ok?
    ensures Equity(ExecuteBuy(s, order, price, commission, ts).value.state) == Equity(s) - commission
  {
    OpeningBuyState(s, order, price, commission, ts);
    var p := Position(order.symbol, order.quantity, price, ts, Some(price), None, None);
    assert Find(s.positions, order.symbol).None?;
    BookValuePutNew(s.positions, p);
    OpenedValue(p);
  }

  /** A position just opened is worth its quantity at its entry price. */
  lemma OpenedValue(p: Position)
    requires p.quantity >= 0.0 && p.currentPrice == Some(p.entryPrice)
    ensures MarketValue(p) == p.entryPrice * p.quantity
  {
    if p.entryPrice == 0.0 {
      assert MarketValue(p) == Abs(p.quantity) * p.entryPrice;
    }
  }

  /** Selling exactly the units held, at a price with a non-zero cost
      basis, fills and closes the position. */
  lemma FullSellCloses(s: State, order: Order, price: real, ts: int)
    requires Valid(s) && Lookup(s.positions, order.symbol).Some?
    requires Lookup(s.positions, order.symbol).value.quantity == order.quantity
    requires Lookup(s.positions, order.symbol).value.entryPrice * Abs(order.quantity) != 0.0
    ensures ExecuteSell(s, order, price, 0.0, ts).Ok? && ExecuteSell(s, order, price, 0.0, ts).value.filled
  {
  }

  /** Without commission or slippage, buying q units at price p and selling
      them at the same price leaves cash unchanged and records one trade
      with zero pnl, and no position remains. */
  lemma RoundTripWithoutCosts(s: State, sym: string, q: real, p: real, t0: int, t1: int)
    requires Valid(s) && s.commissionRate == 0.0 && s.slippageRate == 0.0
    requires Lookup(s.positions, sym).None?
    requires q > 0.0 && p > 0.0 && p * q <= s.cash
    ensures var buy := ExecuteOrder(s, NewOrder(sym, Buy, q, Some(t0), t0), p, t0);
      && buy.Ok? && buy.value.filled
      && var sell := ExecuteOrder(buy.value.state, NewOrder(sym, Sell, q, Some(t1), t1), p, t1);
      && sell.Ok? && sell.value.filled
      && sell.value.state.cash == s.cash
      && Lookup(sell.value.state.positions, sym).None?
      && sell.value.state.closedTrades == s.closedTrades + [sell.value.state.closedTrades[|s.closedTrades|]]
      && sell.value.state.closedTrades[|s.closedTrades|].pnl == 0.0
  {
    var buyOrder := NewOrder(sym, Buy, q, Some(t0), t0);
    assert ExecutionPrice(Buy, p, 0.0) == p && Commission(p, q, 0.0) == 0.0;
    ExecuteOrderRoutes(s, buyOrder, p, t0);
    OpeningBuyState(s, buyOrder, p, 0.0, t0);
    var held := Position(sym, q, p, t0, Some(p), None, None);
    var s1 := ExecuteBuy(s, buyOrder, p, 0.0, t0).value.state;
    PutLookup(s.positions, held);
    assert Lookup(s1.positions, sym) == Some(held);
    var sellOrder := NewOrder(sym, Sell, q, Some(t1), t1);
    assert ExecutionPrice(Sell, p, 0.0) == p;
    ExecuteOrderRoutes(s1, sellOrder, p, t1);
    FullSellCloses(s1, sellOrder, p, t1);
  }

  /** The worked example of a buy and a sell with commission rate 0.001 and
      slippage rate 0.0005: buying 10 units at 100 fills at 100.05, costs a
      commission of 1.0005 and 1001.5005 of cash; selling them at 110 fills
      at 109.945 with a commission of 1.09945, and the trade's pnl charges
      only that closing commission: (109.945 - 100.05) * 10 - 1.09945. */
  lemma WorkedRoundTrip()
    ensures var s := NewPortfolio(10000.0, 0.001, 0.0005);
      var buy := ExecuteOrder(s, NewOrder("TEST", Buy, 10.0, Some(0), 0), 100.0, 0);
      && buy.Ok? && buy.value.filled
      && buy.value.order.filledPrice == Some(100.05)
      && buy.value.order.commission == 1.0005
      && buy.value.state.cash == 10000.0 - 1001.5005
      && var sell := ExecuteOrder(buy.value.state, NewOrder("TEST", Sell, 10.0, Some(60), 60), 110.0, 60);
      && sell.Ok? && sell.value.filled
      && sell.value.order.filledPrice == Some(109.945)
      && sell.value.order.commission == 1.09945
      && |sell.value.state.closedTrades| == 1
      && sell.value.state.closedTrades[0].pnl == 97.85055
      && sell.value.state.totalCommission == 1.0005 + 1.09945
  {
    var s := NewPortfolio(10000.0, 0.001, 0.0005);
    assert ExecutionPrice(Buy, 100.0, 0.0005) == 100.05;
    assert Commission(100.05, 10.0, 0.001) == 1.0005;
    var buy := ExecuteOrder(s, NewOrder("TEST", Buy, 10.0, Some(0), 0), 100.0, 0);
    var held := Position("TEST", 10.0, 100.05, 0, Some(100.05), None, None);
    assert Lookup(buy.value.state.positions, "TEST") == Some(held);
    assert ExecutionPrice(Sell, 110.0, 0.0005) == 109.945;
    assert Commission(109.945, 10.0, 0.001) == 1.09945;
    assert ClosingPnl(held, 109.945, 1.09945) == 97.85055;
  }
}

=== FILE: series.dfy ===
/** Sequence arithmetic shared by the ledger, the metrics and the signal
    generators: sums, means, pandas-style rolling means and counts. */
module Series {
  import opened Wrappers

  /** A trading signal: 1 buy, -1 sell, 0 hold. */
  predicate IsSignal(s: int) {
    -1 <= s <= 1
  }

  /** Sum of a sequence, accumulated from the left. */
  function Sum(xs: seq<real>): real
    decreases |xs|
  {
    if |xs| == 0 then 0.0 else Sum(xs[..|xs| - 1]) + xs[|xs| - 1]
  }

  lemma {:induction false} SumAppend(a: seq<real>, b: seq<real>)
    ensures Sum(a + b) == Sum(a) + Sum(b)
    decreases |b|
  {
    if |b| == 0 {
      assert a + b == a;
    } else {
      assert (a + b)[..|a + b| - 1] == a + b[..|b| - 1];
      SumAppend(a, b[..|b| - 1]);
    }
  }

  /** Every element non-negative makes the sum non-negative. */
  lemma {:induction false} SumNonNegative(xs: seq<real>)
    requires forall i :: 0 <= i < |xs| ==> xs[i] >= 0.0
    ensures Sum(xs) >= 0.0
    decreases |xs|
  {
    if |xs| > 0 {
      SumNonNegative(xs[..|xs| - 1]);
    }
  }

  /** Arithmetic mean (numpy's `mean` of a non-empty sequence). */
  function Mean(xs: seq<real>): real
    requires |xs| > 0
  {
    Sum(xs) / (|xs| as real)
  }

  /** pandas `rolling(window=w).mean()` at row i: undefined (NaN) until w
      values are available, then the mean of the last w values. A zero
      window holds no values, so its mean is NaN on every row. */
  function RollingMean(xs: seq<real>, w: nat, i: nat): (r: Option<real>)
    requires i < |xs|
    ensures r.None? <==> w == 0 || i + 1 < w
  {
    if w == 0 || i + 1 < w then None else Some(Mean(xs[i + 1 - w..i + 1]))
  }

  /** pandas `rolling(window=w, min_periods=1).mean()` at row i: the mean of
      the last w values, or of all values so far when fewer exist. */
  function RollingMeanFrom1(xs: seq<real>, w: nat, i: nat): real
    requires w >= 1 && i < |xs|
  {
    var start := if i + 1 < w then 0 else i + 1 - w;
    Mean(xs[start..i + 1])
  }

  /** Number of non-zero signals. */
  function CountNonZero(s: seq<int>): nat
    decreases |s|
  {
    if |s| == 0 then 0 else CountNonZero(s[..|s| - 1]) + (if s[|s| - 1] != 0 then 1 else 0)
  }

  /** A sequence that is non-zero wherever another is has at least as many
      non-zero entries. */
  lemma {:induction false} CountNonZeroMonotone(a: seq<int>, b: seq<int>)
    requires |a| == |b|
    requires forall i :: 0 <= i < |a| && a[i] != 0 ==> b[i] != 0
    ensures CountNonZero(a) <= CountNonZero(b)
    decreases |a|
  {
    if |a| > 0 {
      CountNonZeroMonotone(a[..|a| - 1], b[..|b| - 1]);
    }
  }
}

=== FILE: validator.dfy ===
/** The market-data quality checker and cleaner. A table is a set of column
    names plus records whose fields may be missing (pandas' NaN / NaT). */
module Validator {
  import opened Wrappers

  /** One row of market data; `None` is a missing value. */
  datatype Record = Record(
    timestamp: Option<int>, open: Option<real>, high: Option<real>,
    low: Option<real>, close: Option<real>, volume: Option<real>)

  /** The input of `validate`: column names, which of them have a numeric
      type, whether the timestamp column converts to datetimes, and rows. */
  datatype Table = Table(columns: set<string>, numeric: set<string>, timestampsParse: bool, rows: seq<Record>)

  const Required: set<string> := {"timestamp", "open", "high", "low", "close", "volume"}

  /** The numeric columns, in the order the checks visit them. */
  const NumericColumns: seq<string> := ["open", "high", "low", "close", "volume"]

  /** The price columns, in the order the checks visit them. */
  const PriceColumns: seq<string> := ["open", "high", "low", "close"]

  /** What `validate` reports, one constructor per message it can produce. */
  datatype Warning =
    | EmptyData
    | MissingColumns(missing: set<string>)
    | TimestampUnparseable
    | NotNumeric(column: string)
    | NullValues
    | NegativeValues(column: string)
    | HighBelowLow
    | CloseOutsideRange(count: nat)
    | Unsorted
    | DuplicateTimestamps(count: nat)

  /** The value of a numeric column in a record. */
  function Field(r: Record, column: string): Option<real> {
    if column == "open" then r.open
    else if column == "high" then r.high
    else if column == "low" then r.low
    else if column == "close" then r.close
    else r.volume
  }

  // ----- counting -----

  /** The record-level checks of `validate`. */
  datatype Check = NullCheck | NegativeCheck(column: string) | HighLowCheck | CloseRangeCheck

  /** Whether record `r` fails check `c`. */
  predicate Fails(c: Check, r: Record) {
    match c
    case NullCheck => HasNull(r)
    case NegativeCheck(column) => Negative(Field(r, column))
    case HighLowCheck => HighUnderLow(r)
    case CloseRangeCheck => CloseOutside(r)
  }

  /** Number of records failing `c`. */
  function Count(rows: seq<Record>, c: Check): (n: nat)
    ensures n <= |rows|
  {
    if |rows| == 0 then 0 else Count(rows[..|rows| - 1], c) + (if Fails(c, rows[|rows| - 1]) then 1 else 0)
  }

  lemma {:induction false} CountPositive(rows: seq<Record>, c: Check)
    ensures Count(rows, c) > 0 <==> exists i :: 0 <= i < |rows| && Fails(c, rows[i])
  {
    if |rows| > 0 {
      var init := rows[..|rows| - 1];
      CountPositive(init, c);
      assert forall i :: 0 <= i < |init| ==> init[i] == rows[i];
      if Fails(c, rows[|rows| - 1]) {
      } else if exists i :: 0 <= i < |rows| && Fails(c, rows[i]) {
        var i :| 0 <= i < |rows| && Fails(c, rows[i]);
        assert i < |init| && Fails(c, init[i]);
      }
    }
  }

  /** Number of positions whose value already occurred earlier
      (`Series.duplicated().sum()`). */
  function Duplicated<T(==)>(xs: seq<T>): (n: nat)
    ensures n <= |xs|
  {
    if |xs| == 0 then 0
    else Duplicated(xs[..|xs| - 1]) + (if xs[|xs| - 1] in xs[..|xs| - 1] then 1 else 0)
  }

  /** Pairwise different. */
  predicate Distinct<T(==)>(xs: seq<T>) {
    forall i, j :: 0 <= i < j < |xs| ==> xs[i] != xs[j]
  }

  lemma {:induction false} DuplicatedZero<T>(xs: seq<T>)
    ensures Duplicated(xs) == 0 <==> Distinct(xs)
  {
    if |xs| > 0 {
      var init := xs[..|xs| - 1];
      var last := xs[|xs| - 1];
      DuplicatedZero(init);
      assert forall i :: 0 <= i < |init| ==> init[i] == xs[i];
      if Distinct(xs) {
        forall i | 0 <= i < |init| ensures init[i] != last {
          assert init[i] == xs[i];
        }
      }
      if Duplicated(xs) == 0 {
        forall i, j | 0 <= i < j < |xs| ensures xs[i] != xs[j] {
          if j == |xs| - 1 {
            assert xs[i] == init[i];
          } else {
            assert xs[i] == init[i] && xs[j] == init[j];
          }
        }
      }
    }
  }

  function Timestamps(rows: seq<Record>): (ts: seq<Option<int>>)
    ensures |ts| == |rows| && forall i :: 0 <= i < |rows| ==> ts[i] == rows[i].timestamp
  {
    seq(|rows|, i requires 0 <= i < |rows| => rows[i].timestamp)
  }

  // ----- the record-level conditions -----

  predicate HasNull(r: Record) {
    r.timestamp.None? || r.open.None? || r.high.None? || r.low.None? || r.close.None? || r.volume.None?
  }

  /** A present value below 0 (a missing value compares false). */
  predicate Negative(v: Option<real>) {
    v.Some? && v.value < 0.0
  }

  predicate HighUnderLow(r: Record) {
    r.high.Some? && r.low.Some? && r.high.value < r.low.value
  }

  predicate CloseOutside(r: Record) {
    r.close.Some? &&
    ((r.low.Some? && r.close.value < r.low.value) || (r.high.Some? && r.close.value > r.high.value))
  }

  /** `is_monotonic_increasing`: every timestamp present and none smaller
      than the one before. */
  predicate TimestampsIncreasing(rows: seq<Record>) {
    && (forall i :: 0 <= i < |rows| ==> rows[i].timestamp.Some?)
    && (forall i :: 0 < i < |rows| ==> rows[i - 1].timestamp.value <= rows[i].timestamp.value)
  }

  // ----- validate -----

  /** The record-level checks, in the order `validate` runs them. */
  const RecordChecks: seq<Check> :=
    [NullCheck, NegativeCheck("open"), NegativeCheck("high"), NegativeCheck("low"), NegativeCheck("close"),
     HighLowCheck, CloseRangeCheck]

  /** The warning a failed record check produces. */
  function CheckWarning(rows: seq<Record>, c: Check): Warning {
    match c
    case NullCheck => NullValues
    case NegativeCheck(column) => NegativeValues(column)
    case HighLowCheck => HighBelowLow
    case CloseRangeCheck => CloseOutsideRange(Count(rows, CloseRangeCheck))
  }

  /** One warning per check that some record fails, in check order. */
  function RecordWarnings(rows: seq<Record>, checks: seq<Check>): seq<Warning> {
    if |checks| == 0 then []
    else (if Count(rows, checks[0]) > 0 then [CheckWarning(rows, checks[0])] else [])
         + RecordWarnings(rows, checks[1..])
  }

  /** The two timestamp checks. */
  function TimestampWarnings(rows: seq<Record>): seq<Warning> {
    (if !TimestampsIncreasing(rows) then [Unsorted] else [])
    + (if Duplicated(Timestamps(rows)) > 0 then [DuplicateTimestamps(Duplicated(Timestamps(rows)))] else [])
  }

  /** Warnings from the value checks (nulls through duplicates), in the
      order the checks run. */
  function ValueWarnings(rows: seq<Record>): seq<Warning> {
    RecordWarnings(rows, RecordChecks) + TimestampWarnings(rows)
  }

  /** The numeric columns lacking a numeric type, in visiting order. */
  function NonNumeric(t: Table, columns: seq<string>): (r: seq<string>)
    ensures forall c :: c in r <==> c in columns && c !in t.numeric
  {
    if |columns| == 0 then []
    else (if columns[0] !in t.numeric then [columns[0]] else []) + NonNumeric(t, columns[1..])
  }

  /** A check that ends validation: raised in strict mode, else reported
      alone. */
  function Fatal(w: Warning, strict: bool): (r: Outcome<(bool, seq<Warning>)>)
    ensures strict ==> r.Err? && r.error.ValueError?
    ensures !strict ==> r == Ok((false, [w]))
  {
    if strict then Err(ValueError("invalid market data")) else Ok((false, [w]))
  }

  /** `DataValidator.validate`. */
  function Validate(t: Table, strict: bool): (r: Outcome<(bool, seq<Warning>)>)
    // the fatal checks, in order
    ensures |t.rows| == 0 || |t.columns| == 0 ==> r == Fatal(EmptyData, strict)
    ensures |t.rows| > 0 && |t.columns| > 0 && !(Required <= t.columns) ==>
      r == Fatal(MissingColumns(Required - t.columns), strict)
    ensures |t.rows| > 0 && |t.columns| > 0 && Required <= t.columns && !t.timestampsParse ==>
      r == Fatal(TimestampUnparseable, strict)
    // a non-numeric column raises in strict mode; otherwise a price column
    // without a numeric type is taken as one that cannot be compared with 0
    ensures r.Err? ==> strict || r.error.TypeError?
    ensures r.Err? && r.error.TypeError? ==> r.error.column in PriceColumns && r.error.column !in t.numeric
    // valid exactly when nothing is reported
    ensures r.Ok? ==> (r.value.0 <==> |r.value.1| == 0)
    ensures r.Ok? && |t.rows| > 0 && |t.columns| > 0 && Required <= t.columns && t.timestampsParse ==>
      && (forall c :: c in PriceColumns ==> c in t.numeric)
      && (strict ==> "volume" in t.numeric)
      && r.value.1 == (if "volume" in t.numeric then [] else [NotNumeric("volume")]) + ValueWarnings(t.rows)
  {
    if |t.rows| == 0 || |t.columns| == 0 then Fatal(EmptyData, strict)
    else if !(Required <= t.columns) then Fatal(MissingColumns(Required - t.columns), strict)
    else if !t.timestampsParse then Fatal(TimestampUnparseable, strict)
    else
      var nonNumeric := NonNumeric(t, NumericColumns);
      if strict && |nonNumeric| > 0 then Err(ValueError("column is not numeric"))
      else
        var badPrices := NonNumeric(t, PriceColumns);
        if |badPrices| > 0 then
          assert badPrices[0] in badPrices;
          Err(TypeError(badPrices[0]))
        else
          assert forall c :: c in nonNumeric <==> c == "volume" && c !in t.numeric;
          var notNumeric := if "volume" in t.numeric then [] else [NotNumeric("volume")];
          assert |nonNumeric| > 0 ==> nonNumeric[0] in nonNumeric;
          assert "volume" !in t.numeric ==> "volume" in nonNumeric;
          var ws := notNumeric + ValueWarnings(t.rows);
          Ok((|ws| == 0, ws))
  }

  /** A check's warning is listed exactly when some record fails it. */
  lemma {:induction false} RecordWarningsExact(rows: seq<Record>, checks: seq<Check>, c: Check)
    requires c in checks
    ensures CheckWarning(rows, c) in RecordWarnings(rows, checks) <==> exists i :: 0 <= i < |rows| && Fails(c, rows[i])
  {
    CountPositive(rows, c);
    if checks[0] != c {
      assert CheckWarning(rows, checks[0]) != CheckWarning(rows, c);
      RecordWarningsExact(rows, checks[1..], c);
    } else if c in checks[1..] {
      RecordWarningsExact(rows, checks[1..], c);
    } else {
      RecordWarningsFrom(rows, checks[1..], c);
    }
  }

  /** Only the listed checks produce warnings. */
  lemma {:induction false} RecordWarningsFrom(rows: seq<Record>, checks: seq<Check>, c: Check)
    requires c !in checks
    ensures CheckWarning(rows, c) !in RecordWarnings(rows, checks)
  {
    if |checks| > 0 {
      assert CheckWarning(rows, checks[0]) != CheckWarning(rows, c);
      RecordWarningsFrom(rows, checks[1..], c);
    }
  }

  /** No record warning exactly when no record fails any check. */
  lemma {:induction false} RecordWarningsEmpty(rows: seq<Record>, checks: seq<Check>)
    ensures RecordWarnings(rows, checks) == [] <==>
      forall k, i :: 0 <= k < |checks| && 0 <= i < |rows| ==> !Fails(checks[k], rows[i])
  {
    if |checks| > 0 {
      CountPositive(rows, checks[0]);
      RecordWarningsEmpty(rows, checks[1..]);
      assert forall k :: 1 <= k < |checks| ==> checks[k] == checks[1..][k - 1];
    }
  }

  /** Each record-level warning appears exactly when some record violates
      its condition. */
  lemma WarnsOnRecord(rows: seq<Record>, c: Check)
    requires c in RecordChecks
    ensures CheckWarning(rows, c) in ValueWarnings(rows) <==> exists i :: 0 <= i < |rows| && Fails(c, rows[i])
  {
    RecordWarningsExact(rows, RecordChecks, c);
  }

  /** Unsorted and duplicate timestamps are reported exactly when present. */
  lemma WarnsOnTimestamps(rows: seq<Record>)
    ensures Unsorted in ValueWarnings(rows) <==> !TimestampsIncreasing(rows)
    ensures (exists n :: DuplicateTimestamps(n) in ValueWarnings(rows)) <==> !Distinct(Timestamps(rows))
  {
    DuplicatedZero(Timestamps(rows));
    RecordWarningsNoTimestamp(rows, RecordChecks);
    if !Distinct(Timestamps(rows)) {
      assert DuplicateTimestamps(Duplicated(Timestamps(rows))) in TimestampWarnings(rows);
    }
  }

  lemma {:induction false} RecordWarningsNoTimestamp(rows: seq<Record>, checks: seq<Check>)
    ensures forall w :: w in RecordWarnings(rows, checks) ==> !w.Unsorted? && !w.DuplicateTimestamps?
  {
    if |checks| > 0 {
      RecordWarningsNoTimestamp(rows, checks[1..]);
    }
  }

  /** Clean data: no value warning at all exactly when no record fails a
      check and the timestamps are increasing and distinct. */
  lemma NoWarningsExactly(rows: seq<Record>)
    ensures ValueWarnings(rows) == [] <==>
      && (forall k, i :: 0 <= k < |RecordChecks| && 0 <= i < |rows| ==> !Fails(RecordChecks[k], rows[i]))
      && TimestampsIncreasing(rows) && Distinct(Timestamps(rows))
  {
    DuplicatedZero(Timestamps(rows));
    RecordWarningsEmpty(rows, RecordChecks);
  }

  // ----- clean -----

  /** Index of the first record with timestamp `t`. */
  function FirstWith(rows: seq<Record>, t: Option<int>): (k: nat)
    requires t in Timestamps(rows)
    ensures k < |rows| && rows[k].timestamp == t
    ensures forall i :: 0 <= i < k ==> rows[i].timestamp != t
  {
    if rows[0].timestamp == t then 0
    else
      assert t in Timestamps(rows[1..]) by {
        var i :| 0 <= i < |rows| && Timestamps(rows)[i] == t;
        assert Timestamps(rows[1..])[i - 1] == t;
      }
      FirstWith(rows[1..], t) + 1
  }

  /** `drop_duplicates(subset=["timestamp"], keep="first")`. */
  function Dedup(rows: seq<Record>): (r: seq<Record>)
    ensures |r| <= |rows|
    ensures forall t :: t in Timestamps(r) <==> t in Timestamps(rows)
    ensures Distinct(Timestamps(r))
  {
    if |rows| == 0 then []
    else
      var init := rows[..|rows| - 1];
      var last := rows[|rows| - 1];
      var kept := Dedup(init);
      assert rows == init + [last];
      TimestampsSnoc(init, last);
      if last.timestamp in Timestamps(init) then kept
      else
        TimestampsSnoc(kept, last);
        DistinctSnoc(Timestamps(kept), last.timestamp);
        kept + [last]
  }

  lemma TimestampsSnoc(rows: seq<Record>, x: Record)
    ensures Timestamps(rows + [x]) == Timestamps(rows) + [x.timestamp]
  {
  }

  /** A value not yet present keeps a distinct sequence distinct. */
  lemma DistinctSnoc<T>(xs: seq<T>, x: T)
    requires Distinct(xs) && x !in xs
    ensures Distinct(xs + [x])
  {
    var ys := xs + [x];
    forall i, j | 0 <= i < j < |ys| ensures ys[i] != ys[j] {
      if j == |xs| {
        assert ys[i] == xs[i];
      } else {
        assert ys[i] == xs[i] && ys[j] == xs[j];
      }
    }
  }

  /** Every record `Dedup` keeps is the first one with its timestamp. */
  lemma {:induction false} DedupKeepsFirst(rows: seq<Record>)
    ensures forall i :: 0 <= i < |Dedup(rows)| ==>
      Dedup(rows)[i].timestamp in Timestamps(rows) &&
      Dedup(rows)[i] == rows[FirstWith(rows, Dedup(rows)[i].timestamp)]
  {
    if |rows| > 0 {
      var init := rows[..|rows| - 1];
      var last := rows[|rows| - 1];
      DedupKeepsFirst(init);
      assert forall i :: 0 <= i < |init| ==> init[i] == rows[i];
      assert forall t :: t in Timestamps(init) ==> t in Timestamps(rows) && FirstWith(rows, t) == FirstWith(init, t) by {
        forall t | t in Timestamps(init) ensures t in Timestamps(rows) && FirstWith(rows, t) == FirstWith(init, t) {
          var k := FirstWith(init, t);
          assert Timestamps(rows)[k] == t;
          var k' := FirstWith(rows, t);
          assert k' <= k;
          assert k' < |init| && init[k'].timestamp == t;
        }
      }
      if last.timestamp !in Timestamps(init) {
        assert Timestamps(rows)[|rows| - 1] == last.timestamp;
        var k := FirstWith(rows, last.timestamp);
        assert k == |rows| - 1;
      }
    }
  }

  /** pandas' order on timestamps: missing values sort last. */
  predicate TimeLe(a: Option<int>, b: Option<int>) {
    b.None? || (a.Some? && a.value <= b.value)
  }

  predicate SortedByTime(rows: seq<Record>) {
    forall i, j :: 0 <= i < j < |rows| ==> TimeLe(rows[i].timestamp, rows[j].timestamp)
  }

  function Insert(x: Record, rows: seq<Record>): (r: seq<Record>)
    requires SortedByTime(rows)
    ensures |r| == |rows| + 1
    ensures SortedByTime(r)
    ensures multiset(r) == multiset(rows) + multiset{x}
  {
    if |rows| == 0 then [x]
    else if TimeLe(x.timestamp, rows[0].timestamp) then [x] + rows
    else
      var tail := rows[1..];
      var rest := Insert(x, tail);
      assert rows == [rows[0]] + tail;
      assert forall k :: 0 <= k < |tail| ==> TimeLe(rows[0].timestamp, tail[k].timestamp) by {
        forall k | 0 <= k < |tail| ensures TimeLe(rows[0].timestamp, tail[k].timestamp) {
          assert tail[k] == rows[k + 1];
        }
      }
      LowerBoundKept(tail, x, rest, rows[0].timestamp);
      ConsSorted(rows[0], rest);
      assert multiset(rows) == multiset{rows[0]} + multiset(tail);
      [rows[0]] + rest
  }

  /** A record at or before every record of a sorted run may lead it. */
  lemma ConsSorted(h: Record, rest: seq<Record>)
    requires SortedByTime(rest)
    requires forall j :: 0 <= j < |rest| ==> TimeLe(h.timestamp, rest[j].timestamp)
    ensures SortedByTime([h] + rest)
  {
    var r := [h] + rest;
    forall i, j | 0 <= i < j < |r| ensures TimeLe(r[i].timestamp, r[j].timestamp) {
      assert r[j] == rest[j - 1];
      if i > 0 {
        assert r[i] == rest[i - 1];
      }
    }
  }

  /** A time at or before every record of `a` and before `x` is at or
      before every record of a rearrangement of `a` with `x` added. */
  lemma LowerBoundKept(a: seq<Record>, x: Record, b: seq<Record>, t: Option<int>)
    requires multiset(b) == multiset(a) + multiset{x}
    requires forall k :: 0 <= k < |a| ==> TimeLe(t, a[k].timestamp)
    requires TimeLe(t, x.timestamp)
    ensures forall j :: 0 <= j < |b| ==> TimeLe(t, b[j].timestamp)
  {
    forall j | 0 <= j < |b| ensures TimeLe(t, b[j].timestamp) {
      assert b[j] in multiset(b);
      if b[j] != x {
        assert b[j] in multiset(a);
        var k :| 0 <= k < |a| && a[k] == b[j];
      }
    }
  }

  /** `sort_values("timestamp")`. The keys are distinct once duplicates are
      dropped, so the order is the same whatever sort algorithm runs. */
  function SortByTime(rows: seq<Record>): (r: seq<Record>)
    ensures |r| == |rows|
    ensures SortedByTime(r)
    ensures multiset(r) == multiset(rows)
  {
    if |rows| == 0 then []
    else
      assert rows == [rows[0]] + rows[1..];
      Insert(rows[0], SortByTime(rows[1..]))
  }

  /** With distinct timestamps no record occurs twice. */
  lemma {:induction false} DistinctOnce(a: seq<Record>, y: Record)
    requires Distinct(Timestamps(a))
    ensures multiset(a)[y] <= 1
  {
    if |a| > 0 {
      var init := a[..|a| - 1];
      assert a == init + [a[|a| - 1]];
      assert Distinct(Timestamps(init)) by {
        assert forall i :: 0 <= i < |init| ==> Timestamps(init)[i] == Timestamps(a)[i];
      }
      DistinctOnce(init, y);
      if y == a[|a| - 1] {
        assert y !in init by {
          forall i | 0 <= i < |init| ensures init[i] != y {
            assert Timestamps(a)[i] != Timestamps(a)[|a| - 1];
          }
        }
      }
    }
  }

  /** A record at two positions occurs at least twice. */
  lemma TwiceCounted(b: seq<Record>, i: nat, j: nat)
    requires i < j < |b| && b[i] == b[j]
    ensures multiset(b)[b[i]] >= 2
  {
    assert b == b[..j] + [b[j]] + b[j + 1..];
    assert b[i] in b[..j];
    assert multiset(b) == multiset(b[..j]) + multiset{b[j]} + multiset(b[j + 1..]);
  }

  /** Rearranging records keeps their timestamps distinct. */
  lemma PermutationKeepsDistinct(a: seq<Record>, b: seq<Record>)
    requires multiset(a) == multiset(b) && Distinct(Timestamps(a))
    ensures Distinct(Timestamps(b))
  {
    forall i, j | 0 <= i < j < |b| ensures Timestamps(b)[i] != Timestamps(b)[j] {
      if b[i] == b[j] {
        TwiceCounted(b, i, j);
        DistinctOnce(a, b[i]);
      } else {
        assert b[i] in multiset(a) && b[j] in multiset(a);
        var p :| 0 <= p < |a| && a[p] == b[i];
        var q :| 0 <= q < |a| && a[q] == b[j];
        assert Timestamps(a)[p] == b[i].timestamp && Timestamps(a)[q] == b[j].timestamp;
      }
    }
  }

  /** Rearranging records keeps their set of timestamps. */
  lemma PermutationKeepsTimestamps(a: seq<Record>, b: seq<Record>, t: Option<int>)
    requires multiset(a) == multiset(b)
    ensures t in Timestamps(a) <==> t in Timestamps(b)
  {
    if t in Timestamps(a) {
      var p :| 0 <= p < |a| && Timestamps(a)[p] == t;
      assert a[p] in multiset(b);
      var q :| 0 <= q < |b| && b[q] == a[p];
      assert Timestamps(b)[q] == t;
    }
    if t in Timestamps(b) {
      var q :| 0 <= q < |b| && Timestamps(b)[q] == t;
      assert b[q] in multiset(a);
      var p :| 0 <= p < |a| && a[p] == b[q];
      assert Timestamps(a)[p] == t;
    }
  }

  /** `ffill` of one column: a missing value takes the latest value above
      it; the ones before any value stay missing. */
  function FillForward<T>(col: seq<Option<T>>): (r: seq<Option<T>>)
    ensures |r| == |col|
    ensures forall i :: 0 <= i < |col| && col[i].Some? ==> r[i] == col[i]
    ensures forall i :: 0 <= i < |col| && r[i].Some? ==> r[i] in col
  {
    if |col| == 0 then []
    else
      var init := col[..|col| - 1];
      var p := FillForward(init);
      var last := if col[|col| - 1].Some? then col[|col| - 1] else if |p| > 0 then p[|p| - 1] else None;
      assert forall i :: 0 <= i < |init| ==> init[i] == col[i];
      assert forall x :: x in init ==> x in col;
      p + [last]
  }

  /** `bfill` of one column: a missing value takes the earliest value below
      it; the ones after every value stay missing. */
  function FillBackward<T>(col: seq<Option<T>>): (r: seq<Option<T>>)
    ensures |r| == |col|
    ensures forall i :: 0 <= i < |col| && col[i].Some? ==> r[i] == col[i]
    ensures forall i :: 0 <= i < |col| && r[i].Some? ==> r[i] in col
  {
    if |col| == 0 then []
    else
      var tail := col[1..];
      var q := FillBackward(tail);
      var first := if col[0].Some? then col[0] else if |q| > 0 then q[0] else None;
      assert forall i :: 0 <= i < |tail| ==> tail[i] == col[i + 1];
      assert forall x :: x in tail ==> x in col;
      [first] + q
  }

  /** The forward fill of row `i` is the latest value at or above it. */
  lemma {:induction false} ForwardLatest<T>(col: seq<Option<T>>, k: nat, i: nat)
    requires k <= i < |col| && col[k].Some?
    requires forall j :: k < j <= i ==> col[j].None?
    ensures FillForward(col)[i] == col[k]
    decreases |col|
  {
    var init := col[..|col| - 1];
    assert forall j :: 0 <= j < |init| ==> init[j] == col[j];
    if i < |col| - 1 {
      ForwardLatest(init, k, i);
    } else if k < i {
      ForwardLatest(init, k, i - 1);
    }
  }

  /** The backward fill of row `i` is the earliest value at or below it. */
  lemma {:induction false} BackwardEarliest<T>(col: seq<Option<T>>, k: nat, i: nat)
    requires i <= k < |col| && col[k].Some?
    requires forall j :: i <= j < k ==> col[j].None?
    ensures FillBackward(col)[i] == col[k]
    decreases |col|
  {
    var tail := col[1..];
    assert forall j :: 0 <= j < |tail| ==> tail[j] == col[j + 1];
    if i > 0 {
      BackwardEarliest(tail, k - 1, i - 1);
    } else if k > 0 {
      BackwardEarliest(tail, k - 1, 0);
    }
  }

  /** A value somewhere above reaches every row below it. */
  lemma {:induction false} ForwardReaches<T>(col: seq<Option<T>>, k: nat, i: nat)
    requires k <= i < |col| && col[k].Some?
    ensures FillForward(col)[i].Some?
    decreases i - k
  {
    if col[i].None? && k < i {
      ForwardReaches(col, k, i - 1);
      var c := col[..i + 1];
      ForwardPrefix(col, i + 1);
      ForwardPrefix(col, i);
      assert c[..|c| - 1] == col[..i];
      var p := FillForward(col[..i]);
      assert p[i - 1] == FillForward(col)[i - 1];
      assert FillForward(c)[i] == p[i - 1];
      assert FillForward(col)[i] == FillForward(c)[i];
    }
  }

  /** Forward filling a prefix fills the same prefix. */
  lemma {:induction false} ForwardPrefix<T>(col: seq<Option<T>>, m: nat)
    requires m <= |col|
    ensures FillForward(col)[..m] == FillForward(col[..m])
    decreases |col|
  {
    if m < |col| {
      var init := col[..|col| - 1];
      assert init[..m] == col[..m];
      ForwardPrefix(init, m);
    } else {
      assert col[..m] == col;
    }
  }

  /** A value somewhere below reaches every row above it. */
  lemma {:induction false} BackwardReaches<T>(col: seq<Option<T>>, k: nat, i: nat)
    requires i <= k < |col| && col[k].Some?
    ensures FillBackward(col)[i].Some?
    decreases |col|
  {
    var tail := col[1..];
    assert forall j :: 0 <= j < |tail| ==> tail[j] == col[j + 1];
    if i > 0 {
      BackwardReaches(tail, k - 1, i - 1);
    } else if k > 0 {
      BackwardReaches(tail, k - 1, 0);
    }
  }

  /** `ffill().bfill()` of one column. */
  function Fill<T>(col: seq<Option<T>>): (r: seq<Option<T>>)
    ensures |r| == |col|
    ensures forall i :: 0 <= i < |col| && col[i].Some? ==> r[i] == col[i]
    ensures forall i :: 0 <= i < |col| && r[i].Some? ==> r[i] in col
  {
    var f := FillForward(col);
    var r := FillBackward(f);
    assert forall i :: 0 <= i < |col| && r[i].Some? ==> r[i] in col by {
      forall i | 0 <= i < |col| && r[i].Some? ensures r[i] in col {
        var j :| 0 <= j < |f| && f[j] == r[i];
        assert f[j].Some?;
      }
    }
    r
  }

  /** A column with at least one value has none missing after filling. */
  lemma FillComplete<T>(col: seq<Option<T>>, k: nat)
    requires k < |col| && col[k].Some?
    ensures forall i :: 0 <= i < |col| ==> Fill(col)[i].Some?
  {
    var f := FillForward(col);
    forall i | 0 <= i < |col| ensures Fill(col)[i].Some? {
      if i >= k {
        ForwardReaches(col, k, i);
      } else {
        BackwardReaches(f, k, i);
      }
    }
  }

  /** The columns of the table, each as a sequence of optional values. */
  function OpenColumn(rows: seq<Record>): (col: seq<Option<real>>)
    ensures |col| == |rows| && forall i :: 0 <= i < |rows| ==> col[i] == rows[i].open
  {
    seq(|rows|, i requires 0 <= i < |rows| => rows[i].open)
  }

  function HighColumn(rows: seq<Record>): (col: seq<Option<real>>)
    ensures |col| == |rows| && forall i :: 0 <= i < |rows| ==> col[i] == rows[i].high
  {
    seq(|rows|, i requires 0 <= i < |rows| => rows[i].high)
  }

  function LowColumn(rows: seq<Record>): (col: seq<Option<real>>)
    ensures |col| == |rows| && forall i :: 0 <= i < |rows| ==> col[i] == rows[i].low
  {
    seq(|rows|, i requires 0 <= i < |rows| => rows[i].low)
  }

  function CloseColumn(rows: seq<Record>): (col: seq<Option<real>>)
    ensures |col| == |rows| && forall i :: 0 <= i < |rows| ==> col[i] == rows[i].close
  {
    seq(|rows|, i requires 0 <= i < |rows| => rows[i].close)
  }

  function VolumeColumn(rows: seq<Record>): (col: seq<Option<real>>)
    ensures |col| == |rows| && forall i :: 0 <= i < |rows| ==> col[i] == rows[i].volume
  {
    seq(|rows|, i requires 0 <= i < |rows| => rows[i].volume)
  }

  /** Some value present in the column. */
  predicate SomeValue<T>(col: seq<Option<T>>) {
    exists i :: 0 <= i < |col| && col[i].Some?
  }

  /** Every column has at least one value. */
  predicate EachColumnHasValue(rows: seq<Record>) {
    && SomeValue(Timestamps(rows)) && SomeValue(OpenColumn(rows)) && SomeValue(HighColumn(rows))
    && SomeValue(LowColumn(rows)) && SomeValue(CloseColumn(rows)) && SomeValue(VolumeColumn(rows))
  }

  /** `ffill().bfill()` over every column of the table. */
  function FillRows(rows: seq<Record>): (r: seq<Record>)
    ensures |r| == |rows|
    ensures forall i :: 0 <= i < |rows| && !HasNull(rows[i]) ==> r[i] == rows[i]
    ensures forall i :: 0 <= i < |rows| && rows[i].timestamp.Some? ==> r[i].timestamp == rows[i].timestamp
  {
    var ts := Fill(Timestamps(rows));
    var op := Fill(OpenColumn(rows));
    var hi := Fill(HighColumn(rows));
    var lo := Fill(LowColumn(rows));
    var cl := Fill(CloseColumn(rows));
    var vo := Fill(VolumeColumn(rows));
    seq(|rows|, i requires 0 <= i < |rows| => Record(ts[i], op[i], hi[i], lo[i], cl[i], vo[i]))
  }

  lemma ColumnComplete<T>(col: seq<Option<T>>)
    requires SomeValue(col)
    ensures forall i :: 0 <= i < |col| ==> Fill(col)[i].Some?
  {
    var k :| 0 <= k < |col| && col[k].Some?;
    FillComplete(col, k);
  }

  /** After filling, no value is missing when every column had one. */
  lemma FillRowsComplete(rows: seq<Record>)
    requires EachColumnHasValue(rows)
    ensures forall i :: 0 <= i < |rows| ==> !HasNull(FillRows(rows)[i])
  {
    ColumnComplete(Timestamps(rows));
    ColumnComplete(OpenColumn(rows));
    ColumnComplete(HighColumn(rows));
    ColumnComplete(LowColumn(rows));
    ColumnComplete(CloseColumn(rows));
    ColumnComplete(VolumeColumn(rows));
  }

  /** A negative open, high, low or close (the rows `clean` drops). */
  predicate NegativePrice(r: Record) {
    Negative(r.open) || Negative(r.high) || Negative(r.low) || Negative(r.close)
  }

  /** `df[~negative_mask]`: keeps the records without a negative price, in order. */
  function DropNegative(rows: seq<Record>): (r: seq<Record>)
    ensures |r| <= |rows|
    ensures forall i :: 0 <= i < |r| ==> !NegativePrice(r[i]) && r[i] in rows
    ensures forall x :: x in rows && !NegativePrice(x) ==> x in r
  {
    if |rows| == 0 then []
    else
      var init := rows[..|rows| - 1];
      var last := rows[|rows| - 1];
      assert rows == init + [last];
      var kept := DropNegative(init);
      if NegativePrice(last) then kept else kept + [last]
  }

  /** Nothing is dropped when no price is negative. */
  lemma {:induction false} DropNegativeIdle(rows: seq<Record>)
    requires forall i :: 0 <= i < |rows| ==> !NegativePrice(rows[i])
    ensures DropNegative(rows) == rows
  {
    if |rows| > 0 {
      var init := rows[..|rows| - 1];
      assert rows == init + [rows[|rows| - 1]];
      DropNegativeIdle(init);
    }
  }

  /** Every timestamp present and strictly increasing. */
  predicate StrictlyIncreasing(rows: seq<Record>) {
    && (forall i :: 0 <= i < |rows| ==> rows[i].timestamp.Some?)
    && (forall i, j :: 0 <= i < j < |rows| ==> rows[i].timestamp.value < rows[j].timestamp.value)
  }

  /** Dropping records keeps the survivors in time order. */
  lemma {:induction false} DropKeepsOrder(rows: seq<Record>)
    requires StrictlyIncreasing(rows)
    ensures StrictlyIncreasing(DropNegative(rows))
  {
    if |rows| > 0 {
      var init := rows[..|rows| - 1];
      var last := rows[|rows| - 1];
      assert rows == init + [last];
      DropKeepsOrder(init);
      var kept := DropNegative(init);
      if !NegativePrice(last) {
        var r := kept + [last];
        assert forall i :: 0 <= i < |r| ==> r[i].timestamp.Some? by {
          forall i | 0 <= i < |r| ensures r[i].timestamp.Some? {
            if i < |kept| {
              assert r[i] == kept[i];
            }
          }
        }
        forall i, j | 0 <= i < j < |r| ensures r[i].timestamp.value < r[j].timestamp.value {
          if j == |kept| {
            assert r[i] == kept[i] && r[j] == last;
            EarlierThanLast(rows, kept[i]);
          } else {
            assert r[i] == kept[i] && r[j] == kept[j];
          }
        }
      }
    }
  }

  /** Any record before the last of a strictly increasing run is earlier than it. */
  lemma EarlierThanLast(rows: seq<Record>, x: Record)
    requires StrictlyIncreasing(rows) && |rows| > 0 && x in rows[..|rows| - 1]
    ensures x.timestamp.Some? && x.timestamp.value < rows[|rows| - 1].timestamp.value
  {
    var p :| 0 <= p < |rows| - 1 && rows[..|rows| - 1][p] == x;
    assert rows[p] == x;
  }

  /** pandas' row-wise `max(axis=1)`: missing values are skipped; missing
      when both are. */
  function MaxSkip(a: Option<real>, b: Option<real>): Option<real> {
    if a.None? then b
    else if b.None? then a
    else if a.value >= b.value then a else b
  }

  /** pandas' row-wise `min(axis=1)`, skipping missing values. */
  function MinSkip(a: Option<real>, b: Option<real>): Option<real> {
    if a.None? then b
    else if b.None? then a
    else if a.value <= b.value then a else b
  }

  /** The high/low repair: `high := max(high, low)`, then
      `low := min(high, low)` on the updated high. */
  function Repair(x: Record): (r: Record)
    ensures r.timestamp == x.timestamp && r.open == x.open && r.close == x.close && r.volume == x.volume
    ensures !HighUnderLow(r)
    // a present low is kept and the high raised to it when needed
    ensures x.low.Some? ==> r.low == x.low && r.high.Some? && r.high.value >= x.low.value
    ensures x.low.Some? && x.high.Some? ==> r.high.value >= x.high.value && (r.high == x.high || r.high == x.low)
    ensures x.low.Some? && x.high.None? ==> r.high == x.low
    // a missing low is skipped by both reductions and so takes the high
    ensures x.low.None? ==> r.high == x.high && r.low == x.high
    ensures !NegativePrice(x) ==> !NegativePrice(r)
    ensures !HasNull(x) ==> !HasNull(r)
  {
    var high := MaxSkip(x.high, x.low);
    var low := MinSkip(high, x.low);
    x.(high := high, low := low)
  }

  /** A complete record whose high is not below its low is left alone. */
  lemma RepairIdle(x: Record)
    requires !HasNull(x) && !HighUnderLow(x)
    ensures Repair(x) == x
  {
  }

  /** `DataValidator.clean`: drop duplicate timestamps (first wins), sort by
      time, fill missing values forward then backward, drop rows with a
      negative price, repair high/low. */
  function Clean(rows: seq<Record>): (r: seq<Record>)
    ensures |r| <= |rows|
    ensures forall i :: 0 <= i < |r| ==> !NegativePrice(r[i]) && !HighUnderLow(r[i])
  {
    RepairAll(Stages(rows))
  }

  /** The high/low repair applied to every record. */
  function RepairAll(rows: seq<Record>): (r: seq<Record>)
    ensures |r| == |rows| && forall i :: 0 <= i < |rows| ==> r[i] == Repair(rows[i])
  {
    seq(|rows|, i requires 0 <= i < |rows| => Repair(rows[i]))
  }

  /** The stages of `Clean` before the repair. */
  function Stages(rows: seq<Record>): (r: seq<Record>)
    ensures |r| <= |rows|
    ensures forall i :: 0 <= i < |r| ==> !NegativePrice(r[i])
  {
    var d := Dedup(rows);
    var s := SortByTime(d);
    DropNegative(FillRows(s))
  }

  /** Sorted records with distinct, present timestamps are strictly increasing. */
  lemma SortedDistinctIncreasing(s: seq<Record>)
    requires SortedByTime(s) && Distinct(Timestamps(s))
    requires forall i :: 0 <= i < |s| ==> s[i].timestamp.Some?
    ensures StrictlyIncreasing(s)
  {
    forall i, j | 0 <= i < j < |s| ensures s[i].timestamp.value < s[j].timestamp.value {
      assert TimeLe(s[i].timestamp, s[j].timestamp);
      assert Timestamps(s)[i] != Timestamps(s)[j];
    }
  }

  /** Deduplicating and sorting records whose timestamps are all present
      gives strictly increasing timestamps taken from the input. */
  lemma SortedStage(rows: seq<Record>)
    requires forall i :: 0 <= i < |rows| ==> rows[i].timestamp.Some?
    ensures StrictlyIncreasing(SortByTime(Dedup(rows)))
    ensures forall i :: 0 <= i < |SortByTime(Dedup(rows))| ==> SortByTime(Dedup(rows))[i].timestamp in Timestamps(rows)
  {
    var d := Dedup(rows);
    var s := SortByTime(d);
    PermutationKeepsDistinct(d, s);
    forall i | 0 <= i < |s| ensures s[i].timestamp.Some? && s[i].timestamp in Timestamps(rows) {
      assert Timestamps(s)[i] == s[i].timestamp;
      PermutationKeepsTimestamps(d, s, s[i].timestamp);
      var p :| 0 <= p < |rows| && Timestamps(rows)[p] == s[i].timestamp;
    }
    SortedDistinctIncreasing(s);
  }

  /** Filling leaves present timestamps, and so their order, alone. */
  lemma FillKeepsOrder(s: seq<Record>)
    requires StrictlyIncreasing(s)
    ensures StrictlyIncreasing(FillRows(s))
    ensures forall i :: 0 <= i < |s| ==> FillRows(s)[i].timestamp == s[i].timestamp
  {
  }

  lemma StagesOrdered(rows: seq<Record>)
    requires forall i :: 0 <= i < |rows| ==> rows[i].timestamp.Some?
    ensures StrictlyIncreasing(Stages(rows))
    ensures forall i :: 0 <= i < |Stages(rows)| ==> Stages(rows)[i].timestamp in Timestamps(rows)
  {
    var s := SortByTime(Dedup(rows));
    SortedStage(rows);
    var f := FillRows(s);
    FillKeepsOrder(s);
    DropKeepsOrder(f);
    assert DropNegative(f) == Stages(rows);
    forall i | 0 <= i < |f| ensures f[i].timestamp in Timestamps(rows) {
      assert f[i].timestamp == s[i].timestamp;
    }
    DroppedTimesFrom(f, Timestamps(rows));
  }

  /** Records kept by the negative-price filter keep their timestamps, so
      timestamps drawn from `ts` stay drawn from it. */
  lemma DroppedTimesFrom(f: seq<Record>, ts: seq<Option<int>>)
    requires forall i :: 0 <= i < |f| ==> f[i].timestamp in ts
    ensures forall i :: 0 <= i < |DropNegative(f)| ==> DropNegative(f)[i].timestamp in ts
  {
    var g := DropNegative(f);
    forall i | 0 <= i < |g| ensures g[i].timestamp in ts {
      assert g[i] in f;
      var p :| 0 <= p < |f| && f[p] == g[i];
    }
  }

  /** With every input timestamp present, the cleaned table is in strictly
      increasing time order and takes its timestamps from the input. */
  lemma CleanOrdered(rows: seq<Record>)
    requires forall i :: 0 <= i < |rows| ==> rows[i].timestamp.Some?
    ensures StrictlyIncreasing(Clean(rows))
    ensures forall i :: 0 <= i < |Clean(rows)| ==> Clean(rows)[i].timestamp in Timestamps(rows)
  {
    StagesOrdered(rows);
    var g := Stages(rows);
    var c := Clean(rows);
    assert c == RepairAll(g);
    assert Timestamps(c) == Timestamps(g);
    SameTimesOrdered(g, c);
  }

  /** Only the timestamps decide whether records are in strictly increasing order. */
  lemma SameTimesOrdered(a: seq<Record>, b: seq<Record>)
    requires StrictlyIncreasing(a) && Timestamps(a) == Timestamps(b)
    ensures StrictlyIncreasing(b)
  {
    assert forall i :: 0 <= i < |b| ==> b[i].timestamp == Timestamps(a)[i] == a[i].timestamp;
  }

  /** Where a record of one arrangement sits in another. */
  lemma Moved(a: seq<Record>, b: seq<Record>, i: nat) returns (j: nat)
    requires multiset(a) == multiset(b) && i < |a|
    ensures j < |b| && b[j] == a[i]
  {
    assert a[i] in multiset(b);
    j :| 0 <= j < |b| && b[j] == a[i];
  }

  /** Reordering records keeps a value in every column. */
  lemma PermutationKeepsValues(a: seq<Record>, b: seq<Record>)
    requires multiset(a) == multiset(b) && EachColumnHasValue(a)
    ensures EachColumnHasValue(b)
  {
    var i0 :| 0 <= i0 < |a| && Timestamps(a)[i0].Some?;
    var i1 :| 0 <= i1 < |a| && OpenColumn(a)[i1].Some?;
    var i2 :| 0 <= i2 < |a| && HighColumn(a)[i2].Some?;
    var i3 :| 0 <= i3 < |a| && LowColumn(a)[i3].Some?;
    var i4 :| 0 <= i4 < |a| && CloseColumn(a)[i4].Some?;
    var i5 :| 0 <= i5 < |a| && VolumeColumn(a)[i5].Some?;
    var j0 := Moved(a, b, i0);
    var j1 := Moved(a, b, i1);
    var j2 := Moved(a, b, i2);
    var j3 := Moved(a, b, i3);
    var j4 := Moved(a, b, i4);
    var j5 := Moved(a, b, i5);
    assert Timestamps(b)[j0].Some? && OpenColumn(b)[j1].Some? && HighColumn(b)[j2].Some?;
    assert LowColumn(b)[j3].Some? && CloseColumn(b)[j4].Some? && VolumeColumn(b)[j5].Some?;
  }

  /** When every column still has a value once duplicates are dropped, the
      cleaned table has no missing value. */
  lemma CleanComplete(rows: seq<Record>)
    requires EachColumnHasValue(Dedup(rows))
    ensures forall i :: 0 <= i < |Clean(rows)| ==> !HasNull(Clean(rows)[i])
  {
    StagesComplete(rows);
    var g := Stages(rows);
    var c := Clean(rows);
    assert c == RepairAll(g);
    forall i | 0 <= i < |c| ensures !HasNull(c[i]) {
      assert c[i] == Repair(g[i]);
    }
  }

  /** The staged rows miss no value when every column had one after deduplication. */
  lemma StagesComplete(rows: seq<Record>)
    requires EachColumnHasValue(Dedup(rows))
    ensures forall i :: 0 <= i < |Stages(rows)| ==> !HasNull(Stages(rows)[i])
  {
    var s := SortByTime(Dedup(rows));
    PermutationKeepsValues(Dedup(rows), s);
    FillRowsComplete(s);
    var f := FillRows(s);
    var g := DropNegative(f);
    assert g == Stages(rows);
    forall i | 0 <= i < |g| ensures !HasNull(g[i]) {
      assert g[i] in f;
      var p :| 0 <= p < |f| && f[p] == g[i];
    }
  }

  /** Records whose timestamps are already distinct are all kept. */
  lemma {:induction false} DedupIdle(rows: seq<Record>)
    requires Distinct(Timestamps(rows))
    ensures Dedup(rows) == rows
  {
    if |rows| > 0 {
      var init := rows[..|rows| - 1];
      var last := rows[|rows| - 1];
      assert forall i :: 0 <= i < |init| ==> Timestamps(init)[i] == Timestamps(rows)[i];
      DedupIdle(init);
      assert last.timestamp !in Timestamps(init) by {
        forall i | 0 <= i < |init| ensures Timestamps(init)[i] != last.timestamp {
          assert Timestamps(rows)[|rows| - 1] == last.timestamp;
        }
      }
      assert rows == init + [last];
    }
  }

  /** A record repeating a timestamp already seen is dropped. */
  lemma DedupDropsRepeat(rows: seq<Record>, x: Record)
    requires x.timestamp in Timestamps(rows)
    ensures Dedup(rows + [x]) == Dedup(rows)
  {
    assert (rows + [x])[..|rows|] == rows;
  }

  /** Sorting sorted records changes nothing. */
  lemma {:induction false} SortIdle(rows: seq<Record>)
    requires SortedByTime(rows)
    ensures SortByTime(rows) == rows
  {
    if |rows| > 0 {
      SortIdle(rows[1..]);
      if |rows| > 1 {
        assert TimeLe(rows[0].timestamp, rows[1..][0].timestamp);
      }
      assert [rows[0]] + rows[1..] == rows;
    }
  }

  /** Clean input: distinct sorted timestamps, no missing value, no negative
      price and no high below low. `clean` returns it unchanged. */
  lemma CleanIdle(rows: seq<Record>)
    requires StrictlyIncreasing(rows)
    requires forall i :: 0 <= i < |rows| ==> !HasNull(rows[i]) && !NegativePrice(rows[i]) && !HighUnderLow(rows[i])
    ensures Clean(rows) == rows
  {
    StagesIdle(rows);
    var c := Clean(rows);
    assert c == RepairAll(rows);
    forall i | 0 <= i < |rows| ensures c[i] == rows[i] {
      RepairIdle(rows[i]);
    }
  }

  /** The same input passes the stages before the repair unchanged. */
  lemma StagesIdle(rows: seq<Record>)
    requires StrictlyIncreasing(rows)
    requires forall i :: 0 <= i < |rows| ==> !HasNull(rows[i]) && !NegativePrice(rows[i])
    ensures Stages(rows) == rows
  {
    assert Distinct(Timestamps(rows)) by {
      forall i, j | 0 <= i < j < |rows| ensures Timestamps(rows)[i] != Timestamps(rows)[j] {
        assert rows[i].timestamp.value < rows[j].timestamp.value;
      }
    }
    DedupIdle(rows);
    assert SortedByTime(rows) by {
      forall i, j | 0 <= i < j < |rows| ensures TimeLe(rows[i].timestamp, rows[j].timestamp) {
        assert rows[i].timestamp.value < rows[j].timestamp.value;
      }
    }
    SortIdle(rows);
    assert FillRows(rows) == rows;
    DropNegativeIdle(rows);
  }

  /** Non-decreasing neighbours give non-decreasing pairs. */
  lemma {:induction false} ChainLe(rows: seq<Record>, i: nat, j: nat)
    requires TimestampsIncreasing(rows) && i <= j < |rows|
    ensures rows[i].timestamp.value <= rows[j].timestamp.value
    decreases j - i
  {
    if i < j {
      ChainLe(rows, i + 1, j);
    }
  }

  /** Data that `validate` passes without a single warning is left
      unchanged by `clean`. */
  lemma ValidIsClean(t: Table, strict: bool)
    requires Validate(t, strict) == Ok((true, []))
    ensures Clean(t.rows) == t.rows
  {
    var rows := t.rows;
    assert ValueWarnings(rows) == [];
    NoWarningsExactly(rows);
    PassingRecords(rows);
    IncreasingDistinct(rows);
    CleanIdle(rows);
  }

  /** Records that pass every record check are complete, non-negative and repaired. */
  lemma PassingRecords(rows: seq<Record>)
    requires forall k, i :: 0 <= k < |RecordChecks| && 0 <= i < |rows| ==> !Fails(RecordChecks[k], rows[i])
    ensures forall i :: 0 <= i < |rows| ==> !HasNull(rows[i]) && !NegativePrice(rows[i]) && !HighUnderLow(rows[i])
  {
    forall i | 0 <= i < |rows| ensures !HasNull(rows[i]) && !NegativePrice(rows[i]) && !HighUnderLow(rows[i]) {
      assert !Fails(RecordChecks[0], rows[i]) && !Fails(RecordChecks[1], rows[i]) && !Fails(RecordChecks[2], rows[i]);
      assert !Fails(RecordChecks[3], rows[i]) && !Fails(RecordChecks[4], rows[i]) && !Fails(RecordChecks[5], rows[i]);
    }
  }

  /** Non-decreasing distinct timestamps are strictly increasing. */
  lemma IncreasingDistinct(rows: seq<Record>)
    requires TimestampsIncreasing(rows) && Distinct(Timestamps(rows))
    ensures StrictlyIncreasing(rows)
  {
    forall i, j | 0 <= i < j < |rows| ensures rows[i].timestamp.value < rows[j].timestamp.value {
      ChainLe(rows, i, j);
      assert Timestamps(rows)[i] != Timestamps(rows)[j];
    }
  }
}

=== FILE: wrappers.dfy ===
/** Failure-compatible wrappers shared by every module of the model.

    The modelled code signals unrecoverable input errors by raising Python
    exceptions; the model returns them as `Err` values of `Outcome`, one
    `Error` constructor per exception class the code can raise. */
module Wrappers {

  /** An optional value: `None` plays the part of Python's `None` and of a
      pandas missing value (NaN / NaT). */
  datatype Option<T> = None | Some(value: T) {

    /** The wrapped value, or `default` when there is none. */
    function GetOr(default: T): T {
      match this
      case Some(v) => v
      case None => default
    }
  }

  /** The exception classes raised by the modelled code. */
  datatype Error =
    | ValueError(message: string)
    | ZeroDivisionError
    | IndexError
    | TypeError(column: string)

  /** Either a value or the exception that replaced it. Usable with `:-`. */
  datatype Outcome<T> = Ok(value: T) | Err(error: Error) {

    predicate IsFailure() {
      Err?
    }

    function PropagateFailure<U>(): Outcome<U>
      requires Err?
    {
      Err(error)
    }

    function Extract(): T
      requires Ok?
    {
      value
    }
  }
}
